=== FILE: README.md ===
# dynacloud-web-api: a verified model of the CMS service layer

This project models the service layer of a bilingual (Chinese/English) content management backend. The backend serves home-page banners, partner customers, case studies, news, product services, four kinds of categories, three single-record pages (company information, "about us", the privacy policy) and contact-form submissions. Around those services it models three shared pieces:

- the response envelope with its timestamp rewriting;
- the HTML escaping of outgoing contact e-mails;
- the post-processing of the generated OpenAPI document.

The object-relational store is replaced by an abstract in-memory table, the class `Tables.Table`:

- It holds its rows in creation order, with a clock that gives every row its id and its `createdAt`/`updatedAt` stamps.
- `orderBy: { createdAt: 'desc' }` is therefore the reverse of a filtered table, and `findFirst` ordered by `createdAt` ascending is its first row.
- Each store call is one method of the class (`Insert`, `Update`, `Delete`), and a transaction is one step.

Each service keeps its shape:

- Projections to one language, validations, `where` clauses and read queries are functions.
- The operations that write (create, update, remove, sort, soft delete) are methods on the tables they change, each proved against the functions that state its outcome.

The module layout:

| modules | what they hold |
|---|---|
| `Base`, `Locale`, `Text`, `Search`, `Paging` | shared vocabulary (errors, the three-state request field), the language resolution, JavaScript `trim()`, the search clause and offset pagination |
| `Tables`, `Sorting`, `Sortable` | the store, the `sortOrder` ordering, and the all-or-nothing `updateSort` shared by banners and customers |
| `Banner`, `Customer`, `Case`, `News`, `Service`, `Contact` | one module per content service |
| `Category`, `CaseCategory`, `BlogCategory`, `NewsCategory`, `ServiceCategory` | the category services; `Category` holds what they share |
| `Singleton`, `CompanyInfo`, `About`, `PrivacyPolicy` | the single-record pages |
| `Mail`, `Response`, `ApiDocs` | the e-mail escaping, the response interceptor and the OpenAPI document processing in the bootstrap file |

## Model

| member | source | states |
|---|---|---|
| Base.MergedIsWrittenUnlessNull | src/banner/banner.service.ts:193-227 | the merged value and the written value coincide except for an explicit `null` over a stored value, where they differ |
| Locale.Resolve | src/case/case.service.ts:207-208 | `language \|\| 'en'`: a missing or empty tag resolves to English, any other tag is kept |
| Locale.OrEnglish | src/banner/banner.service.ts:162 | a default parameter: only a missing tag becomes `'en'`; an empty tag is kept |
| Locale.ResolveAgreesWithDefault | src/banner/banner.service.ts:121-123 | both defaulting styles select the same half; Chinese is selected exactly for a present tag that is `zh`, `zh-TW` or `zh-CN` |
| Locale.PickDependsOnlyOnIsZh | src/banner/banner.service.ts:26-38 | two tags that are both Chinese, or both not, make the same choice |
| Locale.ValidateLanguageSettings | src/banner/banner.service.ts:41-48 | the request is refused, with the no-language error, exactly when both show flags are false |
| Locale.In | src/about/about.service.ts:17-24 | a Chinese tag selects the `zh_` column of a pair; every other tag selects the `en_` column |
| Locale.OverwriteLaws | src/case/case.service.ts:303-346 | naming neither half keeps the pair, writing twice equals writing once, naming both halves replaces the pair |
| Text.TrimStart | src/case/case.service.ts:223 | the result is a suffix of the input without leading whitespace, and everything cut off is whitespace |
| Text.TrimEnd | src/case/case.service.ts:223 | the result is a prefix of the input without trailing whitespace, and everything cut off is whitespace |
| Text.TrimNonEmptyIff | src/case/case.service.ts:223 | `query.trim()` is non-empty exactly when the query holds a non-whitespace character |
| Text.ContainsInfix | src/case/case.service.ts:225-234 | the `contains` filter finds any text placed between two other strings, the empty text included |
| Text.ContainsNeedsRoom | src/case/case.service.ts:225-234 | a needle longer than the column is never found |
| Search.SearchingIff | src/case/case.service.ts:223 | the search clause is applied exactly when the query is present and has a non-whitespace character |
| Search.SearchMatchCases | src/case/case.service.ts:223-236 | a blank or missing query filters nothing; otherwise a row matches iff one of the listed columns contains the untrimmed query |
| Search.ColumnWithQueryMatches | src/case/case.service.ts:224-235 | a row whose listed column contains the query is found |
| Paging.PageNumber | src/case/case.service.ts:204 | the page is the requested page when positive, otherwise 1; it is always at least 1 |
| Paging.PageLimit | src/case/case.service.ts:205 | the limit is the requested limit when positive, otherwise 25; it is always at least 1 |
| Paging.SkipIsProduct | src/case/case.service.ts:206 | the rows skipped are `(page - 1) * limit` |
| Paging.Window | src/case/case.service.ts:242-252 | `skip`/`take` returns the rows from position `skip` onwards, at most `take` of them and none past the end |
| Paging.Paginate | src/case/case.service.ts:203-269 | the page holds the window at `skip`, its total counts every matching row, and `has_next` holds iff rows remain after the page |
| Paging.MapData | src/case/case.service.ts:255 | projecting a page keeps its pagination block and maps each entry in place |
| Paging.PageCountBounds | src/case/case.service.ts:256-258 | ceil(total / limit) pages are enough for every row, and one page fewer is not |
| Paging.LastPage | src/case/case.service.ts:256-258 | every page before the last is full and reports a next page; the last page holds the remainder and reports none |
| Paging.FirstPagesArePrefix | src/case/case.service.ts:203-269 | reading pages 1 to n returns the first n × limit matching rows, each once and in order |
| Paging.AllPagesCoverEverything | src/contact/contact.service.ts:48-91 | reading every page up to the last returns every matching row exactly once |
| Tables.Find | src/case/case.service.ts:128-141 | `findUnique` finds a row carrying the id exactly when the id is in the table |
| Tables.Column | src/case-category/case-category.service.ts:113-115 | the column a category guard counts: one entry per row, in table order, each the row's key |
| Tables.Where | src/case/case.service.ts:211-236 | the rows returned are exactly those of the table that the `where` accepts |
| Tables.WhereKeepsOrder | src/case/case.service.ts:242-252 | filtering keeps creation order and distinct ids |
| Tables.WhereKeepsAll | src/case/case.service.ts:362-437 | a `where` that accepts every row returns the whole table |
| Tables.Reverse | src/case/case.service.ts:249-251 | the reversed sequence holds the same elements in the opposite positions |
| Tables.NewestFirst | src/case/case.service.ts:249-251 | `createdAt: 'desc'` returns the same rows, newest first, ids still distinct |
| Tables.NewestMatching | src/case/case.service.ts:239-252 | the rows listed are exactly the matching ones, newest first, and as many as `count({ where })` |
| Tables.ReverseKeepsElements | src/case/case.service.ts:249-251 | reversing is a permutation |
| Tables.Modified | src/case/case.service.ts:303-346 | `update` rewrites the row with the id, with a new `updatedAt`, and leaves every other row as it was |
| Tables.WithData | src/banner/banner.service.ts:213-227 | the table after writing known data into one row: that row changes, every other row stays |
| Tables.FindUnique | src/case/case.service.ts:128-141 | with distinct ids, looking up a row's id returns that row |
| Tables.ModifiedIsWithData | src/case/case.service.ts:283-347 | patching the row with an id equals writing the patched data of the row the lookup returned |
| Tables.Without | src/case/case.service.ts:350-359 | `delete` leaves exactly the rows with other ids |
| Tables.WithoutKeepsOrder | src/case/case.service.ts:354-356 | deletion keeps creation order and distinct ids |
| Tables.WithoutCount | src/case/case.service.ts:354-356 | deleting an absent id changes nothing; deleting a present id removes exactly one row |
| Tables.Table.constructor | src/case/case.service.ts:173 | a new table is empty and valid |
| Tables.Table.Insert | src/case/case.service.ts:173 | `create` appends one row with the data, a new id and a `createdAt` after every other row |
| Tables.Table.Update | src/case/case.service.ts:303 | `update` turns the rows into `Modified` of the old rows and keeps the set of ids |
| Tables.Table.Delete | src/case/case.service.ts:354 | `delete` turns the rows into `Without` of the old rows, with the table still valid |
| Sorting.InsertByKey | src/banner/banner.service.ts:127-129 | inserting into a sorted list keeps it sorted and adds exactly that element |
| Sorting.SortByKey | src/banner/banner.service.ts:127-129 | `orderBy: { sortOrder: 'asc' }` returns a permutation of the rows in ascending `sortOrder` |
| Sorting.SortKeepsMembers | src/customer/customer.service.ts:82-107 | the sorted list holds exactly the rows of the input |
| Sortable.MaxKey | src/banner/banner.service.ts:97-99 | `_max` is absent on an empty table, otherwise a stored value at least as large as every other |
| Sortable.NextSortOrder | src/banner/banner.service.ts:100 | `(max \|\| 0) + 1` is larger than every stored `sortOrder`, and is 1 on an empty table |
| Sortable.Existing | src/banner/banner.service.ts:248-250 | the rows whose id is requested |
| Sortable.Missing | src/banner/banner.service.ts:252-258 | the requested ids that no row carries, in request order |
| Sortable.CheckSortRequest | src/banner/banner.service.ts:247-259 | a refusal is Not Found for the entity and lists the missing ids |
| Sortable.CheckSortRequestIff | src/banner/banner.service.ts:247-259 | the request passes exactly when every id exists and none repeats; the missing list is empty exactly when every id exists, so a repeated id is refused with an empty list |
| Sortable.ExistingCount | src/banner/banner.service.ts:248-253 | with distinct row ids, the matches counted are as many as the different existing ids requested |
| Sortable.DistinctCard | src/banner/banner.service.ts:253 | a request has no more different ids than items, and as many exactly when no id repeats |
| Sortable.RequestedOrder | src/banner/banner.service.ts:262-269 | a row gets a value from the transaction exactly when some item names it |
| Sortable.RequestedOrderOfDistinct | src/banner/banner.service.ts:262-269 | with no repeated id, each listed row gets exactly the value listed for it |
| Sortable.ApplySortOrders | src/banner/banner.service.ts:262-269 | the transaction writes the requested value into every listed row, keeps positions, ids and every unlisted row, and leaves a valid table |
| Sortable.NotYetRequested | src/banner/banner.service.ts:262-269 | with no repeated id, no earlier item names the id of the current one |
| Sortable.SortStep | src/banner/banner.service.ts:264-267 | one `update` of the transaction extends the written prefix by its item |
| Sortable.SortWritesRequested | src/customer/customer.service.ts:162-169 | after a successful sort request each listed row holds its requested value and each unlisted row is unchanged |
| Banner.Transform | src/banner/banner.service.ts:26-38 | a Chinese tag selects the `zh_` image, url and link, any other tag the `en_` ones; id, duration and type are copied |
| Banner.TransformDefaultsToEnglish | src/banner/banner.service.ts:121-133 | a request without a language is served the English columns, and the three Chinese tags give the same view |
| Banner.ValidateRequiredFields | src/banner/banner.service.ts:51-83 | the banner passes iff each shown site has an image (image banner) or a video url (video banner); the Chinese checks come first, and a site not shown is never checked |
| Banner.DurationOrDefault | src/banner/banner.service.ts:112 | a missing or zero duration becomes 3 seconds, any other is kept |
| Banner.NewBanner | src/banner/banner.service.ts:86-117 | `create` accepts exactly the requests showing some site (flags default to true) with the fields the type needs, and stores a complete banner with a `sortOrder` above every existing one |
| Banner.Create | src/banner/banner.service.ts:86-117 | a refused request writes nothing; an accepted one appends exactly the new banner; a table of complete banners stays complete |
| Banner.Visible | src/banner/banner.service.ts:140-151 | the admin `where` keeps exactly the banners shown on the given site, or all of them without a language |
| Banner.ListByAdmin | src/banner/banner.service.ts:137-159 | the visible banners in ascending `sortOrder`, every banner when no language is given |
| Banner.FindAll | src/banner/banner.service.ts:120-134 | the banners of the resolved language's site, in ascending `sortOrder`, each projected to that language |
| Banner.FindAllShowsExactlyFlagged | src/banner/banner.service.ts:120-134 | the public list holds exactly the banners flagged for the resolved language, the English flag when no language is given |
| Banner.NewestSortsLast | src/banner/banner.service.ts:96-100 | a banner created after the others comes last in the admin list |
| Banner.FindOne | src/banner/banner.service.ts:162-172 | Not Found exactly for an unknown id, otherwise the banner projected to the language (English when omitted) |
| Banner.FindOneByAdmin | src/banner/banner.service.ts:175-185 | Not Found exactly for an unknown id, otherwise the stored row |
| Banner.Patched | src/banner/banner.service.ts:213-227 | every field that is not `undefined` is written (a `null` clears a nullable column), every other field and `sortOrder` are kept |
| Banner.PatchedLaws | src/banner/banner.service.ts:213-227 | an update naming no field changes nothing, and repeating an update changes nothing more |
| Banner.CheckUpdateAsWritten | src/banner/banner.service.ts:193-211 | the written update passes exactly when the `??`-merged flags show a site and the `??`-merged media fields satisfy the type |
| Banner.UpdateAsWritten | src/banner/banner.service.ts:188-228 | the written update stores the patch exactly when the merged check passes |
| Banner.NullPassesUpdateCheck | src/banner/banner.service.ts:193-227 | an explicit `null` image on a complete image banner shown in Chinese passes the written check and leaves an incomplete banner |
| Banner.ApplyUpdate | src/banner/banner.service.ts:188-228 | the corrected update accepts exactly the patches whose result is complete, and stores that result |
| Banner.ApplyUpdateAgreesWithoutNull | src/banner/banner.service.ts:188-228 | without an explicit `null` in a media field the corrected and the written update agree on every request |
| Banner.Update | src/banner/banner.service.ts:188-228 | Not Found for an unknown id; otherwise the update as written: a request refused by the `??`-merged check writes nothing, an accepted one stores the `!== undefined` patch on that banner only; a table of complete banners stays complete when no media field of the request is an explicit `null` (with one, `Banner.NullPassesUpdateCheck` shows it need not) |
| Banner.Remove | src/banner/banner.service.ts:231-240 | Not Found and no deletion for an unknown id, otherwise exactly that banner is deleted |
| Banner.UpdateSort | src/banner/banner.service.ts:243-273 | a request naming a missing or repeated id writes nothing; otherwise every listed banner gets its value, the others are untouched, and the full admin list is returned |
| Customer.Transform | src/customer/customer.service.ts:28-37 | the name is the `zh_name` for a Chinese tag, the `en_name` otherwise; logo and url are copied |
| Customer.NewCustomer | src/customer/customer.service.ts:40-66 | an empty Chinese name, then an empty English name, then an empty logo is refused; an accepted customer sorts after every existing one |
| Customer.Create | src/customer/customer.service.ts:40-66 | a refused request writes nothing; an accepted one appends exactly the new customer |
| Customer.ListByAdmin | src/customer/customer.service.ts:101-107 | every customer, in ascending `sortOrder` |
| Customer.FindAll | src/customer/customer.service.ts:82-92 | the same list with no visibility filter, each customer projected to the language (English when omitted) |
| Customer.FindAllListsEveryone | src/customer/customer.service.ts:82-92 | every stored customer appears in the public list |
| Customer.FindOne | src/customer/customer.service.ts:95-98 | Not Found exactly for an unknown id, otherwise the projected customer |
| Customer.Patched | src/customer/customer.service.ts:115-128 | the fields the request names are written, the others and `sortOrder` kept |
| Customer.PatchedLaws | src/customer/customer.service.ts:115-128 | an update naming no field changes nothing, and repeating an update changes nothing more |
| Customer.Update | src/customer/customer.service.ts:115-128 | Not Found and no write for an unknown id, otherwise only that customer changes |
| Customer.Remove | src/customer/customer.service.ts:131-140 | Not Found and no deletion for an unknown id, otherwise exactly one row, that customer, is deleted |
| Customer.UpdateSort | src/customer/customer.service.ts:143-173 | all or nothing as for banners, and the full list is returned in ascending `sortOrder` |
| Category.ProjectName | src/case-category/case-category.service.ts:23-30 | `{ id, name }` with the Chinese name for a Chinese tag and the English name otherwise |
| Category.CheckNames | src/case-category/case-category.service.ts:33-41 | an empty Chinese name is refused first, then an empty English name; accepted names are both non-empty |
| Category.Uses | src/case-category/case-category.service.ts:113-115 | `count` of the rows referring to the category, zero exactly when none does |
| Category.InUse | src/case-category/case-category.service.ts:113-121 | deletion is refused exactly when some row refers to the category, with their number |
| Category.ListByAdmin | src/case-category/case-category.service.ts:83-89 | every category, newest first |
| Category.FindAll | src/case-category/case-category.service.ts:64-74 | every category, newest first, projected to the language (English when omitted) |
| Category.FindAllListsEach | src/blog-category/blog-category.service.ts:61-71 | each stored category is listed, at the position its age gives it |
| Category.FindOne | src/case-category/case-category.service.ts:51-80 | Not Found exactly for an unknown id, otherwise the projected category |
| Category.FindOneByAdmin | src/case-category/case-category.service.ts:92-94 | Not Found exactly for an unknown id, otherwise the stored row |
| Category.Rename | src/case-category/case-category.service.ts:97-108 | Not Found and no write for an unknown id, otherwise the names the request carries are written on that category only, unchecked |
| Category.RemoveUnused | src/case-category/case-category.service.ts:111-131 | Not Found for an unknown id, refused with the count while referenced, otherwise exactly that category is deleted |
| CaseCategory.Create | src/case-category/case-category.service.ts:33-48 | a refused name writes nothing; accepted names append one category |
| CaseCategory.Remove | src/case-category/case-category.service.ts:111-131 | refused with the number of cases of any status filed under the category, otherwise a hard delete |
| CaseCategory.RemoveKeepsCasesFiled | src/case-category/case-category.service.ts:111-131 | a deletion the guard lets through leaves every case filed under an existing category |
| BlogCategory.CheckBothNames | src/blog-category/blog-category.service.ts:33-45 | either name empty gives the one "required fields" error; otherwise both names are stored |
| BlogCategory.SameNamesAsOtherCategories | src/blog-category/blog-category.service.ts:33-45 | blog categories accept exactly the names that case and news categories accept |
| BlogCategory.Create | src/blog-category/blog-category.service.ts:33-45 | a refused request writes nothing; otherwise one category is appended |
| BlogCategory.Remove | src/blog-category/blog-category.service.ts:108-128 | Not Found for an unknown id, refused with the post count while posts file under it, otherwise a hard delete |
| NewsCategory.FindLive | src/news-category/news-category.service.ts:51-61 | a soft-deleted category is not found, just like a missing one |
| NewsCategory.Create | src/news-category/news-category.service.ts:33-48 | the names are checked as for case categories; the new category is live |
| NewsCategory.ListByAdmin | src/news-category/news-category.service.ts:86-95 | exactly the live categories, newest first |
| NewsCategory.FindAll | src/news-category/news-category.service.ts:64-77 | the live categories, newest first, projected to the language |
| NewsCategory.FindAllHidesDeleted | src/news-category/news-category.service.ts:64-77 | no soft-deleted category is listed |
| NewsCategory.FindOne | src/news-category/news-category.service.ts:80-83 | Not Found exactly when no live category has the id |
| NewsCategory.FindOneByAdmin | src/news-category/news-category.service.ts:98-100 | Not Found exactly when no live category has the id, otherwise the live row |
| NewsCategory.Update | src/news-category/news-category.service.ts:103-114 | Not Found for a missing or soft-deleted id, otherwise only the names the request carries change |
| NewsCategory.SoftDeleteHidesOnlyIt | src/news-category/news-category.service.ts:132-140 | setting `deletedAt` removes exactly that id from the live ids and keeps the row |
| NewsCategory.Remove | src/news-category/news-category.service.ts:117-141 | Not Found for a missing or deleted id, refused with the count while news of any status refer to it, otherwise a soft delete that keeps the row |
| NewsCategory.ForceRemove | src/news-category/news-category.service.ts:144-158 | any existing row, live or soft-deleted, is hard-deleted without a reference check |
| ServiceCategory.Create | src/service-category/service-category.service.ts:25-32 | the names are stored as given, without a check |
| ServiceCategory.FindOne | src/service-category/service-category.service.ts:57-86 | Not Found for an unknown id, otherwise the raw row with exactly the services filed under it |
| ServiceCategory.Update | src/service-category/service-category.service.ts:89-100 | Not Found and no write for an unknown id, otherwise only the names carried change |
| ServiceCategory.HasServices | src/service-category/service-category.service.ts:110-114 | deletion is refused exactly when some service files under the category |
| ServiceCategory.Remove | src/service-category/service-category.service.ts:103-119 | Not Found for an unknown id, refused while services file under it, otherwise a hard delete |
| Case.TransformCategory | src/case/case.service.ts:89-97 | no category gives `null`; otherwise its `{ id, name }` in the language |
| Case.Transform | src/case/case.service.ts:100-118 | every text pair collapsed to the language; cover, logo, status, `updatedAt` copied; the category projected |
| Case.NewCase | src/case/case.service.ts:144-200 | the checks in order (a shown site, cover, company logo, category id, an existing category); on success missing texts become `''` and a missing status Draft |
| Case.NewCaseIsFiled | src/case/case.service.ts:144-171 | every stored case is shown somewhere and files under an existing category |
| Case.Create | src/case/case.service.ts:144-200 | a refused request writes nothing; otherwise exactly the new case is appended and returned with its (existing) category included |
| Case.SearchColumns | src/case/case.service.ts:224-235 | the ten searched columns |
| Case.SearchIgnoresContent | src/case/case.service.ts:224-235 | the content is not searched: changing it changes no match |
| Case.PublicRows | src/case/case.service.ts:211-252 | exactly the Active cases of the language's site, of the category if given, matching the query, newest first |
| Case.FindAll | src/case/case.service.ts:203-269 | one page of those rows, projected, with the pagination block of the same `where` |
| Case.FindAllIsPublic | src/case/case.service.ts:211-236 | every case on a public page is Active, shown on the resolved site, of the requested category and matches the query |
| Case.AdminRows | src/case/case.service.ts:362-412 | each admin filter applies only when its parameter is given; newest first |
| Case.FindAllByAdmin | src/case/case.service.ts:362-437 | one page of the admin rows, newest first, each joined with its category row as `include: { category: true }` returns it |
| Case.AdminListAgreesWithFindOne | src/case/case.service.ts:413-419 | with distinct ids, every admin list entry is exactly what the admin lookup returns for its id |
| Case.AdminUnfilteredListsAll | src/case/case.service.ts:362-412 | with no filter parameter the admin list pages through every case |
| Case.FindOne | src/case/case.service.ts:272-275 | Not Found exactly for an unknown id, whatever the status and flags |
| Case.FindOneByAdmin | src/case/case.service.ts:278-280 | Not Found exactly for an unknown id, otherwise the stored row with its category |
| Case.FindOneIsProjectedAdminRow | src/case/case.service.ts:272-280 | the public and the admin lookup find the same case; the public one is its projection |
| Case.CheckUpdate | src/case/case.service.ts:288-301 | the merged flags must show a site (no-language error otherwise); a truthy new category id must exist (unknown-category error otherwise) |
| Case.Patched | src/case/case.service.ts:303-346 | the fields the request names are written, the others kept |
| Case.UpdateKeepsCaseFiled | src/case/case.service.ts:288-346 | an accepted update keeps the case shown somewhere and filed under an existing category |
| Case.Update | src/case/case.service.ts:283-347 | Not Found for an unknown id; a refused update writes nothing; otherwise only that case changes, and it is returned with the category of its new `categoryId` included |
| Case.Remove | src/case/case.service.ts:350-359 | Not Found for an unknown id, otherwise exactly that case is deleted |
| News.TransformCategory | src/news/news.service.ts:79-87 | no category gives `null`; otherwise its `{ id, name }` in the language |
| News.Transform | src/news/news.service.ts:90-112 | texts collapsed to the language; content present exactly when asked for |
| News.NewNews | src/news/news.service.ts:138-185 | a shown site and a live category are required; missing texts become `''`, a missing status Draft |
| News.Create | src/news/news.service.ts:138-185 | a refused request writes nothing; otherwise exactly the new item is appended and returned with its (existing) category included |
| News.SearchColumns | src/news/news.service.ts:208-216 | the six searched columns |
| News.SearchIgnoresContent | src/news/news.service.ts:208-216 | the content is not searched: changing it changes no match |
| News.PublicRows | src/news/news.service.ts:196-233 | exactly the Active items of the language's site, of the category if given, matching the query, newest first |
| News.FindAll | src/news/news.service.ts:188-250 | one page of those rows, projected without content |
| News.FindAllIsPublic | src/news/news.service.ts:196-217 | every item on a public page is Active, shown on the resolved site and matches the filters |
| News.AdminRows | src/news/news.service.ts:330-380 | each admin filter applies only when its parameter is given; newest first |
| News.FindAllByAdmin | src/news/news.service.ts:330-401 | one page of the admin rows, newest first, each joined with its category row, soft-deleted or not, as `include: { category: true }` returns it |
| News.AdminListAgreesWithFindOne | src/news/news.service.ts:377-383 | with distinct ids, every admin list entry is exactly what the admin lookup returns for its id |
| News.PublicIsAdminWithFilters | src/news/news.service.ts:196-217 | with a language given, the public `where` is the admin `where` plus the Active status |
| News.FindOne | src/news/news.service.ts:253-256 | Not Found exactly for an unknown id, whatever the status; the content is included |
| News.FindOneByAdmin | src/news/news.service.ts:259-261 | Not Found exactly for an unknown id, otherwise the stored row with its category |
| News.ListEntryIsDetailWithoutContent | src/news/news.service.ts:90-112 | a list entry equals the detail with the content removed |
| News.CheckUpdate | src/news/news.service.ts:269-282 | the merged flags must show a site (no-language error otherwise); a truthy new category id must name a live category (unknown-category error otherwise) |
| News.Patched | src/news/news.service.ts:284-314 | the fields the request names, the publication window included, are written; the others are kept |
| News.PatchedLaws | src/news/news.service.ts:284-314 | an update naming no field changes nothing; repeating an update changes nothing more |
| News.Update | src/news/news.service.ts:264-315 | Not Found for an unknown id; a refused update writes nothing; otherwise only that item changes, and it is returned with the category of its new `categoryId` included |
| News.Remove | src/news/news.service.ts:318-327 | Not Found for an unknown id, otherwise exactly that item is deleted |
| News.ReferencedCategoryIsKept | src/news-category/news-category.service.ts:121-130 | a category referenced by any item, whatever its status, cannot be deleted |
| Service.Transform | src/service/service.service.ts:56-80 | a list entry has the category name and no content; a detail has content, `{ id, name }` category and status |
| Service.ListEntryAgreesWithDetail | src/service/service.service.ts:56-80 | the list entry and the detail agree on every field they share |
| Service.NewService | src/service/service.service.ts:106-142 | a shown site is required; an unknown category is Not Found, not Bad Request |
| Service.Create | src/service/service.service.ts:106-142 | a refused request writes nothing; otherwise exactly the new service is appended and returned with its (existing) category included |
| Service.SearchColumns | src/service/service.service.ts:165-172 | the four searched columns |
| Service.SearchIgnoresContent | src/service/service.service.ts:165-172 | the content is not searched: changing it changes no match |
| Service.PublicRows | src/service/service.service.ts:150-189 | exactly the Active services of the language's site, of the category if given, matching the query, newest first |
| Service.FindAll | src/service/service.service.ts:145-205 | one page of those rows as list entries |
| Service.FindAllIsPublic | src/service/service.service.ts:150-173 | every service on a public page is Active, shown on the resolved site and matches the filters |
| Service.AdminRows | src/service/service.service.ts:208-250 | each admin filter applies only when its parameter is given; newest first |
| Service.Selected | src/service/service.service.ts:253-277 | the admin `select` keeps every stored column except the two contents |
| Service.SelectedDropsOnlyContent | src/service/service.service.ts:253-277 | two services differing only in content give the same admin entry |
| Service.FindAllByAdmin | src/service/service.service.ts:208-291 | one page of admin entries, newest first |
| Service.FindOne | src/service/service.service.ts:294-297 | Not Found exactly for an unknown id, otherwise a detail |
| Service.FindOneByAdmin | src/service/service.service.ts:300-302 | Not Found exactly for an unknown id, otherwise the stored row with its category |
| Service.CheckUpdate | src/service/service.service.ts:310-322 | the merged flags must show a site; a truthy new category id must exist (Not Found otherwise) |
| Service.Patched | src/service/service.service.ts:324-345 | the fields the request names are written; the others are kept |
| Service.PatchedLaws | src/service/service.service.ts:324-345 | an update naming no field changes nothing; repeating an update changes nothing more |
| Service.Update | src/service/service.service.ts:305-346 | Not Found for an unknown id; a refused update writes nothing; otherwise only that service changes, and it is returned with the category of its new `categoryId` included |
| Service.Remove | src/service/service.service.ts:349-358 | Not Found for an unknown id, otherwise exactly that service is deleted |
| Service.InCategory | src/service-category/service-category.service.ts:57-70 | the `services` relation: exactly the services filed under the category |
| Singleton.FindFirst | src/company-info/company-info.service.ts:36-48 | Not Found exactly on an empty table, otherwise the first row |
| Singleton.FirstIsEarliest | src/company-info/company-info.service.ts:37-41 | the first row is the earliest created |
| Singleton.WithDataFirst | src/company-info/company-info.service.ts:82-94 | writing the first row's id changes the first row only |
| Singleton.UpdateFirst | src/company-info/company-info.service.ts:66-95 | Not Found on an empty table, otherwise the patch is applied to the earliest row and no other |
| Singleton.TransformContent | src/about/about.service.ts:17-24 | the content in the language, with the id |
| CompanyInfo.Transform | src/company-info/company-info.service.ts:23-33 | address, phone, e-mail and opening hours in the language |
| CompanyInfo.FindFirst | src/company-info/company-info.service.ts:36-48 | Not Found on an empty table, otherwise the earliest row projected |
| CompanyInfo.FindFirstByAdmin | src/company-info/company-info.service.ts:51-63 | the same row raw; the public read is its projection |
| CompanyInfo.Patched | src/company-info/company-info.service.ts:82-93 | the halves the request names are written; the rest is kept |
| CompanyInfo.PatchedLaws | src/company-info/company-info.service.ts:82-93 | an update naming no field changes nothing; repeating an update changes nothing more |
| CompanyInfo.Update | src/company-info/company-info.service.ts:66-95 | Not Found on an empty table, otherwise only the earliest row changes |
| About.FindFirst | src/about/about.service.ts:27-39 | Not Found on an empty table, otherwise the earliest row projected |
| About.FindFirstByAdmin | src/about/about.service.ts:42-54 | the same row raw; the public read is its projection |
| About.Update | src/about/about.service.ts:57-76 | Not Found on an empty table, otherwise only the content halves carried change, on the earliest row only |
| PrivacyPolicy.FindFirst | src/privacy-policy/privacy-policy.service.ts:25-37 | Not Found on an empty table, otherwise the earliest row projected |
| PrivacyPolicy.FindFirstByAdmin | src/privacy-policy/privacy-policy.service.ts:40-52 | the same row raw; the public read is its projection |
| PrivacyPolicy.Update | src/privacy-policy/privacy-policy.service.ts:55-74 | Not Found on an empty table, otherwise only the content halves carried change, on the earliest row only |
| Contact.Create | src/contact/contact.service.ts:34-45 | the submission is appended under a fresh id exactly as sent and returned; no other row changes and the table stays valid |
| Contact.SearchColumns | src/contact/contact.service.ts:56-61 | the four searched columns |
| Contact.Matching | src/contact/contact.service.ts:54-64 | exactly the submissions matching the query, newest first |
| Contact.FindAll | src/contact/contact.service.ts:48-91 | one page of those, each a stored submission matching the query |
| Contact.NoQueryListsAll | src/contact/contact.service.ts:54-67 | without a non-blank query the list counts and pages through every submission |
| Contact.CountAll | src/contact/contact.service.ts:67 | a `where` that accepts every submission counts them all |
| Contact.FindOne | src/contact/contact.service.ts:94-98 | `null`, not an error, for an unknown id |
| Contact.Remove | src/contact/contact.service.ts:101-105 | an unknown id gives the store's error and deletes nothing; otherwise exactly that submission is deleted |
| Mail.EscapeChar | src/mail/mail.service.ts:282-288 | the five special characters map to their entities, every other character to itself |
| Mail.EscapeHtml | src/mail/mail.service.ts:281-290 | the escaped text is never shorter |
| Mail.EscapedHasNoMarkup | src/mail/mail.service.ts:281-290 | no `<`, `>`, `"` or `'` survives escaping |
| Mail.EscapeIsIdentityOnPlainText | src/mail/mail.service.ts:289 | text without special characters is returned unchanged |
| Mail.EscapeGrowsOnSpecial | src/mail/mail.service.ts:289 | text with a special character grows |
| Mail.EscapeIsNotIdempotent | src/mail/mail.service.ts:289 | `&` becomes `&amp;`, then `&amp;amp;` |
| Mail.UnescapeChar | src/mail/mail.service.ts:282-289 | the entity of each character decodes back to that character |
| Mail.UnescapeEscape | src/mail/mail.service.ts:281-290 | decoding the escaped text gives the original text: escaping loses nothing |
| Response.FormatField | src/common/interceptors/response-transform.interceptor.ts:29-47 | one field of the copy keeps its key |
| Response.FormatDates | src/common/interceptors/response-transform.interceptor.ts:17-54 | `null`, `undefined`, primitives and a `Date` come back unchanged; arrays and objects keep their length |
| Response.ArraysMapElementwise | src/common/interceptors/response-transform.interceptor.ts:22-24 | arrays are mapped element by element, in order |
| Response.ObjectFields | src/common/interceptors/response-transform.interceptor.ts:26-53 | a timestamp field with a `Date` or valid date string is formatted; any other timestamp value is kept and not walked into; other object fields are walked; the rest are kept |
| Response.OnlyTimestampsChange | src/common/interceptors/response-transform.interceptor.ts:17-54 | with the timestamp fields blanked, the output equals the input: nothing else changes |
| Response.DatesAreFormatted | src/common/interceptors/response-transform.interceptor.ts:33-46 | no timestamp field the walk reaches still holds a `Date` |
| Response.Intercept | src/common/interceptors/response-transform.interceptor.ts:56-68 | success is true, the result is the walked data, the message is the decorator's or the default when empty or absent |
| ApiDocs.Document.constructor | src/main.ts:39 | the copy holds the given paths and tags |
| ApiDocs.MarkOptional | src/main.ts:13-18 | a parameter named `accept-language` or `Accept-Language` becomes optional; every other parameter is kept |
| ApiDocs.Marked | src/main.ts:13-18 | the `map` applies that to each parameter, in place |
| ApiDocs.SubsequenceMembers | src/main.ts:20-30 | every parameter kept was in the list |
| ApiDocs.KeepFirstDistinct | src/main.ts:20-30 | after the `seen` filter no two parameters share a key, and none has a key seen before |
| ApiDocs.KeepFirstSubsequence | src/main.ts:20-30 | the filter drops parameters and keeps the rest in order |
| ApiDocs.KeepFirstKeepsFirsts | src/main.ts:20-30 | the first parameter with each unseen key is kept |
| ApiDocs.KeepFirstKeys | src/main.ts:20-30 | no key is lost: the keys kept are the keys given minus those seen before |
| ApiDocs.MarkedKeys | src/main.ts:13-24 | marking parameters optional does not change their keys |
| ApiDocs.KeepFirstIdentity | src/main.ts:20-30 | a list whose keys are distinct and unseen is kept whole |
| ApiDocs.ProcessedOperation | src/main.ts:11-31 | an operation without parameters is untouched; otherwise its parameters have distinct keys, come in order from the marked list, keep each first occurrence and every key, and all language parameters are optional |
| ApiDocs.ProcessedOperationIsStable | src/main.ts:11-31 | processing an operation twice is processing it once |
| ApiDocs.ProcessedPaths | src/main.ts:9-33 | paths and methods keep their number and order, each operation processed |
| ApiDocs.ProcessedPathsAreProcessed | src/main.ts:9-33 | after processing every operation is processed |
| ApiDocs.ProcessingFixesProcessed | src/main.ts:9-33 | a document whose operations are all processed is left as it is |
| ApiDocs.ProcessingIsIdempotent | src/main.ts:124 | processing the document twice is processing it once |
| ApiDocs.DedupeParameters | src/main.ts:20-30 | the loop with its `seen` set computes the first-occurrence filter |
| ApiDocs.ProcessItem | src/main.ts:10-32 | the inner loop processes every operation of one path |
| ApiDocs.ProcessDocument | src/main.ts:8-35 | `processSwaggerDocument` rewrites the document's paths in place into their processed form and keeps the tags |
| ApiDocs.KeptMethods | src/main.ts:43-50 | the methods kept are never more than the methods given |
| ApiDocs.KeptMethodsMembers | src/main.ts:43-50 | a method is kept exactly when it has a tag on the allowed list |
| ApiDocs.KeptPaths | src/main.ts:42-57 | the paths kept are never more than the paths given |
| ApiDocs.KeptPathsSound | src/main.ts:42-57 | every path kept is an input path, cut down to its allowed methods, with at least one left |
| ApiDocs.KeptPathsComplete | src/main.ts:42-57 | every input path with an allowed method is kept |
| ApiDocs.KeptTagList | src/main.ts:60-62 | the top-level tags kept are exactly those on the allowed list |
| ApiDocs.KeptTags | src/main.ts:60-62 | no tag list stays none; a tag list is restricted to the allowed names |
| ApiDocs.KeptOperations | src/main.ts:42-57 | an operation is in the filtered document exactly when it has an allowed tag |
| ApiDocs.FilterMethods | src/main.ts:43-50 | the in-place deletion loop over one path computes the allowed methods |
| ApiDocs.FilterPaths | src/main.ts:42-57 | the outer loop over the copied paths cuts each path down to its allowed methods and deletes the paths left empty, computing exactly the kept paths |
| ApiDocs.FilterPathsTurn | src/main.ts:42-57 | one turn of the outer loop (delete an emptied path, or overwrite it with its kept methods) keeps the loop's invariant |
| ApiDocs.FilterByTags | src/main.ts:38-65 | `filterDocumentByTags` returns a new document holding the allowed paths and tags and leaves its input untouched |
| ApiDocs.FilterKeepsProcessed | src/main.ts:134-158 | filtering a processed document leaves every operation processed |
| ApiDocs.GroupDocumentIsStable | src/main.ts:124-158 | the area documents are unchanged by the second processing pass they get |

## Left out

- Controllers, DTO classes, modules and dependency-injection wiring are not part of this model. Query strings arrive already converted: page, limit and ids as integers, flags as booleans.
- Authentication, the admin service, file upload and object storage are not part of this model: they are cryptographic or I/O calls.
- The mail transport and its HTML template are left out. Only the escaping is modelled. `Contact.Create` does not wait for the notification, and a failed send is only logged, so the send does not appear in the model.
- The date library's validity test and formatter in the response interceptor are function parameters. Timestamps are ordinals from the table's clock, and the publication dates of news are opaque strings.
- The HTTP exception filter is left out. Errors are a datatype naming the exception class and its reason, not a message string.
- In the bootstrap file only the two document functions are modelled. The Swagger UI set-up, CORS and the listen call are not.
- ApiDocs: an OpenAPI path item is a list of method entries. Other keys of a path item and other parameter attributes are not modelled.
- ApiDocs: the de-duplication key `in + "-" + name` is modelled as written. Two parameters whose location and name concatenate to the same key are treated as duplicates, as in the source.
- ApiDocs: the deep copy through JSON serialisation is modelled as a fresh document with the same contents. What serialisation would drop (undefined values, functions) does not occur in the document model.
- Concurrency is not modelled. Each service call, and each transaction, is one atomic step, so the race between a reference count and the delete that follows it is not captured.
- Foreign-key actions of the database on delete are not modelled. A hard delete removes only the row.
- Sorting.SortByKey: rows with equal `sortOrder` come back in creation order. The store leaves their order unspecified, so this is one of the orders it may return.
- Text: the `contains` filter is an exact, case-sensitive substring test. The database collation could make it case-insensitive; that is not visible in the code.
- Banner: the banner type enum's definition is not part of this model. Its values are taken to be the literals `IMAGE` and `VIDEO`, which the validation also accepts.
- Sortable.ApplySortOrders: no `sortOrder ≥ 1` precondition is taken. The request classes declare it, but no global validation pipe is installed in the bootstrap file, so it is not enforced; the model accepts any integer.
- BlogCategory.Remove: the blog post table is not part of this model. The guard takes the `categoryId` column of the posts as a parameter.
- NewsCategory.Remove: the guard takes the news table's `categoryId` column as a parameter (`refs`) rather than reading the news table. `News.ReferencedCategoryIsKept` shows that, with `refs` set to the news table's `Column(rows, News.CategoryOf)`, the guard refuses any referenced category.
- Case, News, Service: ids are opaque numbers, so an empty-string `categoryId` cannot be expressed. In the source, an empty one in an update skips the existence check (a truthiness test) but is still written, and the store's foreign key then refuses it; that path is not modelled. On create, a missing category id stands for an empty one.
- Explicit `null` in request bodies is modelled only for banners, where it lets `update` store a banner that `create` would refuse. Elsewhere a field is either given or left out.
- Contact.Remove: the store's own error on an unknown id is modelled as an internal error. The framework maps it to a 500 response.
- Paging: `limit` has no upper bound, as in the source.

## Findings

| source | as written | input that shows it | evidently intended | confidence | as-written member | corrected member |
|---|---|---|---|---|---|---|
| src/banner/banner.service.ts:193-227 | `update` validates the media fields merged with `??` (an explicit `null` falls back to the stored value) but writes every field that is `!== undefined` (an explicit `null` is stored) | an image banner shown only in Chinese with image `a.jpg`, updated with `{ "zh_image": null }`: the check sees `a.jpg` and passes, and the stored banner has no Chinese image | validate the banner as it will be stored, so that an update cannot leave a banner that `create` would refuse | not executed | Banner.UpdateAsWritten, Banner.NullPassesUpdateCheck | Banner.ApplyUpdate, Banner.ApplyUpdateAgreesWithoutNull |

`Banner.Update` models the code as written: it runs `Banner.UpdateAsWritten`. The corrected definition is `Banner.ApplyUpdate`, and `Banner.ApplyUpdateAgreesWithoutNull` shows the two agree on every request without an explicit `null` media field. Through that agreement `Banner.Update` keeps every stored banner complete for such requests.

=== FILE: about.dfy ===
/** The "about us" page: one text per language, kept in the earliest row of
    its table. */
module About {
  import opened Base
  import opened Locale
  import opened Tables
  import opened Singleton

  /** `findFirst`: the earliest row projected (English when the language is omitted). */
  function FindFirst(rows: seq<Row<Content>>, language: Option<string>): (r: Result<ContentView>)
    ensures r.Err? <==> rows == []
    ensures r.Err? ==> r.error == NotFound(Entity.About)
    ensures r.Ok? ==> r.value == TransformContent(rows[0], OrEnglish(language))
  {
    match Singleton.FindFirst(rows, Entity.About)
    case Err(e) => Err(e)
    case Ok(row) => Ok(TransformContent(row, OrEnglish(language)))
  }

  /** `findFirstByAdmin`: the same row, raw; the public read is its projection. */
  function FindFirstByAdmin(rows: seq<Row<Content>>): (r: Result<Row<Content>>)
    ensures r.Err? <==> rows == []
    ensures r.Err? ==> r.error == NotFound(Entity.About)
    ensures r.Ok? ==> r.value == rows[0]
    ensures forall language :: r.Ok? ==> FindFirst(rows, language) == Ok(TransformContent(r.value, OrEnglish(language)))
  {
    Singleton.FindFirst(rows, Entity.About)
  }

  /** `update`: writes the content halves the request carries into the
      earliest row only. */
  method Update(t: Table<Content>, req: Bilingual<Option<string>>) returns (r: Result<Row<Content>>)
    requires t.Valid()
    modifies t
    ensures t.Valid()
    ensures old(t.rows) == [] ==> r == Err(NotFound(Entity.About)) && t.rows == old(t.rows)
    ensures old(t.rows) != [] ==>
              var first := old(t.rows)[0];
              && r == Ok(first.(data := Overwrite(first.data, req), updatedAt := old(t.clock)))
              && t.rows == [r.value] + old(t.rows)[1..]
  {
    r := UpdateFirst(t, Entity.About, (d: Content) => Overwrite(d, req));
  }
}

=== FILE: api_docs.dfy ===
/** Post-processing of the generated OpenAPI document before it is served:
    the `Accept-Language` header is made optional and duplicate parameters
    are dropped, and the per-area documents are cut out of the full one by
    tag. Only the parts of the document these steps read are modelled. */
module ApiDocs {
  import opened Base

  /** A parameter object: its `name`, its `in` (header, query, path …) and
      its `required` flag when it has one. */
  datatype Param = Param(name: string, location: string, required: Option<bool>)

  /** An operation object: its `tags` and its `parameters` list, each of
      which may be absent. */
  datatype Operation = Operation(tags: Option<seq<string>>, parameters: Option<seq<Param>>)

  /** One HTTP method of a path item, in key order. */
  datatype MethodEntry = MethodEntry(verb: string, op: Operation)

  /** One entry of `paths`, in key order. */
  datatype PathItem = PathItem(path: string, methods: seq<MethodEntry>)

  datatype Tag = Tag(name: string, description: string)

  /** The document: `paths` and the top-level `tags` list. */
  class Document {
    var paths: seq<PathItem>
    var tags: Option<seq<Tag>>

    constructor (paths: seq<PathItem>, tags: Option<seq<Tag>>)
      ensures this.paths == paths && this.tags == tags
    {
      this.paths := paths;
      this.tags := tags;
    }
  }

  // ---------------------------------------------------------------------
  // Parameters of one operation

  predicate IsLanguageName(name: string) {
    name == "accept-language" || name == "Accept-Language"
  }

  /** The `map` step: a language parameter becomes optional, in whichever
      location it is declared; nothing else about any parameter changes. */
  function MarkOptional(p: Param): (r: Param)
    ensures r.name == p.name && r.location == p.location
    ensures IsLanguageName(p.name) ==> r.required == Some(false)
    ensures !IsLanguageName(p.name) ==> r == p
  {
    if IsLanguageName(p.name) then p.(required := Some(false)) else p
  }

  function Marked(ps: seq<Param>): (r: seq<Param>)
    ensures |r| == |ps| && forall k :: 0 <= k < |ps| ==> r[k] == MarkOptional(ps[k])
  {
    seq(|ps|, k requires 0 <= k < |ps| => MarkOptional(ps[k]))
  }

  /** The de-duplication key: both spellings of the language header share
      one key; any other parameter is keyed by `${in}-${name}`. */
  function ParamKey(p: Param): string {
    if p.location == "header" && IsLanguageName(p.name) then "accept-language-header"
    else p.location + "-" + p.name
  }

  predicate KeysDistinct(ps: seq<Param>) {
    forall i, j :: 0 <= i < j < |ps| ==> ParamKey(ps[i]) != ParamKey(ps[j])
  }

  /** `ps[k]` is the first parameter with its key. */
  predicate FirstOfKey(ps: seq<Param>, k: int)
    requires 0 <= k < |ps|
  {
    forall j :: 0 <= j < k ==> ParamKey(ps[j]) != ParamKey(ps[k])
  }

  /** `x` is `y` with some elements dropped and the rest in their order. */
  predicate Subsequence<T(==)>(x: seq<T>, y: seq<T>)
    decreases |y|
  {
    x == [] || (y != [] && ((x[0] == y[0] && Subsequence(x[1..], y[1..])) || Subsequence(x, y[1..])))
  }

  lemma {:induction false} SubsequenceMembers<T>(x: seq<T>, y: seq<T>)
    requires Subsequence(x, y)
    decreases |y|
    ensures forall e :: e in x ==> e in y
  {
    if x != [] {
      if x[0] == y[0] && Subsequence(x[1..], y[1..]) {
        SubsequenceMembers(x[1..], y[1..]);
        assert x == [x[0]] + x[1..];
      } else {
        SubsequenceMembers(x, y[1..]);
      }
    }
  }

  /** The `filter` with its `seen` set: a parameter whose key has been seen
      is dropped, any other is kept and its key recorded. */
  function KeepFirst(ps: seq<Param>, seen: set<string>): seq<Param>
    decreases |ps|
  {
    if ps == [] then []
    else if ParamKey(ps[0]) in seen then KeepFirst(ps[1..], seen)
    else [ps[0]] + KeepFirst(ps[1..], seen + {ParamKey(ps[0])})
  }

  function Deduplicated(ps: seq<Param>): seq<Param> {
    KeepFirst(ps, {})
  }

  lemma {:induction false} KeepFirstDistinct(ps: seq<Param>, seen: set<string>)
    ensures KeysDistinct(KeepFirst(ps, seen))
    ensures forall p :: p in KeepFirst(ps, seen) ==> ParamKey(p) !in seen
  {
    if ps != [] {
      var key := ParamKey(ps[0]);
      if key in seen {
        KeepFirstDistinct(ps[1..], seen);
      } else {
        KeepFirstDistinct(ps[1..], seen + {key});
        var tail := KeepFirst(ps[1..], seen + {key});
        var r := [ps[0]] + tail;
        assert forall j :: 0 < j < |r| ==> r[j] == tail[j - 1] && r[j] in tail;
      }
    }
  }

  lemma {:induction false} KeepFirstSubsequence(ps: seq<Param>, seen: set<string>)
    ensures Subsequence(KeepFirst(ps, seen), ps)
  {
    if ps != [] {
      var key := ParamKey(ps[0]);
      if key in seen {
        KeepFirstSubsequence(ps[1..], seen);
      } else {
        KeepFirstSubsequence(ps[1..], seen + {key});
        var r := KeepFirst(ps, seen);
        assert r[0] == ps[0] && r[1..] == KeepFirst(ps[1..], seen + {key});
      }
    }
  }

  lemma {:induction false} KeepFirstKeepsFirsts(ps: seq<Param>, seen: set<string>)
    ensures forall k :: 0 <= k < |ps| && ParamKey(ps[k]) !in seen && FirstOfKey(ps, k) ==> ps[k] in KeepFirst(ps, seen)
  {
    if ps != [] {
      var key := ParamKey(ps[0]);
      var seen' := seen + {key};
      KeepFirstKeepsFirsts(ps[1..], seen');
      forall k | 0 < k < |ps| && ParamKey(ps[k]) !in seen && FirstOfKey(ps, k)
        ensures ps[k] in KeepFirst(ps, seen)
      {
        assert ps[k] == ps[1..][k - 1];
        assert ParamKey(ps[0]) != ParamKey(ps[k]);
        assert FirstOfKey(ps[1..], k - 1) by {
          forall j | 0 <= j < k - 1 ensures ParamKey(ps[1..][j]) != ParamKey(ps[1..][k - 1]) {
            assert ps[1..][j] == ps[j + 1];
          }
        }
        assert ps[k] in KeepFirst(ps[1..], seen');
        if key in seen {
          assert seen' == seen;
        }
      }
    }
  }

  /** The set of keys a parameter list uses. */
  function Keys(ps: seq<Param>): set<string>
    decreases |ps|
  {
    if ps == [] then {} else {ParamKey(ps[0])} + Keys(ps[1..])
  }

  /** No key is lost: every key not seen before is still present. */
  lemma {:induction false} KeepFirstKeys(ps: seq<Param>, seen: set<string>)
    ensures Keys(KeepFirst(ps, seen)) == Keys(ps) - seen
  {
    if ps != [] {
      var key := ParamKey(ps[0]);
      if key in seen {
        KeepFirstKeys(ps[1..], seen);
      } else {
        KeepFirstKeys(ps[1..], seen + {key});
        var r := KeepFirst(ps, seen);
        assert r[1..] == KeepFirst(ps[1..], seen + {key});
      }
    }
  }

  lemma {:induction false} MarkedKeys(ps: seq<Param>)
    ensures Keys(Marked(ps)) == Keys(ps)
  {
    if ps != [] {
      MarkedKeys(ps[1..]);
      assert Marked(ps)[1..] == Marked(ps[1..]);
    }
  }

  /** A list whose keys are already distinct, and not yet seen, is kept whole. */
  lemma {:induction false} KeepFirstIdentity(ps: seq<Param>, seen: set<string>)
    requires KeysDistinct(ps)
    requires forall p :: p in ps ==> ParamKey(p) !in seen
    ensures KeepFirst(ps, seen) == ps
  {
    if ps != [] {
      var key := ParamKey(ps[0]);
      forall p | p in ps[1..] ensures ParamKey(p) !in seen + {key} {
        var j :| 0 <= j < |ps[1..]| && ps[1..][j] == p;
        assert ps[j + 1] == p;
      }
      KeepFirstIdentity(ps[1..], seen + {key});
      assert ps == [ps[0]] + ps[1..];
    }
  }

  /** The loop body for one operation: language parameters made optional,
      then one parameter per key, the first of each, in their order. An
      operation without a parameter list is left as it is. */
  function ProcessedOperation(op: Operation): (r: Operation)
    ensures r.tags == op.tags
    ensures op.parameters.None? ==> r == op
    ensures op.parameters.Some? ==>
              var given := op.parameters.value;
              && r.parameters.Some?
              && KeysDistinct(r.parameters.value)
              && Subsequence(r.parameters.value, Marked(given))
              && (forall p :: p in r.parameters.value ==> p in Marked(given))
              && (forall p :: p in r.parameters.value && IsLanguageName(p.name) ==> p.required == Some(false))
              && (forall k :: 0 <= k < |given| && FirstOfKey(given, k) ==> MarkOptional(given[k]) in r.parameters.value)
              && Keys(r.parameters.value) == Keys(given)
  {
    match op.parameters
    case None => op
    case Some(given) =>
      var marked := Marked(given);
      KeepFirstDistinct(marked, {});
      KeepFirstSubsequence(marked, {});
      SubsequenceMembers(Deduplicated(marked), marked);
      KeepFirstKeepsFirsts(marked, {});
      KeepFirstKeys(marked, {});
      MarkedKeys(given);
      assert forall k :: 0 <= k < |given| ==> ParamKey(marked[k]) == ParamKey(given[k]);
      assert forall k :: 0 <= k < |given| && FirstOfKey(given, k) ==> FirstOfKey(marked, k);
      op.(parameters := Some(Deduplicated(marked)))
  }

  /** A processed operation is not changed by processing it again. */
  lemma ProcessedOperationIsStable(op: Operation)
    ensures ProcessedOperation(ProcessedOperation(op)) == ProcessedOperation(op)
  {
    if op.parameters.Some? {
      var out := ProcessedOperation(op).parameters.value;
      forall k | 0 <= k < |out| ensures MarkOptional(out[k]) == out[k] {
        assert out[k] in out;
      }
      assert Marked(out) == out;
      KeepFirstIdentity(out, {});
    }
  }

  // ---------------------------------------------------------------------
  // processSwaggerDocument

  function ProcessedEntry(e: MethodEntry): MethodEntry {
    e.(op := ProcessedOperation(e.op))
  }

  function ProcessedItem(item: PathItem): PathItem {
    item.(methods := seq(|item.methods|, j requires 0 <= j < |item.methods| => ProcessedEntry(item.methods[j])))
  }

  /** Every operation of every path processed; paths, methods and their
      order as they were. */
  function ProcessedPaths(ps: seq<PathItem>): (r: seq<PathItem>)
    ensures |r| == |ps|
    ensures forall i :: 0 <= i < |ps| ==> r[i].path == ps[i].path && |r[i].methods| == |ps[i].methods|
    ensures forall i, j :: 0 <= i < |ps| && 0 <= j < |ps[i].methods| ==>
              r[i].methods[j].verb == ps[i].methods[j].verb &&
              r[i].methods[j].op == ProcessedOperation(ps[i].methods[j].op)
  {
    seq(|ps|, i requires 0 <= i < |ps| => ProcessedItem(ps[i]))
  }

  /** Every operation of `ps` is already processed. */
  predicate AllProcessed(ps: seq<PathItem>) {
    forall item, e :: item in ps && e in item.methods ==> ProcessedOperation(e.op) == e.op
  }

  lemma {:induction false} ProcessedPathsAreProcessed(ps: seq<PathItem>)
    ensures AllProcessed(ProcessedPaths(ps))
  {
    var r := ProcessedPaths(ps);
    forall item, e | item in r && e in item.methods ensures ProcessedOperation(e.op) == e.op {
      var i :| 0 <= i < |r| && r[i] == item;
      var j :| 0 <= j < |item.methods| && item.methods[j] == e;
      ProcessedOperationIsStable(ps[i].methods[j].op);
    }
  }

  /** Processing changes nothing in a document whose operations are all processed. */
  lemma {:induction false} ProcessingFixesProcessed(ps: seq<PathItem>)
    requires AllProcessed(ps)
    ensures ProcessedPaths(ps) == ps
  {
    var r := ProcessedPaths(ps);
    forall i | 0 <= i < |ps| ensures r[i] == ps[i] {
      forall j | 0 <= j < |ps[i].methods| ensures r[i].methods[j] == ps[i].methods[j] {
        assert ps[i].methods[j] in ps[i].methods;
      }
    }
  }

  /** Processing twice is processing once. */
  lemma ProcessingIsIdempotent(ps: seq<PathItem>)
    ensures ProcessedPaths(ProcessedPaths(ps)) == ProcessedPaths(ps)
  {
    ProcessedPathsAreProcessed(ps);
    ProcessingFixesProcessed(ProcessedPaths(ps));
  }

  /** `processSwaggerDocument`: rewrites each operation's parameter list in
      place, path by path and method by method. */
  method DedupeParameters(ps: seq<Param>) returns (r: seq<Param>)
    ensures r == Deduplicated(ps)
  {
    var seen: set<string> := {};
    r := [];
    var i := 0;
    assert ps[0..] == ps;
    while i < |ps|
      invariant 0 <= i <= |ps|
      invariant r + KeepFirst(ps[i..], seen) == Deduplicated(ps)
    {
      var key := ParamKey(ps[i]);
      assert ps[i..][1..] == ps[i + 1..];
      if key !in seen {
        seen := seen + {key};
        r := r + [ps[i]];
      }
      i := i + 1;
    }
  }

  /** The inner loop: each method's operation processed in place. */
  method ProcessItem(item: PathItem) returns (r: PathItem)
    ensures r == ProcessedItem(item)
  {
    var methods := item.methods;
    var j := 0;
    while j < |methods|
      invariant 0 <= j <= |methods| == |item.methods|
      invariant forall k :: 0 <= k < j ==> methods[k] == ProcessedEntry(item.methods[k])
      invariant forall k :: j <= k < |methods| ==> methods[k] == item.methods[k]
    {
      var op := methods[j].op;
      if op.parameters.Some? {
        var deduped := DedupeParameters(Marked(op.parameters.value));
        methods := methods[j := methods[j].(op := op.(parameters := Some(deduped)))];
      }
      j := j + 1;
    }
    r := item.(methods := methods);
  }

  method ProcessDocument(doc: Document)
    modifies doc
    ensures doc.paths == ProcessedPaths(old(doc.paths))
    ensures doc.tags == old(doc.tags)
  {
    var i := 0;
    while i < |doc.paths|
      invariant 0 <= i <= |doc.paths| == |old(doc.paths)|
      invariant forall k :: 0 <= k < i ==> doc.paths[k] == ProcessedItem(old(doc.paths)[k])
      invariant forall k :: i <= k < |doc.paths| ==> doc.paths[k] == old(doc.paths)[k]
      invariant doc.tags == old(doc.tags)
    {
      var item := ProcessItem(doc.paths[i]);
      doc.paths := doc.paths[i := item];
      i := i + 1;
    }
    assert doc.paths == ProcessedPaths(old(doc.paths));
  }

  // ---------------------------------------------------------------------
  // filterDocumentByTags

  function OperationTags(op: Operation): seq<string> {
    if op.tags.Some? then op.tags.value else []
  }

  /** `operationTags.some(tag => tags.includes(tag))` */
  predicate Allowed(op: Operation, allowed: seq<string>) {
    exists k :: 0 <= k < |OperationTags(op)| && OperationTags(op)[k] in allowed
  }

  /** The methods of one path that survive the filter, in their order. */
  function KeptMethods(ms: seq<MethodEntry>, allowed: seq<string>): (r: seq<MethodEntry>)
    decreases |ms|
    ensures |r| <= |ms|
  {
    if ms == [] then []
    else
      var last := ms[|ms| - 1];
      if Allowed(last.op, allowed) then KeptMethods(ms[..|ms| - 1], allowed) + [last]
      else KeptMethods(ms[..|ms| - 1], allowed)
  }

  /** A method survives exactly when it is in the input and has an allowed tag. */
  lemma {:induction false} KeptMethodsMembers(ms: seq<MethodEntry>, allowed: seq<string>)
    decreases |ms|
    ensures forall e :: e in KeptMethods(ms, allowed) <==> e in ms && Allowed(e.op, allowed)
  {
    if ms != [] {
      KeptMethodsMembers(ms[..|ms| - 1], allowed);
      assert ms == ms[..|ms| - 1] + [ms[|ms| - 1]];
    }
  }

  /** The paths that survive: each with its surviving methods, and only
      when at least one survives. */
  function KeptPaths(ps: seq<PathItem>, allowed: seq<string>): (r: seq<PathItem>)
    decreases |ps|
    ensures |r| <= |ps|
  {
    if ps == [] then []
    else
      var last := ps[|ps| - 1];
      var kept := KeptMethods(last.methods, allowed);
      if kept == [] then KeptPaths(ps[..|ps| - 1], allowed)
      else KeptPaths(ps[..|ps| - 1], allowed) + [last.(methods := kept)]
  }

  /** Every path of the result is an input path, cut down to its allowed
      methods, and has at least one. */
  lemma {:induction false} KeptPathsSound(ps: seq<PathItem>, allowed: seq<string>)
    decreases |ps|
    ensures forall item :: item in KeptPaths(ps, allowed) ==>
              && item.methods != []
              && exists k :: 0 <= k < |ps| && item == ps[k].(methods := KeptMethods(ps[k].methods, allowed))
  {
    if ps != [] {
      var prefix := ps[..|ps| - 1];
      KeptPathsSound(prefix, allowed);
      forall item | item in KeptPaths(ps, allowed)
        ensures && item.methods != []
                && exists k :: 0 <= k < |ps| && item == ps[k].(methods := KeptMethods(ps[k].methods, allowed))
      {
        if item in KeptPaths(prefix, allowed) {
          var k :| 0 <= k < |prefix| && item == prefix[k].(methods := KeptMethods(prefix[k].methods, allowed));
          assert prefix[k] == ps[k];
        } else {
          assert item == ps[|ps| - 1].(methods := KeptMethods(ps[|ps| - 1].methods, allowed));
        }
      }
    }
  }

  /** Every input path with an allowed method is in the result. */
  lemma {:induction false} KeptPathsComplete(ps: seq<PathItem>, allowed: seq<string>)
    decreases |ps|
    ensures forall k :: 0 <= k < |ps| && KeptMethods(ps[k].methods, allowed) != [] ==>
              ps[k].(methods := KeptMethods(ps[k].methods, allowed)) in KeptPaths(ps, allowed)
  {
    if ps != [] {
      var prefix := ps[..|ps| - 1];
      KeptPathsComplete(prefix, allowed);
      forall k | 0 <= k < |ps| - 1 ensures ps[k] == prefix[k] {
      }
    }
  }

  function KeptTagList(ts: seq<Tag>, allowed: seq<string>): (r: seq<Tag>)
    decreases |ts|
    ensures forall t :: t in r <==> t in ts && t.name in allowed
  {
    if ts == [] then []
    else
      var last := ts[|ts| - 1];
      assert ts == ts[..|ts| - 1] + [last];
      if last.name in allowed then KeptTagList(ts[..|ts| - 1], allowed) + [last]
      else KeptTagList(ts[..|ts| - 1], allowed)
  }

  /** The top-level tag list restricted to the allowed names, when there is one. */
  function KeptTags(tags: Option<seq<Tag>>, allowed: seq<string>): (r: Option<seq<Tag>>)
    ensures tags.None? <==> r.None?
    ensures tags.Some? ==> forall t :: t in r.value <==> t in tags.value && t.name in allowed
  {
    if tags.Some? then Some(KeptTagList(tags.value, allowed)) else None
  }

  /** An operation is in the filtered document exactly when it was in the
      input and one of its tags is allowed. */
  lemma KeptOperations(ps: seq<PathItem>, allowed: seq<string>, k: int, e: MethodEntry)
    requires 0 <= k < |ps| && e in ps[k].methods
    ensures Allowed(e.op, allowed) ==>
              exists item :: item in KeptPaths(ps, allowed) && item.path == ps[k].path && e in item.methods
    ensures forall item :: item in KeptPaths(ps, allowed) && e in item.methods ==> Allowed(e.op, allowed)
  {
    KeptPathsComplete(ps, allowed);
    KeptPathsSound(ps, allowed);
    KeptMethodsMembers(ps[k].methods, allowed);
    forall item | item in KeptPaths(ps, allowed) && e in item.methods ensures Allowed(e.op, allowed) {
      var k' :| 0 <= k' < |ps| && item == ps[k'].(methods := KeptMethods(ps[k'].methods, allowed));
      KeptMethodsMembers(ps[k'].methods, allowed);
    }
    if Allowed(e.op, allowed) {
      assert ps[k].(methods := KeptMethods(ps[k].methods, allowed)) in KeptPaths(ps, allowed);
    }
  }

  /** The inner loop on the copy: every method without an allowed tag is
      deleted from the path's method list. */
  method FilterMethods(ms: seq<MethodEntry>, allowed: seq<string>) returns (r: seq<MethodEntry>)
    ensures r == KeptMethods(ms, allowed)
  {
    r := ms;
    var j := 0;
    assert ms[..0] == [];
    while j < |ms|
      invariant 0 <= j <= |ms|
      invariant r == KeptMethods(ms[..j], allowed) + ms[j..]
    {
      var pos := |KeptMethods(ms[..j], allowed)|;
      KeptMethodsStep(ms, j, allowed);
      if !Allowed(ms[j].op, allowed) {
        DeleteAt(KeptMethods(ms[..j], allowed), ms, j);
        r := r[..pos] + r[pos + 1..];
      } else {
        KeepAt(KeptMethods(ms[..j], allowed), ms, j);
      }
      j := j + 1;
    }
    assert ms[..j] == ms;
  }

  /** Extending the input by one method extends the kept methods by that
      method exactly when it has an allowed tag. */
  lemma KeptMethodsStep(ms: seq<MethodEntry>, j: int, allowed: seq<string>)
    requires 0 <= j < |ms|
    ensures KeptMethods(ms[..j + 1], allowed) ==
              if Allowed(ms[j].op, allowed) then KeptMethods(ms[..j], allowed) + [ms[j]]
              else KeptMethods(ms[..j], allowed)
  {
    assert ms[..j + 1][..j] == ms[..j];
  }

  /** Keeping the element after a prefix extends the prefix by it. */
  lemma KeepAt<T>(done: seq<T>, rest: seq<T>, i: int)
    requires 0 <= i < |rest|
    ensures done + rest[i..] == (done + [rest[i]]) + rest[i + 1..]
  {
    assert rest[i..] == [rest[i]] + rest[i + 1..];
  }

  /** Extending the input by one path extends the kept paths by at most that
      path, cut down to its allowed methods. */
  lemma KeptPathsStep(ps: seq<PathItem>, i: int, allowed: seq<string>)
    requires 0 <= i < |ps|
    ensures var kept := KeptMethods(ps[i].methods, allowed);
            KeptPaths(ps[..i + 1], allowed) ==
              if kept == [] then KeptPaths(ps[..i], allowed)
              else KeptPaths(ps[..i], allowed) + [ps[i].(methods := kept)]
  {
    assert ps[..i + 1][..i] == ps[..i];
  }

  /** The outer loop's invariant: the first `i` paths of the copy have been
      filtered and sit at its front, `at` of them survive, and the rest of the
      copy is still untouched. */
  predicate FilterPathsInv(source: seq<PathItem>, allowed: seq<string>, i: int, at: int, paths: seq<PathItem>) {
    && 0 <= i <= |source|
    && at == |KeptPaths(source[..i], allowed)|
    && paths == KeptPaths(source[..i], allowed) + source[i..]
  }

  /** One turn of the outer loop: deleting the current path when none of its
      methods is kept, or overwriting it with its kept methods otherwise,
      keeps the invariant for the next path. */
  lemma FilterPathsTurn(source: seq<PathItem>, allowed: seq<string>, i: int, at: int, paths: seq<PathItem>, kept: seq<MethodEntry>)
    requires FilterPathsInv(source, allowed, i, at, paths) && i < |source|
    requires kept == KeptMethods(source[i].methods, allowed)
    ensures kept == [] ==> FilterPathsInv(source, allowed, i + 1, at, paths[..at] + paths[at + 1..])
    ensures kept != [] ==> 0 <= at < |paths| && FilterPathsInv(source, allowed, i + 1, at + 1, paths[at := source[i].(methods := kept)])
  {
    var done := KeptPaths(source[..i], allowed);
    KeptPathsStep(source, i, allowed);
    if kept == [] {
      DeleteAt(done, source, i);
    } else {
      ReplaceAt(done, source, i, source[i].(methods := kept));
    }
  }

  /** The outer loop on the copy: each path cut down to its allowed methods,
      and deleted when none is left. */
  method FilterPaths(source: seq<PathItem>, allowed: seq<string>) returns (paths: seq<PathItem>)
    ensures paths == KeptPaths(source, allowed)
  {
    paths := source;
    var i, at := 0, 0;
    assert source[..0] == [];
    while i < |source|
      invariant FilterPathsInv(source, allowed, i, at, paths)
    {
      var item := source[i];
      var methods := FilterMethods(item.methods, allowed);
      FilterPathsTurn(source, allowed, i, at, paths, methods);
      if methods == [] {
        paths := paths[..at] + paths[at + 1..];
      } else {
        paths := paths[at := item.(methods := methods)];
        at := at + 1;
      }
      i := i + 1;
    }
    assert source[..i] == source;
  }

  /** Deleting the element after a prefix drops the next element of the rest. */
  lemma DeleteAt<T>(done: seq<T>, rest: seq<T>, i: int)
    requires 0 <= i < |rest|
    ensures var s := done + rest[i..];
            s[..|done|] + s[|done| + 1..] == done + rest[i + 1..]
  {
    var s := done + rest[i..];
    assert s[..|done|] == done;
    assert s[|done| + 1..] == rest[i + 1..];
  }

  /** Overwriting the element after a prefix extends the prefix by the new one. */
  lemma ReplaceAt<T>(done: seq<T>, rest: seq<T>, i: int, x: T)
    requires 0 <= i < |rest|
    ensures var s := done + rest[i..];
            s[|done| := x] == (done + [x]) + rest[i + 1..]
  {
    var s := done + rest[i..];
    assert s[|done| := x][..|done|] == done;
    assert s[|done| := x][|done| + 1..] == rest[i + 1..];
  }

  /** `filterDocumentByTags`: works on a copy, deleting the operations
      without an allowed tag and then the paths left empty; `doc` itself is
      not written. */
  method FilterByTags(doc: Document, allowed: seq<string>) returns (filtered: Document)
    ensures fresh(filtered)
    // The source filters a JSON deep copy, so the input document is never written.
    ensures doc.paths == old(doc.paths) && doc.tags == old(doc.tags)
    ensures filtered.paths == KeptPaths(doc.paths, allowed)
    ensures filtered.tags == KeptTags(doc.tags, allowed)
  {
    filtered := new Document(doc.paths, doc.tags);
    var paths := FilterPaths(filtered.paths, allowed);
    filtered.paths := paths;
    if filtered.tags.Some? {
      filtered.tags := Some(KeptTagList(filtered.tags.value, allowed));
    }
  }

  /** Filtering a processed document leaves it processed. */
  lemma {:induction false} FilterKeepsProcessed(ps: seq<PathItem>, allowed: seq<string>)
    requires AllProcessed(ps)
    ensures AllProcessed(KeptPaths(ps, allowed))
  {
    KeptPathsSound(ps, allowed);
    forall item, e | item in KeptPaths(ps, allowed) && e in item.methods
      ensures ProcessedOperation(e.op) == e.op
    {
      var k :| 0 <= k < |ps| && item == ps[k].(methods := KeptMethods(ps[k].methods, allowed));
      KeptMethodsMembers(ps[k].methods, allowed);
      assert e in ps[k].methods;
    }
  }

  /** The area documents are cut out of the already-processed full document
      and processed again: that second pass changes nothing. */
  lemma GroupDocumentIsStable(ps: seq<PathItem>, allowed: seq<string>)
    ensures ProcessedPaths(KeptPaths(ProcessedPaths(ps), allowed)) == KeptPaths(ProcessedPaths(ps), allowed)
  {
    ProcessedPathsAreProcessed(ps);
    FilterKeepsProcessed(ProcessedPaths(ps), allowed);
    ProcessingFixesProcessed(KeptPaths(ProcessedPaths(ps), allowed));
  }
}

=== FILE: banner.dfy ===
/** Home-page banners: bilingual image or video slides, each shown on the
    Chinese site, the English site or both, in an order the administrator sets. */
module Banner {
  import opened Base
  import opened Locale
  import opened Tables
  import opened Sorting
  import opened Sortable

  /** The banner type. Its enum values are taken to be "IMAGE" and "VIDEO",
      the literals the validation also accepts, so the two tests agree. */
  datatype BannerType = Image | Video

  /** A stored banner; `kind` is the `type` column. */
  datatype BannerData = BannerData(
    showInZh: bool, showInEn: bool,
    zh_image: Option<string>, zh_url: Option<string>, zh_link: Option<string>,
    en_image: Option<string>, en_url: Option<string>, en_link: Option<string>,
    duration: Option<int>, kind: BannerType, sortOrder: int)

  /** A banner as the public endpoints return it: one language, no flags, no `sortOrder`. */
  datatype BannerView = BannerView(
    id: Id, image: Option<string>, url: Option<string>, link: Option<string>,
    duration: Option<int>, kind: BannerType)

  /** `transformByLanguage` */
  function Transform(row: Row<BannerData>, language: string): (r: BannerView)
    ensures r.id == row.id && r.duration == row.data.duration && r.kind == row.data.kind
    ensures IsZh(language) ==>
              r.image == row.data.zh_image && r.url == row.data.zh_url && r.link == row.data.zh_link
    ensures !IsZh(language) ==>
              r.image == row.data.en_image && r.url == row.data.en_url && r.link == row.data.en_link
  {
    BannerView(row.id,
      Pick(language, row.data.zh_image, row.data.en_image),
      Pick(language, row.data.zh_url, row.data.en_url),
      Pick(language, row.data.zh_link, row.data.en_link),
      row.data.duration, row.data.kind)
  }

  /** A request without a language tag is served the English columns, and the
      three Chinese tags all give the same view. */
  lemma TransformDefaultsToEnglish(row: Row<BannerData>, language: string)
    ensures Transform(row, Resolve(None)) == Transform(row, "en")
    ensures Transform(row, Resolve(None)).image == row.data.en_image
    ensures IsZh(language) ==> Transform(row, language) == Transform(row, "zh")
  {
  }

  /** What a banner of a given type needs on each site that shows it: an image
      for an image banner, a video url for a video banner. A site that does
      not show the banner needs nothing. */
  predicate HasRequiredFields(zh_image: Option<string>, zh_url: Option<string>,
                              en_image: Option<string>, en_url: Option<string>,
                              showInZh: bool, showInEn: bool, kind: BannerType) {
    && (showInZh && kind == Image ==> Truthy(zh_image))
    && (showInZh && kind == Video ==> Truthy(zh_url))
    && (showInEn && kind == Image ==> Truthy(en_image))
    && (showInEn && kind == Video ==> Truthy(en_url))
  }

  /** `validateRequiredFields`: the Chinese image, the Chinese video url, the
      English image, the English video url, checked in that order. */
  function ValidateRequiredFields(zh_image: Option<string>, zh_url: Option<string>,
                                  en_image: Option<string>, en_url: Option<string>,
                                  showInZh: bool, showInEn: bool, kind: BannerType): (r: Option<Error>)
    ensures r.None? <==> HasRequiredFields(zh_image, zh_url, en_image, en_url, showInZh, showInEn, kind)
    ensures showInZh && kind == Image && !Truthy(zh_image) ==> r == Some(BadRequest(MissingZhImage))
    ensures showInZh && kind == Video && !Truthy(zh_url) ==> r == Some(BadRequest(MissingZhVideoUrl))
    ensures r.Some? && !showInZh ==>
              r == Some(BadRequest(if kind == Image then MissingEnImage else MissingEnVideoUrl))
  {
    if showInZh && kind == Image && !Truthy(zh_image) then Some(BadRequest(MissingZhImage))
    else if showInZh && kind == Video && !Truthy(zh_url) then Some(BadRequest(MissingZhVideoUrl))
    else if showInEn && kind == Image && !Truthy(en_image) then Some(BadRequest(MissingEnImage))
    else if showInEn && kind == Video && !Truthy(en_url) then Some(BadRequest(MissingEnVideoUrl))
    else None
  }

  /** A banner the validations accept: shown somewhere, with what its type needs. */
  predicate Complete(d: BannerData) {
    && (d.showInZh || d.showInEn)
    && HasRequiredFields(d.zh_image, d.zh_url, d.en_image, d.en_url, d.showInZh, d.showInEn, d.kind)
  }

  /** The body of a create request; `None` is a field left out. */
  datatype CreateRequest = CreateRequest(
    showInZh: Option<bool>, showInEn: Option<bool>,
    zh_image: Option<string>, zh_url: Option<string>, zh_link: Option<string>,
    en_image: Option<string>, en_url: Option<string>, en_link: Option<string>,
    duration: Option<int>, kind: BannerType)

  /** `data.duration || 3`: a missing or zero duration becomes three seconds. */
  function DurationOrDefault(duration: Option<int>): (r: int)
    ensures duration.Some? && duration.value != 0 ==> r == duration.value
    ensures duration.None? || duration.value == 0 ==> r == 3
    ensures r != 0
  {
    if duration.Some? && duration.value != 0 then duration.value else 3
  }

  function SortOrderOf(d: BannerData): int { d.sortOrder }

  /** The banner `create` stores, given the `sortOrder` values already in the
      table, or the error it raises before writing. */
  function NewBanner(req: CreateRequest, keys: seq<int>): (r: Result<BannerData>)
    ensures r.Ok? <==>
              (OrElse(req.showInZh, true) || OrElse(req.showInEn, true)) &&
              HasRequiredFields(req.zh_image, req.zh_url, req.en_image, req.en_url,
                                OrElse(req.showInZh, true), OrElse(req.showInEn, true), req.kind)
    ensures r.Ok? ==> Complete(r.value)
    ensures r.Ok? ==> r.value.showInZh == OrElse(req.showInZh, true) && r.value.showInEn == OrElse(req.showInEn, true)
    ensures r.Ok? ==> r.value.duration == Some(DurationOrDefault(req.duration))
    ensures r.Ok? ==> forall k :: k in keys ==> k < r.value.sortOrder
    ensures r.Ok? ==> r.value.zh_image == req.zh_image && r.value.en_image == req.en_image
                      && r.value.zh_url == req.zh_url && r.value.en_url == req.en_url
                      && r.value.zh_link == req.zh_link && r.value.en_link == req.en_link
                      && r.value.kind == req.kind
    ensures !(OrElse(req.showInZh, true) || OrElse(req.showInEn, true)) ==> r == Err(BadRequest(NoLanguageShown))
  {
    var showInZh := OrElse(req.showInZh, true);
    var showInEn := OrElse(req.showInEn, true);
    var shown := ValidateLanguageSettings(showInZh, showInEn);
    if shown.Some? then Err(shown.value)
    else
      var fields := ValidateRequiredFields(req.zh_image, req.zh_url, req.en_image, req.en_url, showInZh, showInEn, req.kind);
      if fields.Some? then Err(fields.value)
      else
        Ok(BannerData(showInZh, showInEn,
          req.zh_image, req.zh_url, req.zh_link, req.en_image, req.en_url, req.en_link,
          Some(DurationOrDefault(req.duration)), req.kind, NextSortOrder(keys)))
  }

  /** `create` */
  method Create(t: Table<BannerData>, req: CreateRequest) returns (r: Result<Row<BannerData>>)
    requires t.Valid()
    modifies t
    ensures t.Valid()
    ensures NewBanner(req, SortKeys(old(t.rows), SortOrderOf)).Err? ==>
              r == Err(NewBanner(req, SortKeys(old(t.rows), SortOrderOf)).error) && t.rows == old(t.rows)
    ensures NewBanner(req, SortKeys(old(t.rows), SortOrderOf)).Ok? ==>
              r.Ok? && t.rows == old(t.rows) + [r.value]
              && r.value.data == NewBanner(req, SortKeys(old(t.rows), SortOrderOf)).value
    ensures AllComplete(old(t.rows)) ==> AllComplete(t.rows)
  {
    var checked := NewBanner(req, SortKeys(t.rows, SortOrderOf));
    if checked.Err? {
      return Err(checked.error);
    }
    var row := t.Insert(checked.value);
    return Ok(row);
  }

  function RowSortOrder(row: Row<BannerData>): int { row.data.sortOrder }

  /** The banner is shown on the site of `language`. */
  predicate ShownIn(d: BannerData, language: string) {
    ShownOn(d.showInZh, d.showInEn, language)
  }

  /** The `where` of `findAllByAdmin`: the flag filter only when a language is given. */
  predicate AdminVisible(row: Row<BannerData>, language: Option<string>) {
    Truthy(language) ==> ShownIn(row.data, language.value)
  }

  function Visible(rows: seq<Row<BannerData>>, language: Option<string>): (r: seq<Row<BannerData>>)
    ensures forall row :: row in r <==> row in rows && AdminVisible(row, language)
  {
    Where(rows, (row: Row<BannerData>) => AdminVisible(row, language))
  }

  /** `findAllByAdmin`: the visible banners, raw, in ascending `sortOrder`. */
  function ListByAdmin(rows: seq<Row<BannerData>>, language: Option<string>): (r: seq<Row<BannerData>>)
    ensures SortedBy(r, RowSortOrder)
    ensures multiset(r) == multiset(Visible(rows, language))
    ensures forall row :: row in r <==> row in rows && AdminVisible(row, language)
    ensures !Truthy(language) ==> multiset(r) == multiset(rows)
  {
    var r := SortByKey(Visible(rows, language), RowSortOrder);
    SortKeepsMembers(Visible(rows, language), RowSortOrder);
    assert !Truthy(language) ==> Visible(rows, language) == rows by {
      if !Truthy(language) {
        WhereKeepsAll(rows, (row: Row<BannerData>) => AdminVisible(row, language));
      }
    }
    r
  }

  /** `findAll`: the banners shown on the site of the resolved language, in
      ascending `sortOrder`, each projected to that language. */
  function FindAll(rows: seq<Row<BannerData>>, language: Option<string>): (r: seq<BannerView>)
    ensures var l := ListByAdmin(rows, Some(Resolve(language)));
            |r| == |l| && forall k :: 0 <= k < |r| ==> r[k] == Transform(l[k], Resolve(language))
  {
    var lang := Resolve(language);
    var l := ListByAdmin(rows, Some(lang));
    seq(|l|, k requires 0 <= k < |l| => Transform(l[k], lang))
  }

  /** The public list holds exactly the banners flagged for the resolved
      language; with no language that is the English flag. */
  lemma FindAllShowsExactlyFlagged(rows: seq<Row<BannerData>>, language: Option<string>, row: Row<BannerData>)
    ensures row in ListByAdmin(rows, Some(Resolve(language))) <==> row in rows && ShownIn(row.data, Resolve(language))
    ensures !Truthy(language) ==>
              (row in ListByAdmin(rows, Some(Resolve(language))) <==> row in rows && row.data.showInEn)
  {
  }

  /** A banner created after the others carries a larger `sortOrder` than all
      of them, so it is last in the admin list. */
  lemma {:induction false} NewestSortsLast(rows: seq<Row<BannerData>>, row: Row<BannerData>)
    requires forall k :: 0 <= k < |rows| ==> rows[k].data.sortOrder < row.data.sortOrder
    ensures var l := ListByAdmin(rows + [row], None);
            |l| == |rows| + 1 && l[|l| - 1] == row
  {
    var l := ListByAdmin(rows + [row], None);
    assert row in rows + [row];
    assert multiset(l) == multiset(rows + [row]);
    assert |l| == |rows| + 1;
    var last := l[|l| - 1];
    assert last in multiset(l);
    assert last in rows + [row];
    var j :| 0 <= j < |l| && l[j] == row;
    assert RowSortOrder(row) <= RowSortOrder(last);
  }

  /** `findOne`: the banner projected to the language (English when omitted). */
  function FindOne(rows: seq<Row<BannerData>>, id: Id, language: Option<string>): (r: Result<BannerView>)
    ensures r.Err? <==> id !in Ids(rows)
    ensures r.Err? ==> r.error == NotFound(Entity.Banner)
    ensures r.Ok? ==> r.value == Transform(Find(rows, id).value, OrEnglish(language)) && r.value.id == id
  {
    match Find(rows, id)
    case None => Err(NotFound(Entity.Banner))
    case Some(row) => Ok(Transform(row, OrEnglish(language)))
  }

  /** `findOneByAdmin`: the raw row. */
  function FindOneByAdmin(rows: seq<Row<BannerData>>, id: Id): (r: Result<Row<BannerData>>)
    ensures r.Err? <==> id !in Ids(rows)
    ensures r.Err? ==> r.error == NotFound(Entity.Banner)
    ensures r.Ok? ==> r.value in rows && r.value.id == id
  {
    match Find(rows, id)
    case None => Err(NotFound(Entity.Banner))
    case Some(row) => Ok(row)
  }

  /** The body of an update request. The nullable columns distinguish a field
      left out from an explicit `null`; the flags and the type cannot be null. */
  datatype UpdateRequest = UpdateRequest(
    showInZh: Option<bool>, showInEn: Option<bool>,
    zh_image: Patch<string>, zh_url: Patch<string>, zh_link: Patch<string>,
    en_image: Patch<string>, en_url: Patch<string>, en_link: Patch<string>,
    duration: Patch<int>, kind: Option<BannerType>)

  /** The stored banner after `update` writes every field that is `!== undefined`. */
  function Patched(d: BannerData, req: UpdateRequest): (r: BannerData)
    ensures r.sortOrder == d.sortOrder
    ensures r.showInZh == OrElse(req.showInZh, d.showInZh) && r.showInEn == OrElse(req.showInEn, d.showInEn)
    ensures r.kind == OrElse(req.kind, d.kind)
    ensures r.zh_image == Written(req.zh_image, d.zh_image) && r.en_image == Written(req.en_image, d.en_image)
    ensures r.zh_url == Written(req.zh_url, d.zh_url) && r.en_url == Written(req.en_url, d.en_url)
    ensures r.zh_link == Written(req.zh_link, d.zh_link) && r.en_link == Written(req.en_link, d.en_link)
    ensures r.duration == Written(req.duration, d.duration)
  {
    BannerData(
      OrElse(req.showInZh, d.showInZh), OrElse(req.showInEn, d.showInEn),
      Written(req.zh_image, d.zh_image), Written(req.zh_url, d.zh_url), Written(req.zh_link, d.zh_link),
      Written(req.en_image, d.en_image), Written(req.en_url, d.en_url), Written(req.en_link, d.en_link),
      Written(req.duration, d.duration), OrElse(req.kind, d.kind), d.sortOrder)
  }

  /** The request leaves every field out: the update writes nothing. */
  predicate EmptyUpdate(req: UpdateRequest) {
    req == UpdateRequest(None, None, Undefined, Undefined, Undefined, Undefined, Undefined, Undefined, Undefined, None)
  }

  /** An update that names no field leaves the banner as it was, and applying
      the same update twice is applying it once. */
  lemma PatchedLaws(d: BannerData, req: UpdateRequest)
    ensures EmptyUpdate(req) ==> Patched(d, req) == d
    ensures Patched(Patched(d, req), req) == Patched(d, req)
  {
  }

  /** The validation of `update` as written: the flags, the type and the four
      media fields are merged with `??`, so an explicit `null` is validated as
      the stored value it is about to replace. */
  function CheckUpdateAsWritten(d: BannerData, req: UpdateRequest): (r: Option<Error>)
    ensures r.None? <==>
              var showInZh := OrElse(req.showInZh, d.showInZh);
              var showInEn := OrElse(req.showInEn, d.showInEn);
              (showInZh || showInEn) &&
              HasRequiredFields(Merged(req.zh_image, d.zh_image), Merged(req.zh_url, d.zh_url),
                                Merged(req.en_image, d.en_image), Merged(req.en_url, d.en_url),
                                showInZh, showInEn, OrElse(req.kind, d.kind))
  {
    var showInZh := OrElse(req.showInZh, d.showInZh);
    var showInEn := OrElse(req.showInEn, d.showInEn);
    var shown := ValidateLanguageSettings(showInZh, showInEn);
    if shown.Some? then shown
    else ValidateRequiredFields(Merged(req.zh_image, d.zh_image), Merged(req.zh_url, d.zh_url),
                                Merged(req.en_image, d.en_image), Merged(req.en_url, d.en_url),
                                showInZh, showInEn, OrElse(req.kind, d.kind))
  }

  /** `update` as written: validate the merge, then write the patch. */
  function UpdateAsWritten(d: BannerData, req: UpdateRequest): (r: Result<BannerData>)
    ensures r.Ok? <==> CheckUpdateAsWritten(d, req).None?
    ensures r.Ok? ==> r.value == Patched(d, req)
  {
    var e := CheckUpdateAsWritten(d, req);
    if e.Some? then Err(e.value) else Ok(Patched(d, req))
  }

  /** The update as written lets an explicit `null` clear the image of an image
      banner shown on the Chinese site: validation sees the stored image, the
      write stores `null`, and the banner left behind fails the checks that
      `create` and `update` exist to enforce. */
  lemma NullPassesUpdateCheck()
    ensures var d := BannerData(true, false, Some("a.jpg"), None, None, None, None, None, Some(3), Image, 1);
            var req := UpdateRequest(None, None, Null, Undefined, Undefined, Undefined, Undefined, Undefined, Undefined, None);
            && Complete(d)
            && UpdateAsWritten(d, req).Ok?
            && !Complete(UpdateAsWritten(d, req).value)
  {
    var d := BannerData(true, false, Some("a.jpg"), None, None, None, None, None, Some(3), Image, 1);
    var req := UpdateRequest(None, None, Null, Undefined, Undefined, Undefined, Undefined, Undefined, Undefined, None);
    assert Truthy(Merged(req.zh_image, d.zh_image));
    assert Patched(d, req).zh_image == None;
  }

  /** The update as intended: validate the banner exactly as it will be stored. */
  function ApplyUpdate(d: BannerData, req: UpdateRequest): (r: Result<BannerData>)
    ensures r.Ok? <==> Complete(Patched(d, req))
    ensures r.Ok? ==> r.value == Patched(d, req) && Complete(r.value)
    ensures r.Err? ==> r.error.BadRequest?
  {
    var p := Patched(d, req);
    var shown := ValidateLanguageSettings(p.showInZh, p.showInEn);
    if shown.Some? then Err(shown.value)
    else
      var fields := ValidateRequiredFields(p.zh_image, p.zh_url, p.en_image, p.en_url, p.showInZh, p.showInEn, p.kind);
      if fields.Some? then Err(fields.value) else Ok(p)
  }

  /** Without an explicit `null` the intended update and the update as written
      accept the same requests, report the same error and store the same banner. */
  lemma ApplyUpdateAgreesWithoutNull(d: BannerData, req: UpdateRequest)
    requires NoNullMedia(req)
    ensures ApplyUpdate(d, req) == UpdateAsWritten(d, req)
  {
    MergedIsWrittenUnlessNull(req.zh_image, d.zh_image);
    MergedIsWrittenUnlessNull(req.zh_url, d.zh_url);
    MergedIsWrittenUnlessNull(req.en_image, d.en_image);
    MergedIsWrittenUnlessNull(req.en_url, d.en_url);
  }

  /** Every banner in the table passes the checks: true of every banner
      `create` makes, kept by `remove` and `updateSort`, and kept by `update`
      unless the request clears a media field with an explicit `null`. */
  ghost predicate AllComplete(rows: seq<Row<BannerData>>) {
    forall k :: 0 <= k < |rows| ==> Complete(rows[k].data)
  }

  /** No media field of the request is an explicit `null`. */
  predicate NoNullMedia(req: UpdateRequest) {
    !req.zh_image.Null? && !req.zh_url.Null? && !req.en_image.Null? && !req.en_url.Null?
  }

  /** `update` as written: not found, else the `??` check of
      `CheckUpdateAsWritten`, then the `!== undefined` write of `Patched`. */
  method Update(t: Table<BannerData>, id: Id, req: UpdateRequest) returns (r: Result<Row<BannerData>>)
    requires t.Valid()
    modifies t
    ensures t.Valid()
    ensures id !in Ids(old(t.rows)) ==> r == Err(NotFound(Entity.Banner)) && t.rows == old(t.rows)
    ensures id in Ids(old(t.rows)) ==>
              var stored := Find(old(t.rows), id).value;
              match UpdateAsWritten(stored.data, req)
              case Err(e) => r == Err(e) && t.rows == old(t.rows)
              case Ok(d) => r == Ok(stored.(data := d, updatedAt := old(t.clock)))
                            && t.rows == WithData(old(t.rows), id, d, old(t.clock))
    ensures AllComplete(old(t.rows)) && NoNullMedia(req) ==> AllComplete(t.rows)
  {
    var found := Find(t.rows, id);
    if found.None? {
      return Err(NotFound(Entity.Banner));
    }
    var checked := UpdateAsWritten(found.value.data, req);
    if checked.Err? {
      return Err(checked.error);
    }
    if NoNullMedia(req) {
      ApplyUpdateAgreesWithoutNull(found.value.data, req);
    }
    var patch := (d: BannerData) => Patched(d, req);
    var stamp := t.clock;
    ModifiedIsWithData(t.rows, id, patch, stamp);
    t.Update(id, patch);
    r := Ok(found.value.(data := checked.value, updatedAt := stamp));
  }

  /** `remove` */
  method Remove(t: Table<BannerData>, id: Id) returns (err: Option<Error>)
    requires t.Valid()
    modifies t
    ensures t.Valid()
    ensures id !in Ids(old(t.rows)) ==> err == Some(NotFound(Entity.Banner)) && t.rows == old(t.rows)
    ensures id in Ids(old(t.rows)) ==> err.None? && t.rows == Without(old(t.rows), id)
    ensures AllComplete(old(t.rows)) ==> AllComplete(t.rows)
  {
    if Find(t.rows, id).None? {
      return Some(NotFound(Entity.Banner));
    }
    t.Delete(id);
    err := None;
  }

  function WithSortOrder(d: BannerData, sortOrder: int): BannerData {
    d.(sortOrder := sortOrder)
  }

  /** `updateSort`: all the requested ids must exist and be distinct, or
      nothing is written; then every listed banner gets its value in one step
      and the full admin list is returned. */
  method UpdateSort(t: Table<BannerData>, orders: seq<SortItem>) returns (r: Result<seq<Row<BannerData>>>)
    requires t.Valid()
    modifies t
    ensures t.Valid()
    ensures CheckSortRequest(Entity.Banner, old(t.rows), orders).Some? ==>
              r == Err(CheckSortRequest(Entity.Banner, old(t.rows), orders).value) && t.rows == old(t.rows)
    ensures CheckSortRequest(Entity.Banner, old(t.rows), orders).None? ==>
              && Distinct(RequestedIds(orders))
              && SortedPrefix(old(t.rows), t.rows, orders, WithSortOrder)
              && r == Ok(ListByAdmin(t.rows, None))
    ensures AllComplete(old(t.rows)) ==> AllComplete(t.rows)
  {
    var refused := CheckSortRequest(Entity.Banner, t.rows, orders);
    if refused.Some? {
      return Err(refused.value);
    }
    CheckSortRequestIff(Entity.Banner, t.rows, orders);
    ApplySortOrders(t, orders, WithSortOrder);
    r := Ok(ListByAdmin(t.rows, None));
  }
}

=== FILE: base.dfy ===
/** Shared vocabulary of the CMS model: optional values, the JavaScript
    three-state request field, and the error taxonomy every service raises. */
module Base {

  /** A record identifier. The store assigns it; the model never interprets it. */
  type Id = nat

  datatype Option<+T> = None | Some(value: T)

  /** A request-body field as JavaScript sees it: left out (`undefined`),
      sent as an explicit `null`, or given a value. */
  datatype Patch<+T> = Undefined | Null | Given(value: T)

  /** The publication status of cases, news and services. */
  datatype Status = Active | Draft | Closed

  /** The entity named by a "does not exist" error. */
  datatype Entity =
    | Banner | Customer | Case | CaseCategory | News | NewsCategory
    | Service | ServiceCategory | BlogCategory | CompanyInfo | About | PrivacyPolicy

  /** Why a write was refused with a Bad Request. */
  datatype Reason =
    | NoLanguageShown
    | MissingZhImage | MissingZhVideoUrl | MissingEnImage | MissingEnVideoUrl
    | EmptyZhName | EmptyEnName | EmptyLogo
    | EmptyCover | EmptyCompanyLogo | EmptyCategoryId | UnknownCategory
    | MissingRequiredFields
    | CategoryInUse(count: nat)
    | CategoryHasServices

  datatype Error =
    | NotFound(entity: Entity)
    | NotFoundIds(entity: Entity, missing: seq<Id>)
    | BadRequest(reason: Reason)
    | Internal

  datatype Result<+T> = Ok(value: T) | Err(error: Error)

  /** JavaScript truthiness of a `string | null | undefined` value. */
  predicate Truthy(s: Option<string>) {
    s.Some? && s.value != ""
  }

  /** `req ?? stored` for a nullable column: an explicit `null` in the request
      falls back to the stored value, just as a missing field does. */
  function Merged<T>(req: Patch<T>, stored: Option<T>): (r: Option<T>)
    ensures req.Given? ==> r == Some(req.value)
    ensures !req.Given? ==> r == stored
  {
    if req.Given? then Some(req.value) else stored
  }

  /** The column after `...(req !== undefined && { col: req })`: only a missing
      field keeps the stored value; an explicit `null` clears it. */
  function Written<T>(req: Patch<T>, stored: Option<T>): (r: Option<T>)
    ensures req.Undefined? ==> r == stored
    ensures req.Null? ==> r == None
    ensures req.Given? ==> r == Some(req.value)
  {
    match req
    case Undefined => stored
    case Null => None
    case Given(v) => Some(v)
  }

  /** Reading back a written column and merging the request give the same value
      except for an explicit `null`. */
  lemma MergedIsWrittenUnlessNull<T>(req: Patch<T>, stored: Option<T>)
    ensures !req.Null? ==> Merged(req, stored) == Written(req, stored)
    ensures req.Null? && stored.Some? ==> Merged(req, stored) != Written(req, stored)
  {
  }

  /** `a ?? b` for an optional request field. */
  function OrElse<T>(a: Option<T>, b: T): (r: T)
    ensures a.Some? ==> r == a.value
    ensures a.None? ==> r == b
  {
    if a.Some? then a.value else b
  }
}

=== FILE: blog_category.dfy ===
/** Blog categories: a bilingual name; a category still holding blog posts
    cannot be deleted. The reads and the rename are `Category`'s. The blog
    table itself is not part of this model: its `categoryId` column is a
    parameter. */
module BlogCategory {
  import opened Base
  import opened Locale
  import opened Tables
  import opened Category

  /** The single check of `create`: both names, with one message for either. */
  function CheckBothNames(req: Bilingual<Option<string>>): (r: Result<Names>)
    ensures r.Ok? <==> Truthy(req.zh) && Truthy(req.en)
    ensures r.Err? ==> r.error == BadRequest(MissingRequiredFields)
    ensures r.Ok? ==> r.value == Bilingual(req.zh.value, req.en.value)
  {
    if !Truthy(req.zh) || !Truthy(req.en) then Err(BadRequest(MissingRequiredFields))
    else Ok(Bilingual(req.zh.value, req.en.value))
  }

  /** Blog categories accept exactly the names case and news categories
      accept; only the message differs. */
  lemma SameNamesAsOtherCategories(req: Bilingual<Option<string>>)
    ensures CheckBothNames(req).Ok? <==> CheckNames(req).Ok?
    ensures CheckBothNames(req).Ok? ==> CheckBothNames(req).value == CheckNames(req).value
  {
  }

  /** `create` */
  method Create(t: Table<Names>, req: Bilingual<Option<string>>) returns (r: Result<Row<Names>>)
    requires t.Valid()
    modifies t
    ensures t.Valid()
    ensures CheckBothNames(req).Err? ==> r == Err(BadRequest(MissingRequiredFields)) && t.rows == old(t.rows)
    ensures CheckBothNames(req).Ok? ==>
              r.Ok? && t.rows == old(t.rows) + [r.value] && r.value.data == CheckBothNames(req).value
  {
    var names := CheckBothNames(req);
    if names.Err? {
      return Err(names.error);
    }
    var row := t.Insert(names.value);
    return Ok(row);
  }

  /** `remove`: refused with the number of posts while any post files under
      the category; otherwise the row is deleted. `posts` is the `categoryId`
      column of the blog table. */
  method Remove(t: Table<Names>, posts: seq<Id>, id: Id) returns (err: Option<Error>)
    requires t.Valid()
    modifies t
    ensures t.Valid()
    ensures id !in Ids(old(t.rows)) ==> err == Some(NotFound(Entity.BlogCategory)) && t.rows == old(t.rows)
    ensures id in Ids(old(t.rows)) && id in posts ==>
              err == Some(BadRequest(CategoryInUse(multiset(posts)[id]))) && t.rows == old(t.rows)
    ensures id in Ids(old(t.rows)) && id !in posts ==> err.None? && t.rows == Without(old(t.rows), id)
  {
    err := RemoveUnused(t, Entity.BlogCategory, posts, id);
  }
}

=== FILE: case.dfy ===
/** Case studies: a bilingual write-up of a customer project, filed under a
    case category, published when its status is Active. */
module Case {
  import opened Base
  import opened Locale
  import opened Tables
  import opened Paging
  import opened Search
  import opened Category

  /** A stored case. Each `Bilingual` field is a `zh_x`/`en_x` column pair. */
  datatype CaseData = CaseData(
    showInZh: bool, showInEn: bool,
    title: Bilingual<string>, cover: string, description: Bilingual<string>,
    company_logo: string, company_name: Bilingual<string>,
    company_description: Bilingual<string>, company_title: Bilingual<string>,
    categoryId: Id, tags: Bilingual<string>, content: Bilingual<string>, status: Status)

  /** A case category row: its two names. */
  type CategoryRow = Row<Bilingual<string>>

  /** A case in one language, as the public endpoints return it. */
  datatype CaseView = CaseView(
    id: Id, title: string, cover: string, description: string,
    company_logo: string, company_name: string, company_description: string, company_title: string,
    category: Option<NamedView>, tags: string, content: string, status: Status, updatedAt: nat)

  /** `transformCategoryByLanguage`: `null` when the case has no category. */
  function TransformCategory(category: Option<CategoryRow>, language: string): (r: Option<NamedView>)
    ensures r.None? <==> category.None?
    ensures r.Some? ==> r.value == ProjectName(category.value.id, category.value.data, language)
  {
    if category.None? then None else Some(ProjectName(category.value.id, category.value.data, language))
  }

  /** `transformByLanguage`: every text pair collapsed to the language; cover,
      logo, status and `updatedAt` copied. */
  function Transform(row: Row<CaseData>, category: Option<CategoryRow>, language: string): (r: CaseView)
    ensures r.id == row.id && r.cover == row.data.cover && r.company_logo == row.data.company_logo
    ensures r.status == row.data.status && r.updatedAt == row.updatedAt
    ensures r.category == TransformCategory(category, language)
    ensures IsZh(language) ==>
              && r.title == row.data.title.zh && r.description == row.data.description.zh
              && r.company_name == row.data.company_name.zh
              && r.company_description == row.data.company_description.zh
              && r.company_title == row.data.company_title.zh
              && r.tags == row.data.tags.zh && r.content == row.data.content.zh
    ensures !IsZh(language) ==>
              && r.title == row.data.title.en && r.description == row.data.description.en
              && r.company_name == row.data.company_name.en
              && r.company_description == row.data.company_description.en
              && r.company_title == row.data.company_title.en
              && r.tags == row.data.tags.en && r.content == row.data.content.en
  {
    var d := row.data;
    CaseView(row.id, In(d.title, language), d.cover, In(d.description, language),
      d.company_logo, In(d.company_name, language), In(d.company_description, language),
      In(d.company_title, language), TransformCategory(category, language),
      In(d.tags, language), In(d.content, language), d.status, row.updatedAt)
  }

  /** The body of a create request; `None` is a field left out. */
  datatype CreateRequest = CreateRequest(
    showInZh: Option<bool>, showInEn: Option<bool>,
    title: Bilingual<Option<string>>, cover: Option<string>, description: Bilingual<Option<string>>,
    company_logo: Option<string>, company_name: Bilingual<Option<string>>,
    company_description: Bilingual<Option<string>>, company_title: Bilingual<Option<string>>,
    categoryId: Option<Id>, tags: Bilingual<Option<string>>, content: Bilingual<Option<string>>,
    status: Option<Status>)

  /** The case `create` stores, or the first failed check, in the order: both
      flags off, empty cover, empty company logo, no category, unknown category. */
  function NewCase(req: CreateRequest, categories: seq<CategoryRow>): (r: Result<CaseData>)
    ensures var showInZh := OrElse(req.showInZh, true);
            var showInEn := OrElse(req.showInEn, true);
            r.Ok? <==> (showInZh || showInEn) && Truthy(req.cover) && Truthy(req.company_logo)
                       && req.categoryId.Some? && req.categoryId.value in Ids(categories)
    ensures !(OrElse(req.showInZh, true) || OrElse(req.showInEn, true)) ==> r == Err(BadRequest(NoLanguageShown))
    ensures (OrElse(req.showInZh, true) || OrElse(req.showInEn, true)) ==>
              && (!Truthy(req.cover) ==> r == Err(BadRequest(EmptyCover)))
              && (Truthy(req.cover) && !Truthy(req.company_logo) ==> r == Err(BadRequest(EmptyCompanyLogo)))
              && (Truthy(req.cover) && Truthy(req.company_logo) && req.categoryId.None? ==>
                    r == Err(BadRequest(EmptyCategoryId)))
              && ((Truthy(req.cover) && Truthy(req.company_logo) && req.categoryId.Some?
                   && req.categoryId.value !in Ids(categories)) ==> r == Err(BadRequest(UnknownCategory)))
    ensures r.Ok? ==>
              && r.value.showInZh == OrElse(req.showInZh, true) && r.value.showInEn == OrElse(req.showInEn, true)
              && r.value.cover == req.cover.value && r.value.company_logo == req.company_logo.value
              && r.value.categoryId == req.categoryId.value
              && r.value.title == OrEmpty(req.title) && r.value.description == OrEmpty(req.description)
              && r.value.company_name == OrEmpty(req.company_name)
              && r.value.company_description == OrEmpty(req.company_description)
              && r.value.company_title == OrEmpty(req.company_title)
              && r.value.tags == OrEmpty(req.tags) && r.value.content == OrEmpty(req.content)
              && r.value.status == OrElse(req.status, Draft)
  {
    var showInZh := OrElse(req.showInZh, true);
    var showInEn := OrElse(req.showInEn, true);
    var shown := ValidateLanguageSettings(showInZh, showInEn);
    if shown.Some? then Err(shown.value)
    else if !Truthy(req.cover) then Err(BadRequest(EmptyCover))
    else if !Truthy(req.company_logo) then Err(BadRequest(EmptyCompanyLogo))
    else if req.categoryId.None? then Err(BadRequest(EmptyCategoryId))
    else if Find(categories, req.categoryId.value).None? then Err(BadRequest(UnknownCategory))
    else
      Ok(CaseData(showInZh, showInEn, OrEmpty(req.title), req.cover.value, OrEmpty(req.description),
        req.company_logo.value, OrEmpty(req.company_name), OrEmpty(req.company_description),
        OrEmpty(req.company_title), req.categoryId.value, OrEmpty(req.tags), OrEmpty(req.content),
        OrElse(req.status, Draft)))
  }

  /** Every stored case shows somewhere and files under an existing category:
      true of what `create` stores. */
  lemma NewCaseIsFiled(req: CreateRequest, categories: seq<CategoryRow>)
    requires NewCase(req, categories).Ok?
    ensures var d := NewCase(req, categories).value;
            (d.showInZh || d.showInEn) && d.categoryId in Ids(categories) && d.cover != "" && d.company_logo != ""
  {
  }

  /** `create`: the written row is returned with its category included. */
  method Create(t: Table<CaseData>, categories: seq<CategoryRow>, req: CreateRequest) returns (r: Result<(Row<CaseData>, Option<CategoryRow>)>)
    requires t.Valid()
    modifies t
    ensures t.Valid()
    ensures NewCase(req, categories).Err? ==> r == Err(NewCase(req, categories).error) && t.rows == old(t.rows)
    ensures NewCase(req, categories).Ok? ==>
              r.Ok? && t.rows == old(t.rows) + [r.value.0] && r.value.0.data == NewCase(req, categories).value
              && r.value.1.Some? && r.value.1 == Find(categories, r.value.0.data.categoryId)
  {
    var checked := NewCase(req, categories);
    if checked.Err? {
      return Err(checked.error);
    }
    var row := t.Insert(checked.value);
    return Ok((row, Find(categories, row.data.categoryId)));
  }

  /** The ten columns of the `OR` block of `findAll` and `findAllByAdmin`
      (src/case/case.service.ts:224-235): title, description, company name,
      company description and tags, both languages; not the content. */
  function SearchColumns(d: CaseData): (r: seq<string>)
    ensures |r| == 10
  {
    [d.title.zh, d.title.en, d.description.zh, d.description.en,
     d.company_name.zh, d.company_name.en, d.company_description.zh, d.company_description.en,
     d.tags.zh, d.tags.en]
  }

  /** The search never looks at the content: two versions of a case that
      differ only in content match the same queries. */
  lemma SearchIgnoresContent(d: CaseData, content: Bilingual<string>, query: Option<string>)
    ensures SearchMatch(SearchColumns(d.(content := content)), query) == SearchMatch(SearchColumns(d), query)
  {
  }

  /** The `where` of the public list. */
  predicate PublicMatch(row: Row<CaseData>, language: string, categoryId: Option<Id>, query: Option<string>) {
    && row.data.status == Active
    && ShownOn(row.data.showInZh, row.data.showInEn, language)
    && (categoryId.Some? ==> row.data.categoryId == categoryId.value)
    && SearchMatch(SearchColumns(row.data), query)
  }

  /** The rows the public list pages through, newest first. */
  function PublicRows(rows: seq<Row<CaseData>>, language: string, categoryId: Option<Id>, query: Option<string>): (r: seq<Row<CaseData>>)
    ensures forall row :: row in r <==> row in rows && PublicMatch(row, language, categoryId, query)
    ensures Chronological(rows) ==> NewestFirstOrder(r)
  {
    NewestMatching(rows, (row: Row<CaseData>) => PublicMatch(row, language, categoryId, query))
  }

  /** The query parameters of the public list. */
  datatype ListParams = ListParams(
    page: Option<int>, limit: Option<int>, categoryId: Option<Id>, query: Option<string>, language: Option<string>)

  /** `findAll`: one page of the published cases for the resolved language,
      projected, with the pagination block computed over the same `where`. */
  function FindAll(rows: seq<Row<CaseData>>, categories: seq<CategoryRow>, params: ListParams): (r: Paged<CaseView>)
    ensures var language := Resolve(params.language);
            var pg := Paginate(PublicRows(rows, language, params.categoryId, params.query), params.page, params.limit);
            && r.pagination == pg.pagination
            && |r.data| == |pg.data|
            && forall k :: 0 <= k < |r.data| ==>
                 r.data[k] == Transform(pg.data[k], Find(categories, pg.data[k].data.categoryId), language)
  {
    var language := Resolve(params.language);
    var pg := Paginate(PublicRows(rows, language, params.categoryId, params.query), params.page, params.limit);
    MapData(pg, (row: Row<CaseData>) => Transform(row, Find(categories, row.data.categoryId), language))
  }

  /** Every case on a public page is Active, shown on the site of the resolved
      language, in the requested category and matched by the search. */
  lemma FindAllIsPublic(rows: seq<Row<CaseData>>, categories: seq<CategoryRow>, params: ListParams, k: int)
    requires 0 <= k < |FindAll(rows, categories, params).data|
    ensures var language := Resolve(params.language);
            var view := FindAll(rows, categories, params).data[k];
            exists row :: row in rows && PublicMatch(row, language, params.categoryId, params.query)
                          && view == Transform(row, Find(categories, row.data.categoryId), language)
  {
    var language := Resolve(params.language);
    var m := PublicRows(rows, language, params.categoryId, params.query);
    var pg := Paginate(m, params.page, params.limit);
    var row := pg.data[k];
    assert row == m[Skip(PageNumber(params.page), PageLimit(params.limit)) + k];
    assert row in m;
  }

  /** The query parameters of the admin list. */
  datatype AdminParams = AdminParams(
    page: Option<int>, limit: Option<int>, categoryId: Option<Id>, query: Option<string>,
    status: Option<Status>, language: Option<string>)

  /** The `where` of the admin list: each filter only when its parameter is given. */
  predicate AdminMatch(row: Row<CaseData>, params: AdminParams) {
    && AdminShown(row.data.showInZh, row.data.showInEn, params.language)
    && (params.status.Some? ==> row.data.status == params.status.value)
    && (params.categoryId.Some? ==> row.data.categoryId == params.categoryId.value)
    && SearchMatch(SearchColumns(row.data), params.query)
  }

  function AdminRows(rows: seq<Row<CaseData>>, params: AdminParams): (r: seq<Row<CaseData>>)
    ensures forall row :: row in r <==> row in rows && AdminMatch(row, params)
    ensures Chronological(rows) ==> NewestFirstOrder(r)
  {
    NewestMatching(rows, (row: Row<CaseData>) => AdminMatch(row, params))
  }

  /** `findAllByAdmin`: raw rows, newest first, paged, each with its
      category row as `include: { category: true }` joins it (a soft-deleted
      category included). */
  function FindAllByAdmin(rows: seq<Row<CaseData>>, categories: seq<CategoryRow>, params: AdminParams): (r: Paged<(Row<CaseData>, Option<CategoryRow>)>)
    ensures var pg := Paginate(AdminRows(rows, params), params.page, params.limit);
            && r.pagination == pg.pagination
            && |r.data| == |pg.data|
            && forall k :: 0 <= k < |r.data| ==>
                 r.data[k] == (pg.data[k], Find(categories, pg.data[k].data.categoryId))
                 && pg.data[k] in rows && AdminMatch(pg.data[k], params)
  {
    var m := AdminRows(rows, params);
    var pg := Paginate(m, params.page, params.limit);
    assert forall k :: 0 <= k < |pg.data| ==> pg.data[k] in m;
    MapData(pg, (row: Row<CaseData>) => (row, Find(categories, row.data.categoryId)))
  }


  /** With no filter parameter the admin list pages through every case. */
  lemma AdminUnfilteredListsAll(rows: seq<Row<CaseData>>, params: AdminParams, row: Row<CaseData>)
    requires !Truthy(params.language) && params.status.None? && params.categoryId.None?
    requires !(params.query.Some? && Text.HasText(params.query.value))
    ensures row in AdminRows(rows, params) <==> row in rows
  {
    SearchMatchCases(SearchColumns(row.data), params.query);
  }

  /** `findOne`: any case by id, whatever its status and flags. */
  function FindOne(rows: seq<Row<CaseData>>, categories: seq<CategoryRow>, id: Id, language: Option<string>): (r: Result<CaseView>)
    ensures r.Err? <==> id !in Ids(rows)
    ensures r.Err? ==> r.error == NotFound(Entity.Case)
    ensures r.Ok? ==> r.value.id == id
                      && r.value == Transform(Find(rows, id).value, Find(categories, Find(rows, id).value.data.categoryId), OrEnglish(language))
  {
    match Find(rows, id)
    case None => Err(NotFound(Entity.Case))
    case Some(row) => Ok(Transform(row, Find(categories, row.data.categoryId), OrEnglish(language)))
  }

  /** `findOneByAdmin`: the stored row with its category, untranslated. */
  function FindOneByAdmin(rows: seq<Row<CaseData>>, categories: seq<CategoryRow>, id: Id): (r: Result<(Row<CaseData>, Option<CategoryRow>)>)
    ensures r.Err? <==> id !in Ids(rows)
    ensures r.Err? ==> r.error == NotFound(Entity.Case)
    ensures r.Ok? ==> r.value.0 in rows && r.value.0.id == id
                      && r.value.1 == Find(categories, r.value.0.data.categoryId)
  {
    match Find(rows, id)
    case None => Err(NotFound(Entity.Case))
    case Some(row) => Ok((row, Find(categories, row.data.categoryId)))
  }
  /** With distinct ids, every entry of the admin list is what the admin
      lookup returns for its id: the same row joined with the same category. */
  lemma AdminListAgreesWithFindOne(rows: seq<Row<CaseData>>, categories: seq<CategoryRow>, params: AdminParams, k: int)
    requires IdsDistinct(rows)
    requires 0 <= k < |FindAllByAdmin(rows, categories, params).data|
    ensures var e := FindAllByAdmin(rows, categories, params).data[k];
            FindOneByAdmin(rows, categories, e.0.id) == Ok(e)
  {
    var e := FindAllByAdmin(rows, categories, params).data[k];
    var m :| 0 <= m < |rows| && rows[m] == e.0;
    FindUnique(rows, m);
  }


  /** The public and the admin lookup find the same case: the public one is
      the admin one projected. */
  lemma FindOneIsProjectedAdminRow(rows: seq<Row<CaseData>>, categories: seq<CategoryRow>, id: Id, language: Option<string>)
    ensures FindOne(rows, categories, id, language).Ok? == FindOneByAdmin(rows, categories, id).Ok?
    ensures FindOneByAdmin(rows, categories, id).Ok? ==>
              var raw := FindOneByAdmin(rows, categories, id).value;
              FindOne(rows, categories, id, language).value == Transform(raw.0, raw.1, OrEnglish(language))
  {
  }

  /** The body of an update request; `None` is a field left out. */
  datatype UpdateRequest = UpdateRequest(
    showInZh: Option<bool>, showInEn: Option<bool>,
    title: Bilingual<Option<string>>, cover: Option<string>, description: Bilingual<Option<string>>,
    company_logo: Option<string>, company_name: Bilingual<Option<string>>,
    company_description: Bilingual<Option<string>>, company_title: Bilingual<Option<string>>,
    categoryId: Option<Id>, tags: Bilingual<Option<string>>, content: Bilingual<Option<string>>,
    status: Option<Status>)

  /** The checks of `update` after the lookup: the merged flags, then a new
      category must exist. */
  function CheckUpdate(d: CaseData, req: UpdateRequest, categories: seq<CategoryRow>): (r: Option<Error>)
    ensures r.None? <==>
              (OrElse(req.showInZh, d.showInZh) || OrElse(req.showInEn, d.showInEn))
              && (req.categoryId.Some? ==> req.categoryId.value in Ids(categories))
    ensures !(OrElse(req.showInZh, d.showInZh) || OrElse(req.showInEn, d.showInEn)) ==>
              r == Some(BadRequest(NoLanguageShown))
    ensures r.Some? ==> r.value.BadRequest?
    ensures (OrElse(req.showInZh, d.showInZh) || OrElse(req.showInEn, d.showInEn))
            && req.categoryId.Some? && req.categoryId.value !in Ids(categories) ==>
              r == Some(BadRequest(UnknownCategory))
  {
    var shown := ValidateLanguageSettings(OrElse(req.showInZh, d.showInZh), OrElse(req.showInEn, d.showInEn));
    if shown.Some? then shown
    else if req.categoryId.Some? && Find(categories, req.categoryId.value).None? then Some(BadRequest(UnknownCategory))
    else None
  }

  /** The stored case after `update` writes the fields the request names. */
  function Patched(d: CaseData, req: UpdateRequest): (r: CaseData)
    ensures r.showInZh == OrElse(req.showInZh, d.showInZh) && r.showInEn == OrElse(req.showInEn, d.showInEn)
    ensures r.cover == OrElse(req.cover, d.cover) && r.company_logo == OrElse(req.company_logo, d.company_logo)
    ensures r.categoryId == OrElse(req.categoryId, d.categoryId) && r.status == OrElse(req.status, d.status)
    ensures r.title == Overwrite(d.title, req.title) && r.description == Overwrite(d.description, req.description)
    ensures r.company_name == Overwrite(d.company_name, req.company_name)
    ensures r.company_description == Overwrite(d.company_description, req.company_description)
    ensures r.company_title == Overwrite(d.company_title, req.company_title)
    ensures r.tags == Overwrite(d.tags, req.tags) && r.content == Overwrite(d.content, req.content)
  {
    CaseData(OrElse(req.showInZh, d.showInZh), OrElse(req.showInEn, d.showInEn),
      Overwrite(d.title, req.title), OrElse(req.cover, d.cover), Overwrite(d.description, req.description),
      OrElse(req.company_logo, d.company_logo), Overwrite(d.company_name, req.company_name),
      Overwrite(d.company_description, req.company_description), Overwrite(d.company_title, req.company_title),
      OrElse(req.categoryId, d.categoryId), Overwrite(d.tags, req.tags), Overwrite(d.content, req.content),
      OrElse(req.status, d.status))
  }

  /** An update the checks accept keeps the case shown somewhere and filed
      under an existing category. */
  lemma UpdateKeepsCaseFiled(d: CaseData, req: UpdateRequest, categories: seq<CategoryRow>)
    requires CheckUpdate(d, req, categories).None?
    requires d.categoryId in Ids(categories)
    ensures var p := Patched(d, req);
            (p.showInZh || p.showInEn) && p.categoryId in Ids(categories)
  {
  }

  /** `update`: the written row is returned with its category included. */
  method Update(t: Table<CaseData>, categories: seq<CategoryRow>, id: Id, req: UpdateRequest) returns (r: Result<(Row<CaseData>, Option<CategoryRow>)>)
    requires t.Valid()
    modifies t
    ensures t.Valid()
    ensures id !in Ids(old(t.rows)) ==> r == Err(NotFound(Entity.Case)) && t.rows == old(t.rows)
    ensures id in Ids(old(t.rows)) ==>
              var stored := Find(old(t.rows), id).value;
              if CheckUpdate(stored.data, req, categories).Some?
              then r == Err(CheckUpdate(stored.data, req, categories).value) && t.rows == old(t.rows)
              else r == Ok((stored.(data := Patched(stored.data, req), updatedAt := old(t.clock)),
                            Find(categories, Patched(stored.data, req).categoryId)))
                   && t.rows == WithData(old(t.rows), id, Patched(stored.data, req), old(t.clock))
  {
    var found := Find(t.rows, id);
    if found.None? {
      return Err(NotFound(Entity.Case));
    }
    var refused := CheckUpdate(found.value.data, req, categories);
    if refused.Some? {
      return Err(refused.value);
    }
    var patch := (d: CaseData) => Patched(d, req);
    var stamp := t.clock;
    ModifiedIsWithData(t.rows, id, patch, stamp);
    t.Update(id, patch);
    var written := found.value.(data := Patched(found.value.data, req), updatedAt := stamp);
    r := Ok((written, Find(categories, written.data.categoryId)));
  }

  /** `remove` */
  method Remove(t: Table<CaseData>, id: Id) returns (err: Option<Error>)
    requires t.Valid()
    modifies t
    ensures t.Valid()
    ensures id !in Ids(old(t.rows)) ==> err == Some(NotFound(Entity.Case)) && t.rows == old(t.rows)
    ensures id in Ids(old(t.rows)) ==> err.None? && t.rows == Without(old(t.rows), id)
  {
    if Find(t.rows, id).None? {
      return Some(NotFound(Entity.Case));
    }
    t.Delete(id);
    err := None;
  }

  /** The category a case files under, as a column key. */
  function CategoryOf(d: CaseData): Id {
    d.categoryId
  }
}

=== FILE: case_category.dfy ===
/** Case categories: a bilingual name; a category still holding cases cannot
    be deleted. The reads and the rename are `Category`'s. */
module CaseCategory {
  import opened Base
  import opened Locale
  import opened Tables
  import opened Category
  import Case

  /** `create`: both names must be non-empty. */
  method Create(t: Table<Names>, req: Bilingual<Option<string>>) returns (r: Result<Row<Names>>)
    requires t.Valid()
    modifies t
    ensures t.Valid()
    ensures CheckNames(req).Err? ==> r == Err(CheckNames(req).error) && t.rows == old(t.rows)
    ensures CheckNames(req).Ok? ==>
              r.Ok? && t.rows == old(t.rows) + [r.value] && r.value.data == CheckNames(req).value
  {
    var names := CheckNames(req);
    if names.Err? {
      return Err(names.error);
    }
    var row := t.Insert(names.value);
    return Ok(row);
  }

  /** `remove`: refused with the number of cases while any case, of any
      status, files under the category; otherwise the row is deleted. */
  method Remove(t: Table<Names>, cases: seq<Row<Case.CaseData>>, id: Id) returns (err: Option<Error>)
    requires t.Valid()
    modifies t
    ensures t.Valid()
    ensures id !in Ids(old(t.rows)) ==> err == Some(NotFound(Entity.CaseCategory)) && t.rows == old(t.rows)
    ensures id in Ids(old(t.rows)) && InUse(Column(cases, Case.CategoryOf), id).Some? ==>
              err == InUse(Column(cases, Case.CategoryOf), id) && t.rows == old(t.rows)
    ensures id in Ids(old(t.rows)) && InUse(Column(cases, Case.CategoryOf), id).None? ==>
              err.None? && t.rows == Without(old(t.rows), id)
  {
    err := RemoveUnused(t, Entity.CaseCategory, Column(cases, Case.CategoryOf), id);
  }

  /** A deletion that goes through leaves no case pointing at the deleted
      category, so every case's category stays resolvable. */
  lemma {:induction false} RemoveKeepsCasesFiled(categories: seq<Row<Names>>, cases: seq<Row<Case.CaseData>>, id: Id)
    requires InUse(Column(cases, Case.CategoryOf), id).None?
    requires forall k :: 0 <= k < |cases| ==> cases[k].data.categoryId in Ids(categories)
    ensures forall k :: 0 <= k < |cases| ==> cases[k].data.categoryId in Ids(Without(categories, id))
  {
    var refs := Column(cases, Case.CategoryOf);
    forall k | 0 <= k < |cases| ensures cases[k].data.categoryId in Ids(Without(categories, id)) {
      var c := cases[k].data.categoryId;
      assert refs[k] == c;
      assert c != id;
      var j :| 0 <= j < |categories| && categories[j].id == c;
      assert categories[j] in Without(categories, id);
      var i :| 0 <= i < |Without(categories, id)| && Without(categories, id)[i] == categories[j];
    }
  }
}

=== FILE: category.dfy ===
/** What the category services share: a bilingual name, its projection to
    one language, the name checks of `create`, the reads and the rename that
    case, blog and service categories implement alike, and the reference
    count that guards deletion. */
module Category {
  import opened Base
  import opened Locale
  import opened Tables

  /** A category row holds its two names. */
  type Names = Bilingual<string>

  /** `{ id, name }`: a category in one language. */
  datatype NamedView = NamedView(id: Id, name: string)

  /** `transformByLanguage` of every category service. */
  function ProjectName(id: Id, names: Bilingual<string>, language: string): (r: NamedView)
    ensures r.id == id
    ensures IsZh(language) ==> r.name == names.zh
    ensures !IsZh(language) ==> r.name == names.en
  {
    NamedView(id, In(names, language))
  }

  /** The two name checks of case and news categories: an empty Chinese name
      is reported first, then an empty English name. */
  function CheckNames(req: Bilingual<Option<string>>): (r: Result<Bilingual<string>>)
    ensures r.Ok? <==> Truthy(req.zh) && Truthy(req.en)
    ensures !Truthy(req.zh) ==> r == Err(BadRequest(EmptyZhName))
    ensures Truthy(req.zh) && !Truthy(req.en) ==> r == Err(BadRequest(EmptyEnName))
    ensures r.Ok? ==> r.value == Bilingual(req.zh.value, req.en.value) && r.value.zh != "" && r.value.en != ""
  {
    if !Truthy(req.zh) then Err(BadRequest(EmptyZhName))
    else if !Truthy(req.en) then Err(BadRequest(EmptyEnName))
    else Ok(Bilingual(req.zh.value, req.en.value))
  }

  /** `count({ where: { categoryId: id } })` over the `categoryId` column of a
      content table. */
  function Uses(refs: seq<Id>, id: Id): (r: nat)
    ensures r == multiset(refs)[id]
    ensures r == 0 <==> id !in refs
  {
    if refs == [] then 0
    else
      assert refs == [refs[0]] + refs[1..];
      (if refs[0] == id then 1 else 0) + Uses(refs[1..], id)
  }

  /** The deletion guard: a category still referenced is refused with the
      number of referencing rows. */
  function InUse(refs: seq<Id>, id: Id): (r: Option<Error>)
    ensures r.None? <==> id !in refs
    ensures r.Some? ==> r.value == BadRequest(CategoryInUse(multiset(refs)[id])) && multiset(refs)[id] > 0
  {
    var n := Uses(refs, id);
    if n > 0 then Some(BadRequest(CategoryInUse(n))) else None
  }

  /** `findAllByAdmin`: every category, raw, newest first. */
  function ListByAdmin(rows: seq<Row<Names>>): (r: seq<Row<Names>>)
    ensures |r| == |rows| && multiset(r) == multiset(rows)
    ensures Chronological(rows) ==> NewestFirstOrder(r)
  {
    NewestFirst(rows)
  }

  /** `findAll`: every category projected to the language (English when
      omitted), newest first. */
  function FindAll(rows: seq<Row<Names>>, language: Option<string>): (r: seq<NamedView>)
    ensures |r| == |rows|
    ensures forall k :: 0 <= k < |r| ==>
              r[k] == ProjectName(rows[|rows| - 1 - k].id, rows[|rows| - 1 - k].data, OrEnglish(language))
  {
    var l := ListByAdmin(rows);
    seq(|l|, k requires 0 <= k < |l| => ProjectName(l[k].id, l[k].data, OrEnglish(language)))
  }

  /** Every stored category is listed exactly once. */
  lemma {:induction false} FindAllListsEach(rows: seq<Row<Names>>, language: Option<string>, k: int)
    requires 0 <= k < |rows|
    ensures FindAll(rows, language)[|rows| - 1 - k] == ProjectName(rows[k].id, rows[k].data, OrEnglish(language))
  {
    var j := |rows| - 1 - k;
    assert |rows| - 1 - j == k;
  }

  /** `findOne` (through `_findOneRaw`) */
  function FindOne(rows: seq<Row<Names>>, entity: Entity, id: Id, language: Option<string>): (r: Result<NamedView>)
    ensures r.Err? <==> id !in Ids(rows)
    ensures r.Err? ==> r.error == NotFound(entity)
    ensures r.Ok? ==> r.value == ProjectName(id, Find(rows, id).value.data, OrEnglish(language))
  {
    match Find(rows, id)
    case None => Err(NotFound(entity))
    case Some(row) => Ok(ProjectName(row.id, row.data, OrEnglish(language)))
  }

  /** `findOneByAdmin`: the raw row. */
  function FindOneByAdmin(rows: seq<Row<Names>>, entity: Entity, id: Id): (r: Result<Row<Names>>)
    ensures r.Err? <==> id !in Ids(rows)
    ensures r.Err? ==> r.error == NotFound(entity)
    ensures r.Ok? ==> r.value in rows && r.value.id == id
  {
    match Find(rows, id)
    case None => Err(NotFound(entity))
    case Some(row) => Ok(row)
  }

  /** `update`: writes the names the request carries, without checking them. */
  method Rename(t: Table<Names>, entity: Entity, id: Id, req: Bilingual<Option<string>>) returns (r: Result<Row<Names>>)
    requires t.Valid()
    modifies t
    ensures t.Valid()
    ensures id !in Ids(old(t.rows)) ==> r == Err(NotFound(entity)) && t.rows == old(t.rows)
    ensures id in Ids(old(t.rows)) ==>
              var stored := Find(old(t.rows), id).value;
              && r == Ok(stored.(data := Overwrite(stored.data, req), updatedAt := old(t.clock)))
              && t.rows == WithData(old(t.rows), id, Overwrite(stored.data, req), old(t.clock))
  {
    var found := Find(t.rows, id);
    if found.None? {
      return Err(NotFound(entity));
    }
    var patch := (d: Names) => Overwrite(d, req);
    var stamp := t.clock;
    ModifiedIsWithData(t.rows, id, patch, stamp);
    t.Update(id, patch);
    r := Ok(found.value.(data := Overwrite(found.value.data, req), updatedAt := stamp));
  }

  /** `remove` of case and blog categories: refused while any row of the
      content table refers to the category (`refs` is its `categoryId`
      column); otherwise the row is deleted. */
  method RemoveUnused(t: Table<Names>, entity: Entity, refs: seq<Id>, id: Id) returns (err: Option<Error>)
    requires t.Valid()
    modifies t
    ensures t.Valid()
    ensures id !in Ids(old(t.rows)) ==> err == Some(NotFound(entity)) && t.rows == old(t.rows)
    ensures id in Ids(old(t.rows)) && id in refs ==> err == InUse(refs, id) && t.rows == old(t.rows)
    ensures id in Ids(old(t.rows)) && id !in refs ==>
              err.None? && t.rows == Without(old(t.rows), id) && id !in Ids(t.rows)
              && |t.rows| == |old(t.rows)| - 1
  {
    if Find(t.rows, id).None? {
      return Some(NotFound(entity));
    }
    var inUse := InUse(refs, id);
    if inUse.Some? {
      return inUse;
    }
    WithoutCount(t.rows, id);
    t.Delete(id);
    err := None;
  }
}

=== FILE: company_info.dfy ===
/** Company information: the address, phone, e-mail and opening hours, each
    in both languages, kept in the earliest row of its table. */
module CompanyInfo {
  import opened Base
  import opened Locale
  import opened Tables
  import opened Singleton

  datatype CompanyInfoData = CompanyInfoData(
    address: Bilingual<string>, phone: Bilingual<string>, email: Bilingual<string>, opening_time: Bilingual<string>)

  datatype CompanyInfoView = CompanyInfoView(id: Id, address: string, phone: string, email: string, opening_time: string)

  /** `transformByLanguage` */
  function Transform(row: Row<CompanyInfoData>, language: string): (r: CompanyInfoView)
    ensures r.id == row.id
    ensures IsZh(language) ==>
              r == CompanyInfoView(row.id, row.data.address.zh, row.data.phone.zh, row.data.email.zh, row.data.opening_time.zh)
    ensures !IsZh(language) ==>
              r == CompanyInfoView(row.id, row.data.address.en, row.data.phone.en, row.data.email.en, row.data.opening_time.en)
  {
    var d := row.data;
    CompanyInfoView(row.id, In(d.address, language), In(d.phone, language), In(d.email, language), In(d.opening_time, language))
  }

  /** `findFirst`: the earliest row projected (English when the language is omitted). */
  function FindFirst(rows: seq<Row<CompanyInfoData>>, language: Option<string>): (r: Result<CompanyInfoView>)
    ensures r.Err? <==> rows == []
    ensures r.Err? ==> r.error == NotFound(Entity.CompanyInfo)
    ensures r.Ok? ==> r.value == Transform(rows[0], OrEnglish(language))
  {
    match Singleton.FindFirst(rows, Entity.CompanyInfo)
    case Err(e) => Err(e)
    case Ok(row) => Ok(Transform(row, OrEnglish(language)))
  }

  /** `findFirstByAdmin`: the same row, raw; the public read is its projection. */
  function FindFirstByAdmin(rows: seq<Row<CompanyInfoData>>): (r: Result<Row<CompanyInfoData>>)
    ensures r.Err? <==> rows == []
    ensures r.Err? ==> r.error == NotFound(Entity.CompanyInfo)
    ensures r.Ok? ==> r.value == rows[0]
    ensures forall language :: r.Ok? ==> FindFirst(rows, language) == Ok(Transform(r.value, OrEnglish(language)))
  {
    Singleton.FindFirst(rows, Entity.CompanyInfo)
  }

  /** The body of an update request; `None` is a field left out. */
  datatype UpdateRequest = UpdateRequest(
    address: Bilingual<Option<string>>, phone: Bilingual<Option<string>>,
    email: Bilingual<Option<string>>, opening_time: Bilingual<Option<string>>)

  /** The record after `update` writes the fields the request names. */
  function Patched(d: CompanyInfoData, req: UpdateRequest): (r: CompanyInfoData)
    ensures r.address == Overwrite(d.address, req.address) && r.phone == Overwrite(d.phone, req.phone)
    ensures r.email == Overwrite(d.email, req.email) && r.opening_time == Overwrite(d.opening_time, req.opening_time)
  {
    CompanyInfoData(Overwrite(d.address, req.address), Overwrite(d.phone, req.phone),
      Overwrite(d.email, req.email), Overwrite(d.opening_time, req.opening_time))
  }

  /** A request naming no field changes nothing; repeating an update changes nothing more. */
  lemma PatchedLaws(d: CompanyInfoData, req: UpdateRequest)
    ensures Patched(d, UpdateRequest(Absent, Absent, Absent, Absent)) == d
    ensures Patched(Patched(d, req), req) == Patched(d, req)
  {
  }

  /** `update`: patches the earliest row only. */
  method Update(t: Table<CompanyInfoData>, req: UpdateRequest) returns (r: Result<Row<CompanyInfoData>>)
    requires t.Valid()
    modifies t
    ensures t.Valid()
    ensures old(t.rows) == [] ==> r == Err(NotFound(Entity.CompanyInfo)) && t.rows == old(t.rows)
    ensures old(t.rows) != [] ==>
              var first := old(t.rows)[0];
              && r == Ok(first.(data := Patched(first.data, req), updatedAt := old(t.clock)))
              && t.rows == [r.value] + old(t.rows)[1..]
  {
    r := UpdateFirst(t, Entity.CompanyInfo, (d: CompanyInfoData) => Patched(d, req));
  }
}

=== FILE: contact.dfy ===
/** Contact-form submissions: stored as sent, listed to administrators with
    paging and search. The notification e-mail is sent without waiting for
    it and a failure is only logged, so it has no effect in the model. */
module Contact {
  import opened Base
  import opened Tables
  import opened Paging
  import opened Search

  datatype ContactData = ContactData(name: string, email: string, phone: string, message: string)

  /** `create`: the submission is stored and returned. The notification is
      sent afterwards without waiting for it, and a failure is only logged,
      so it never undoes or hides the stored record. */
  method Create(t: Table<ContactData>, req: ContactData) returns (row: Row<ContactData>)
    requires t.Valid()
    modifies t
    ensures t.Valid()
    ensures t.rows == old(t.rows) + [row] && row.data == req && row.id !in Ids(old(t.rows))
  {
    row := t.Insert(req);
  }

  /** The four columns of the `OR` block of `findAll`
      (src/contact/contact.service.ts:58-63): name, email, phone and message. */
  function SearchColumns(d: ContactData): (r: seq<string>)
    ensures |r| == 4
  {
    [d.name, d.email, d.phone, d.message]
  }

  predicate Match(row: Row<ContactData>, query: Option<string>) {
    SearchMatch(SearchColumns(row.data), query)
  }

  function Matching(rows: seq<Row<ContactData>>, query: Option<string>): (r: seq<Row<ContactData>>)
    ensures forall row :: row in r <==> row in rows && Match(row, query)
    ensures Chronological(rows) ==> NewestFirstOrder(r)
  {
    NewestMatching(rows, (row: Row<ContactData>) => Match(row, query))
  }

  /** `findAll`: one page of submissions, newest first. */
  function FindAll(rows: seq<Row<ContactData>>, page: Option<int>, limit: Option<int>, query: Option<string>): (r: Paged<Row<ContactData>>)
    ensures r == Paginate(Matching(rows, query), page, limit)
    ensures forall k :: 0 <= k < |r.data| ==> r.data[k] in rows && Match(r.data[k], query)
  {
    var m := Matching(rows, query);
    var r := Paginate(m, page, limit);
    assert forall k :: 0 <= k < |r.data| ==> r.data[k] in m;
    r
  }

  /** Without a search term (missing, empty or blank) the list pages through
      every submission. */
  lemma {:induction false} NoQueryListsAll(rows: seq<Row<ContactData>>, query: Option<string>)
    requires !Searching(query)
    ensures FindAll(rows, None, None, query).pagination.total == |rows|
    ensures forall row :: row in Matching(rows, query) <==> row in rows
  {
    SearchingIff(query);
    forall row: Row<ContactData> ensures Match(row, query) {
      SearchMatchCases(SearchColumns(row.data), query);
    }
    CountAll(rows, query);
  }

  lemma {:induction false} CountAll(rows: seq<Row<ContactData>>, query: Option<string>)
    requires forall row: Row<ContactData> :: Match(row, query)
    ensures |Matching(rows, query)| == |rows|
  {
    WhereKeepsAll(rows, (row: Row<ContactData>) => Match(row, query));
  }

  /** `findOne`: `null` rather than an error for an unknown id. */
  function FindOne(rows: seq<Row<ContactData>>, id: Id): (r: Option<Row<ContactData>>)
    ensures r.None? <==> id !in Ids(rows)
    ensures r.Some? ==> r.value in rows && r.value.id == id
  {
    Find(rows, id)
  }

  /** `remove`: a plain delete; on an unknown id the store's own error
      surfaces as an internal server error. */
  method Remove(t: Table<ContactData>, id: Id) returns (r: Result<Row<ContactData>>)
    requires t.Valid()
    modifies t
    ensures t.Valid()
    ensures id !in Ids(old(t.rows)) ==> r == Err(Internal) && t.rows == old(t.rows)
    ensures id in Ids(old(t.rows)) ==> r == Ok(Find(old(t.rows), id).value) && t.rows == Without(old(t.rows), id)
  {
    var found := Find(t.rows, id);
    if found.None? {
      return Err(Internal);
    }
    t.Delete(id);
    r := Ok(found.value);
  }
}

=== FILE: customer.dfy ===
/** Partner customers: a bilingual name, a logo and a link, listed in the
    order the administrator sets. */
module Customer {
  import opened Base
  import opened Locale
  import opened Tables
  import opened Sorting
  import opened Sortable

  datatype CustomerData = CustomerData(zh_name: string, en_name: string, logo: string, url: Option<string>, sortOrder: int)

  datatype CustomerView = CustomerView(id: Id, name: string, logo: string, url: Option<string>)

  /** `transformByLanguage` */
  function Transform(row: Row<CustomerData>, language: string): (r: CustomerView)
    ensures r.id == row.id && r.logo == row.data.logo && r.url == row.data.url
    ensures r.name == if IsZh(language) then row.data.zh_name else row.data.en_name
  {
    CustomerView(row.id, Pick(language, row.data.zh_name, row.data.en_name), row.data.logo, row.data.url)
  }

  /** The body of a create request; a field may be missing at run time. */
  datatype CreateRequest = CreateRequest(zh_name: Option<string>, en_name: Option<string>, logo: Option<string>, url: Option<string>)

  function SortOrderOf(d: CustomerData): int { d.sortOrder }

  /** The customer `create` stores, or the first failed check: Chinese name,
      English name, logo. */
  function NewCustomer(req: CreateRequest, keys: seq<int>): (r: Result<CustomerData>)
    ensures r.Ok? <==> Truthy(req.zh_name) && Truthy(req.en_name) && Truthy(req.logo)
    ensures !Truthy(req.zh_name) ==> r == Err(BadRequest(EmptyZhName))
    ensures Truthy(req.zh_name) && !Truthy(req.en_name) ==> r == Err(BadRequest(EmptyEnName))
    ensures Truthy(req.zh_name) && Truthy(req.en_name) && !Truthy(req.logo) ==> r == Err(BadRequest(EmptyLogo))
    ensures r.Ok? ==> && r.value.zh_name == req.zh_name.value && r.value.en_name == req.en_name.value
                      && r.value.logo == req.logo.value && r.value.url == req.url
                      && r.value.zh_name != "" && r.value.en_name != "" && r.value.logo != ""
    ensures r.Ok? ==> forall k :: k in keys ==> k < r.value.sortOrder
  {
    if !Truthy(req.zh_name) then Err(BadRequest(EmptyZhName))
    else if !Truthy(req.en_name) then Err(BadRequest(EmptyEnName))
    else if !Truthy(req.logo) then Err(BadRequest(EmptyLogo))
    else Ok(CustomerData(req.zh_name.value, req.en_name.value, req.logo.value, req.url, NextSortOrder(keys)))
  }

  /** `create` */
  method Create(t: Table<CustomerData>, req: CreateRequest) returns (r: Result<Row<CustomerData>>)
    requires t.Valid()
    modifies t
    ensures t.Valid()
    ensures NewCustomer(req, SortKeys(old(t.rows), SortOrderOf)).Err? ==>
              r == Err(NewCustomer(req, SortKeys(old(t.rows), SortOrderOf)).error) && t.rows == old(t.rows)
    ensures NewCustomer(req, SortKeys(old(t.rows), SortOrderOf)).Ok? ==>
              r.Ok? && t.rows == old(t.rows) + [r.value]
              && r.value.data == NewCustomer(req, SortKeys(old(t.rows), SortOrderOf)).value
  {
    var checked := NewCustomer(req, SortKeys(t.rows, SortOrderOf));
    if checked.Err? {
      return Err(checked.error);
    }
    var row := t.Insert(checked.value);
    return Ok(row);
  }

  function RowSortOrder(row: Row<CustomerData>): int { row.data.sortOrder }

  /** `findAllByAdmin`: every customer, raw, in ascending `sortOrder`. */
  function ListByAdmin(rows: seq<Row<CustomerData>>): (r: seq<Row<CustomerData>>)
    ensures SortedBy(r, RowSortOrder)
    ensures multiset(r) == multiset(rows)
  {
    SortByKey(rows, RowSortOrder)
  }

  /** `findAll`: the same list with no visibility filter, each customer
      projected to the language (English when omitted). */
  function FindAll(rows: seq<Row<CustomerData>>, language: Option<string>): (r: seq<CustomerView>)
    ensures |r| == |rows|
    ensures forall k :: 0 <= k < |r| ==> r[k] == Transform(ListByAdmin(rows)[k], OrEnglish(language))
  {
    var l := ListByAdmin(rows);
    seq(|l|, k requires 0 <= k < |l| => Transform(l[k], OrEnglish(language)))
  }

  /** Every stored customer appears in the public list. */
  lemma FindAllListsEveryone(rows: seq<Row<CustomerData>>, language: Option<string>, k: int)
    requires 0 <= k < |rows|
    ensures Transform(rows[k], OrEnglish(language)) in FindAll(rows, language)
  {
    var l := ListByAdmin(rows);
    assert rows[k] in multiset(l);
    var j :| 0 <= j < |l| && l[j] == rows[k];
    assert FindAll(rows, language)[j] == Transform(rows[k], OrEnglish(language));
  }

  /** `findOne` */
  function FindOne(rows: seq<Row<CustomerData>>, id: Id, language: Option<string>): (r: Result<CustomerView>)
    ensures r.Err? <==> id !in Ids(rows)
    ensures r.Err? ==> r.error == NotFound(Entity.Customer)
    ensures r.Ok? ==> r.value.id == id && r.value == Transform(Find(rows, id).value, OrEnglish(language))
  {
    match Find(rows, id)
    case None => Err(NotFound(Entity.Customer))
    case Some(row) => Ok(Transform(row, OrEnglish(language)))
  }

  /** The body of an update request; `None` is a field left out. */
  datatype UpdateRequest = UpdateRequest(zh_name: Option<string>, en_name: Option<string>, logo: Option<string>, url: Option<string>)

  /** The stored customer after `update` writes the fields the request names.
      No field is validated: an empty name is written as given. */
  function Patched(d: CustomerData, req: UpdateRequest): (r: CustomerData)
    ensures r.zh_name == OrElse(req.zh_name, d.zh_name) && r.en_name == OrElse(req.en_name, d.en_name)
    ensures r.logo == OrElse(req.logo, d.logo) && r.sortOrder == d.sortOrder
    ensures r.url == if req.url.Some? then req.url else d.url
  {
    CustomerData(OrElse(req.zh_name, d.zh_name), OrElse(req.en_name, d.en_name), OrElse(req.logo, d.logo),
                 if req.url.Some? then req.url else d.url, d.sortOrder)
  }

  /** A request naming no field changes nothing; repeating an update changes nothing more. */
  lemma PatchedLaws(d: CustomerData, req: UpdateRequest)
    ensures req == UpdateRequest(None, None, None, None) ==> Patched(d, req) == d
    ensures Patched(Patched(d, req), req) == Patched(d, req)
  {
  }

  /** `update` */
  method Update(t: Table<CustomerData>, id: Id, req: UpdateRequest) returns (r: Result<Row<CustomerData>>)
    requires t.Valid()
    modifies t
    ensures t.Valid()
    ensures id !in Ids(old(t.rows)) ==> r == Err(NotFound(Entity.Customer)) && t.rows == old(t.rows)
    ensures id in Ids(old(t.rows)) ==>
              var stored := Find(old(t.rows), id).value;
              && r == Ok(stored.(data := Patched(stored.data, req), updatedAt := old(t.clock)))
              && t.rows == WithData(old(t.rows), id, Patched(stored.data, req), old(t.clock))
  {
    var found := Find(t.rows, id);
    if found.None? {
      return Err(NotFound(Entity.Customer));
    }
    var patch := (d: CustomerData) => Patched(d, req);
    var stamp := t.clock;
    ModifiedIsWithData(t.rows, id, patch, stamp);
    t.Update(id, patch);
    r := Ok(found.value.(data := Patched(found.value.data, req), updatedAt := stamp));
  }

  /** `remove` */
  method Remove(t: Table<CustomerData>, id: Id) returns (err: Option<Error>)
    requires t.Valid()
    modifies t
    ensures t.Valid()
    ensures id !in Ids(old(t.rows)) ==> err == Some(NotFound(Entity.Customer)) && t.rows == old(t.rows)
    ensures id in Ids(old(t.rows)) ==> err.None? && t.rows == Without(old(t.rows), id)
    ensures id in Ids(old(t.rows)) ==> |t.rows| == |old(t.rows)| - 1 && id !in Ids(t.rows)
  {
    if Find(t.rows, id).None? {
      return Some(NotFound(Entity.Customer));
    }
    WithoutCount(t.rows, id);
    t.Delete(id);
    err := None;
  }

  function WithSortOrder(d: CustomerData, sortOrder: int): CustomerData {
    d.(sortOrder := sortOrder)
  }

  /** `updateSort`, as for banners. */
  method UpdateSort(t: Table<CustomerData>, orders: seq<SortItem>) returns (r: Result<seq<Row<CustomerData>>>)
    requires t.Valid()
    modifies t
    ensures t.Valid()
    ensures CheckSortRequest(Entity.Customer, old(t.rows), orders).Some? ==>
              r == Err(CheckSortRequest(Entity.Customer, old(t.rows), orders).value) && t.rows == old(t.rows)
    ensures CheckSortRequest(Entity.Customer, old(t.rows), orders).None? ==>
              && Distinct(RequestedIds(orders))
              && SortedPrefix(old(t.rows), t.rows, orders, WithSortOrder)
              && r == Ok(ListByAdmin(t.rows))
  {
    var refused := CheckSortRequest(Entity.Customer, t.rows, orders);
    if refused.Some? {
      return Err(refused.value);
    }
    CheckSortRequestIff(Entity.Customer, t.rows, orders);
    ApplySortOrders(t, orders, WithSortOrder);
    r := Ok(ListByAdmin(t.rows));
  }
}

=== FILE: locale.dfy ===
/** The locale resolver shared by every service: a language tag selects the
    Chinese or the English half of each `zh_`/`en_` column pair. */
module Locale {
  import opened Base

  /** The tags that select Chinese; matching is exact and case-sensitive. */
  predicate IsZh(language: string) {
    language == "zh" || language == "zh-TW" || language == "zh-CN"
  }

  /** `params.language || 'en'`: a missing or empty tag means English. */
  function Resolve(language: Option<string>): (r: string)
    ensures Truthy(language) ==> r == language.value
    ensures !Truthy(language) ==> r == "en" && !IsZh(r)
  {
    if Truthy(language) then language.value else "en"
  }

  /** A default parameter `language = 'en'`: only a missing tag is replaced. */
  function OrEnglish(language: Option<string>): (r: string)
    ensures language.Some? ==> r == language.value
    ensures language.None? ==> r == "en"
  {
    if language.Some? then language.value else "en"
  }

  /** Collapse one `zh_x`/`en_x` pair. */
  function Pick<T>(language: string, zh: T, en: T): T {
    if IsZh(language) then zh else en
  }

  /** Resolving and defaulting agree on which half is chosen: an absent or
      empty tag selects English either way. */
  lemma ResolveAgreesWithDefault(language: Option<string>)
    ensures IsZh(Resolve(language)) == IsZh(OrEnglish(language))
    ensures IsZh(Resolve(language)) <==> language.Some? && IsZh(language.value)
  {
  }

  /** The choice depends only on whether the tag is one of the Chinese tags. */
  lemma PickDependsOnlyOnIsZh<T>(a: string, b: string, zh: T, en: T)
    requires IsZh(a) == IsZh(b)
    ensures Pick(a, zh, en) == Pick(b, zh, en)
  {
  }

  /** `validateLanguageSettings` of banners, cases, news and services: a
      record must be shown on at least one of the two sites. */
  function ValidateLanguageSettings(showInZh: bool, showInEn: bool): (r: Option<Error>)
    ensures r.Some? <==> !showInZh && !showInEn
    ensures r.Some? ==> r.value == BadRequest(NoLanguageShown)
  {
    if !showInZh && !showInEn then Some(BadRequest(NoLanguageShown)) else None
  }

  /** The show flag of the site `language` selects. */
  predicate ShownOn(showInZh: bool, showInEn: bool, language: string) {
    if IsZh(language) then showInZh else showInEn
  }

  /** The `where` clause on the show flags of an admin list: a flag test only
      when a (truthy) language is given. */
  predicate AdminShown(showInZh: bool, showInEn: bool, language: Option<string>) {
    Truthy(language) ==> ShownOn(showInZh, showInEn, language.value)
  }

  /** A `zh_x`/`en_x` column pair. */
  datatype Bilingual<T> = Bilingual(zh: T, en: T)

  /** The half of a column pair the language selects. */
  function In<T>(b: Bilingual<T>, language: string): (r: T)
    ensures IsZh(language) ==> r == b.zh
    ensures !IsZh(language) ==> r == b.en
  {
    Pick(language, b.zh, b.en)
  }

  /** `zh_x ?? ''`, `en_x ?? ''`: the pair `create` stores for optional text. */
  function OrEmpty(b: Bilingual<Option<string>>): (r: Bilingual<string>)
    ensures r.zh == OrElse(b.zh, "") && r.en == OrElse(b.en, "")
  {
    Bilingual(OrElse(b.zh, ""), OrElse(b.en, ""))
  }

  /** Write each half the request names (`!== undefined`), keep the other. */
  function Overwrite<T>(stored: Bilingual<T>, req: Bilingual<Option<T>>): (r: Bilingual<T>)
    ensures r.zh == OrElse(req.zh, stored.zh) && r.en == OrElse(req.en, stored.en)
  {
    Bilingual(OrElse(req.zh, stored.zh), OrElse(req.en, stored.en))
  }

  /** A pair that names neither half. */
  const Absent: Bilingual<Option<string>> := Bilingual(None, None)

  /** Writing nothing keeps the pair, and writing twice is writing once. */
  lemma OverwriteLaws(stored: Bilingual<string>, req: Bilingual<Option<string>>)
    ensures Overwrite(stored, Absent) == stored
    ensures Overwrite(Overwrite(stored, req), req) == Overwrite(stored, req)
    ensures req.zh.Some? && req.en.Some? ==> Overwrite(stored, req) == Bilingual(req.zh.value, req.en.value)
  {
  }
}

=== FILE: mail.dfy ===
/** The HTML escaping the mail service applies to every user-supplied field of
    a contact notification before it goes into the message body. */
module Mail {

  predicate IsSpecial(c: char) {
    c == '&' || c == '<' || c == '>' || c == '"' || c == '\''
  }

  /** The lookup table: each special character and its entity; every other
      character stands for itself. */
  function EscapeChar(c: char): (r: string)
    ensures c == '&' ==> r == "&amp;"
    ensures c == '<' ==> r == "&lt;"
    ensures c == '>' ==> r == "&gt;"
    ensures c == '"' ==> r == "&quot;"
    ensures c == '\'' ==> r == "&#039;"
    ensures !IsSpecial(c) ==> r == [c]
    ensures IsSpecial(c) ==> r[0] == '&' && |r| >= 4
  {
    match c
    case '&' => "&amp;"
    case '<' => "&lt;"
    case '>' => "&gt;"
    case '"' => "&quot;"
    case '\'' => "&#039;"
    case _ => [c]
  }

  /** `escapeHtml`: one left-to-right pass replacing each special character;
      a replacement is never looked at again. */
  function EscapeHtml(s: string): (r: string)
    ensures |r| >= |s|
  {
    if s == [] then []
    else EscapeChar(s[0]) + EscapeHtml(s[1..])
  }

  /** Markup characters are gone: no `<`, `>`, `"` or `'` survives. */
  lemma {:induction false} EscapedHasNoMarkup(s: string)
    ensures forall i :: 0 <= i < |EscapeHtml(s)| ==> EscapeHtml(s)[i] !in {'<', '>', '"', '\''}
  {
    if s != [] {
      EscapedHasNoMarkup(s[1..]);
      var head := EscapeChar(s[0]);
      var r := EscapeHtml(s);
      forall i | 0 <= i < |r| ensures r[i] !in {'<', '>', '"', '\''} {
        if i >= |head| {
          assert r[i] == EscapeHtml(s[1..])[i - |head|];
        }
      }
    }
  }

  /** Text without special characters is returned unchanged. */
  lemma {:induction false} EscapeIsIdentityOnPlainText(s: string)
    requires forall i :: 0 <= i < |s| ==> !IsSpecial(s[i])
    ensures EscapeHtml(s) == s
  {
    if s != [] {
      EscapeIsIdentityOnPlainText(s[1..]);
      assert s == [s[0]] + s[1..];
    }
  }

  /** Text with a special character grows. */
  lemma {:induction false} EscapeGrowsOnSpecial(s: string, i: int)
    requires 0 <= i < |s| && IsSpecial(s[i])
    ensures |EscapeHtml(s)| > |s|
  {
    if i > 0 {
      EscapeGrowsOnSpecial(s[1..], i - 1);
    }
  }

  /** Escaping is not idempotent: an ampersand is escaped again on a second pass. */
  lemma EscapeIsNotIdempotent()
    ensures EscapeHtml("&") == "&amp;"
    ensures EscapeHtml(EscapeHtml("&")) == "&amp;amp;"
    ensures EscapeHtml(EscapeHtml("&")) != EscapeHtml("&")
  {
    assert EscapeHtml("&") == EscapeChar('&') + EscapeHtml([]);
    var once := "&amp;";
    assert once[1..] == "amp;";
    assert EscapeHtml("amp;") == "amp;" by {
      EscapeIsIdentityOnPlainText("amp;");
    }
    assert EscapeHtml(once) == EscapeChar('&') + EscapeHtml("amp;");
  }

  /** What a browser does with the five entities: the inverse of escaping. */
  function Unescape(s: string): (r: string)
    decreases |s|
  {
    if s == [] then []
    else if |s| >= 5 && s[..5] == "&amp;" then "&" + Unescape(s[5..])
    else if |s| >= 4 && s[..4] == "&lt;" then "<" + Unescape(s[4..])
    else if |s| >= 4 && s[..4] == "&gt;" then ">" + Unescape(s[4..])
    else if |s| >= 6 && s[..6] == "&quot;" then "\"" + Unescape(s[6..])
    else if |s| >= 6 && s[..6] == "&#039;" then "'" + Unescape(s[6..])
    else [s[0]] + Unescape(s[1..])
  }

  lemma UnescapeChar(c: char, rest: string)
    ensures Unescape(EscapeChar(c) + rest) == [c] + Unescape(rest)
  {
    var e := EscapeChar(c);
    var s := e + rest;
    assert s[..|e|] == e;
    assert s[|e|..] == rest;
    if !IsSpecial(c) {
      assert s[0] == c;
      assert |s| >= 4 ==> s[..4][0] == c;
      assert |s| >= 5 ==> s[..5][0] == c;
      assert |s| >= 6 ==> s[..6][0] == c;
      assert s[1..] == rest;
    } else if c == '&' {
      assert s[..5] == "&amp;";
    } else if c == '<' {
      assert |s| >= 5 ==> s[..5][1] == 'l';
      assert s[..4] == "&lt;";
    } else if c == '>' {
      assert |s| >= 5 ==> s[..5][1] == 'g';
      assert s[..4] == "&gt;";
    } else if c == '"' {
      assert s[..5][1] == 'q';
      assert s[..4][1] == 'q';
      assert s[..6] == "&quot;";
    } else {
      assert s[..5][1] == '#';
      assert s[..4][1] == '#';
      assert s[..6][1] == '#';
      assert s[..6] == "&#039;";
    }
  }

  /** Escaping loses nothing: the rendered text is the text that was sent. */
  lemma {:induction false} UnescapeEscape(s: string)
    ensures Unescape(EscapeHtml(s)) == s
  {
    if s != [] {
      UnescapeChar(s[0], EscapeHtml(s[1..]));
      UnescapeEscape(s[1..]);
      assert s == [s[0]] + s[1..];
    }
  }
}

=== FILE: news.dfy ===
/** News items: bilingual articles with a publication window, filed under a
    live news category, published when their status is Active. */
module News {
  import opened Base
  import opened Locale
  import opened Tables
  import opened Paging
  import opened Search
  import opened Category
  import opened NewsCategory

  /** A stored news item. `startDateTime` and `endDateTime` are kept as the
      client sent them; the model never interprets them. */
  datatype NewsData = NewsData(
    showInZh: bool, showInEn: bool,
    title: Bilingual<string>, cover: string, description: Bilingual<string>,
    categoryId: Id, content: Bilingual<string>, tags: Bilingual<string>,
    startDateTime: string, endDateTime: string, status: Status)

  /** A news item in one language; `content` is absent from list entries. */
  datatype NewsView = NewsView(
    id: Id, title: string, cover: string, description: string, category: Option<NamedView>,
    tags: string, startDateTime: string, endDateTime: string, status: Status, updatedAt: nat,
    content: Option<string>)

  function TransformCategory(category: Option<Row<NewsCategoryData>>, language: string): (r: Option<NamedView>)
    ensures r.None? <==> category.None?
    ensures r.Some? ==> r.value == ProjectName(category.value.id, category.value.data.names, language)
  {
    if category.None? then None else Some(ProjectName(category.value.id, category.value.data.names, language))
  }

  /** `transformByLanguage(data, language, includeContent)`. The category is
      the row the item points at, soft-deleted or not. */
  function Transform(row: Row<NewsData>, category: Option<Row<NewsCategoryData>>, language: string, includeContent: bool): (r: NewsView)
    ensures r.id == row.id && r.cover == row.data.cover && r.status == row.data.status
    ensures r.startDateTime == row.data.startDateTime && r.endDateTime == row.data.endDateTime
    ensures r.updatedAt == row.updatedAt && r.category == TransformCategory(category, language)
    ensures r.content.Some? <==> includeContent
    ensures IsZh(language) ==>
              && r.title == row.data.title.zh && r.description == row.data.description.zh
              && r.tags == row.data.tags.zh && (includeContent ==> r.content.value == row.data.content.zh)
    ensures !IsZh(language) ==>
              && r.title == row.data.title.en && r.description == row.data.description.en
              && r.tags == row.data.tags.en && (includeContent ==> r.content.value == row.data.content.en)
  {
    var d := row.data;
    NewsView(row.id, In(d.title, language), d.cover, In(d.description, language),
      TransformCategory(category, language), In(d.tags, language), d.startDateTime, d.endDateTime,
      d.status, row.updatedAt, if includeContent then Some(In(d.content, language)) else None)
  }

  /** The body of a create request; `None` is a field left out. */
  datatype CreateRequest = CreateRequest(
    showInZh: Option<bool>, showInEn: Option<bool>,
    title: Bilingual<Option<string>>, cover: Option<string>, description: Bilingual<Option<string>>,
    categoryId: Option<Id>, content: Bilingual<Option<string>>, tags: Bilingual<Option<string>>,
    startDateTime: string, endDateTime: string, status: Option<Status>)

  /** The news item `create` stores, or the first failed check, in the order:
      both flags off, empty cover, no category, category missing or soft-deleted. */
  function NewNews(req: CreateRequest, categories: seq<Row<NewsCategoryData>>): (r: Result<NewsData>)
    ensures var showInZh := OrElse(req.showInZh, true);
            var showInEn := OrElse(req.showInEn, true);
            r.Ok? <==> (showInZh || showInEn) && Truthy(req.cover)
                       && req.categoryId.Some? && req.categoryId.value in LiveIds(categories)
    ensures !(OrElse(req.showInZh, true) || OrElse(req.showInEn, true)) ==> r == Err(BadRequest(NoLanguageShown))
    ensures (OrElse(req.showInZh, true) || OrElse(req.showInEn, true)) ==>
              && (!Truthy(req.cover) ==> r == Err(BadRequest(EmptyCover)))
              && (Truthy(req.cover) && req.categoryId.None? ==> r == Err(BadRequest(EmptyCategoryId)))
              && ((Truthy(req.cover) && req.categoryId.Some? && req.categoryId.value !in LiveIds(categories))
                  ==> r == Err(BadRequest(UnknownCategory)))
    ensures r.Ok? ==>
              && r.value.showInZh == OrElse(req.showInZh, true) && r.value.showInEn == OrElse(req.showInEn, true)
              && r.value.cover == req.cover.value && r.value.categoryId == req.categoryId.value
              && r.value.title == OrEmpty(req.title) && r.value.description == OrEmpty(req.description)
              && r.value.content == OrEmpty(req.content) && r.value.tags == OrEmpty(req.tags)
              && r.value.startDateTime == req.startDateTime && r.value.endDateTime == req.endDateTime
              && r.value.status == OrElse(req.status, Draft)
  {
    var showInZh := OrElse(req.showInZh, true);
    var showInEn := OrElse(req.showInEn, true);
    var shown := ValidateLanguageSettings(showInZh, showInEn);
    if shown.Some? then Err(shown.value)
    else if !Truthy(req.cover) then Err(BadRequest(EmptyCover))
    else if req.categoryId.None? then Err(BadRequest(EmptyCategoryId))
    else if req.categoryId.value !in LiveIds(categories) then Err(BadRequest(UnknownCategory))
    else
      Ok(NewsData(showInZh, showInEn, OrEmpty(req.title), req.cover.value, OrEmpty(req.description),
        req.categoryId.value, OrEmpty(req.content), OrEmpty(req.tags),
        req.startDateTime, req.endDateTime, OrElse(req.status, Draft)))
  }

  /** `create`: the written row is returned with its category included. */
  method Create(t: Table<NewsData>, categories: seq<Row<NewsCategoryData>>, req: CreateRequest) returns (r: Result<(Row<NewsData>, Option<Row<NewsCategoryData>>)>)
    requires t.Valid()
    modifies t
    ensures t.Valid()
    ensures NewNews(req, categories).Err? ==> r == Err(NewNews(req, categories).error) && t.rows == old(t.rows)
    ensures NewNews(req, categories).Ok? ==>
              r.Ok? && t.rows == old(t.rows) + [r.value.0] && r.value.0.data == NewNews(req, categories).value
              && r.value.1.Some? && r.value.1 == Find(categories, r.value.0.data.categoryId)
  {
    var checked := NewNews(req, categories);
    if checked.Err? {
      return Err(checked.error);
    }
    var row := t.Insert(checked.value);
    return Ok((row, Find(categories, row.data.categoryId)));
  }

  /** The six columns of the `OR` block of `findAll` and `findAllByAdmin`
      (src/news/news.service.ts:209-216): title, description and tags, both
      languages; not the content. */
  function SearchColumns(d: NewsData): (r: seq<string>)
    ensures |r| == 6
  {
    [d.title.zh, d.title.en, d.description.zh, d.description.en, d.tags.zh, d.tags.en]
  }

  /** The search never looks at the content: two versions of a news item that
      differ only in content match the same queries. */
  lemma SearchIgnoresContent(d: NewsData, content: Bilingual<string>, query: Option<string>)
    ensures SearchMatch(SearchColumns(d.(content := content)), query) == SearchMatch(SearchColumns(d), query)
  {
  }

  /** The `where` of the public list. */
  predicate PublicMatch(row: Row<NewsData>, language: string, categoryId: Option<Id>, query: Option<string>) {
    && row.data.status == Active
    && ShownOn(row.data.showInZh, row.data.showInEn, language)
    && (categoryId.Some? ==> row.data.categoryId == categoryId.value)
    && SearchMatch(SearchColumns(row.data), query)
  }

  function PublicRows(rows: seq<Row<NewsData>>, language: string, categoryId: Option<Id>, query: Option<string>): (r: seq<Row<NewsData>>)
    ensures forall row :: row in r <==> row in rows && PublicMatch(row, language, categoryId, query)
    ensures Chronological(rows) ==> NewestFirstOrder(r)
  {
    NewestMatching(rows, (row: Row<NewsData>) => PublicMatch(row, language, categoryId, query))
  }

  /** The query parameters of the public list. */
  datatype ListParams = ListParams(
    page: Option<int>, limit: Option<int>, categoryId: Option<Id>, query: Option<string>, language: Option<string>)

  /** `findAll`: one page of published items, projected without content. */
  function FindAll(rows: seq<Row<NewsData>>, categories: seq<Row<NewsCategoryData>>, params: ListParams): (r: Paged<NewsView>)
    ensures var language := Resolve(params.language);
            var pg := Paginate(PublicRows(rows, language, params.categoryId, params.query), params.page, params.limit);
            && r.pagination == pg.pagination
            && |r.data| == |pg.data|
            && forall k :: 0 <= k < |r.data| ==>
                 r.data[k] == Transform(pg.data[k], Find(categories, pg.data[k].data.categoryId), language, false)
    ensures forall k :: 0 <= k < |r.data| ==> r.data[k].content.None?
  {
    var language := Resolve(params.language);
    var pg := Paginate(PublicRows(rows, language, params.categoryId, params.query), params.page, params.limit);
    MapData(pg, (row: Row<NewsData>) => Transform(row, Find(categories, row.data.categoryId), language, false))
  }

  /** Every item on a public page is Active, shown on the site of the resolved
      language, in the requested category and matched by the search. */
  lemma FindAllIsPublic(rows: seq<Row<NewsData>>, categories: seq<Row<NewsCategoryData>>, params: ListParams, k: int)
    requires 0 <= k < |FindAll(rows, categories, params).data|
    ensures var language := Resolve(params.language);
            var view := FindAll(rows, categories, params).data[k];
            exists row :: row in rows && PublicMatch(row, language, params.categoryId, params.query)
                          && view == Transform(row, Find(categories, row.data.categoryId), language, false)
  {
    var language := Resolve(params.language);
    var m := PublicRows(rows, language, params.categoryId, params.query);
    var pg := Paginate(m, params.page, params.limit);
    var row := pg.data[k];
    assert row == m[Skip(PageNumber(params.page), PageLimit(params.limit)) + k];
    assert row in m;
  }

  /** The query parameters of the admin list. */
  datatype AdminParams = AdminParams(
    page: Option<int>, limit: Option<int>, categoryId: Option<Id>, query: Option<string>,
    status: Option<Status>, language: Option<string>)

  predicate AdminMatch(row: Row<NewsData>, params: AdminParams) {
    && AdminShown(row.data.showInZh, row.data.showInEn, params.language)
    && (params.status.Some? ==> row.data.status == params.status.value)
    && (params.categoryId.Some? ==> row.data.categoryId == params.categoryId.value)
    && SearchMatch(SearchColumns(row.data), params.query)
  }

  function AdminRows(rows: seq<Row<NewsData>>, params: AdminParams): (r: seq<Row<NewsData>>)
    ensures forall row :: row in r <==> row in rows && AdminMatch(row, params)
    ensures Chronological(rows) ==> NewestFirstOrder(r)
  {
    NewestMatching(rows, (row: Row<NewsData>) => AdminMatch(row, params))
  }

  /** `findAllByAdmin`: raw rows, newest first, paged, each with its
      category row as `include: { category: true }` joins it (a soft-deleted
      category included). */
  function FindAllByAdmin(rows: seq<Row<NewsData>>, categories: seq<Row<NewsCategoryData>>, params: AdminParams): (r: Paged<(Row<NewsData>, Option<Row<NewsCategoryData>>)>)
    ensures var pg := Paginate(AdminRows(rows, params), params.page, params.limit);
            && r.pagination == pg.pagination
            && |r.data| == |pg.data|
            && forall k :: 0 <= k < |r.data| ==>
                 r.data[k] == (pg.data[k], Find(categories, pg.data[k].data.categoryId))
                 && pg.data[k] in rows && AdminMatch(pg.data[k], params)
  {
    var m := AdminRows(rows, params);
    var pg := Paginate(m, params.page, params.limit);
    assert forall k :: 0 <= k < |pg.data| ==> pg.data[k] in m;
    MapData(pg, (row: Row<NewsData>) => (row, Find(categories, row.data.categoryId)))
  }


  /** The admin list with the public filters given is a superset of the
      public list: every published match is also an admin match. */
  lemma PublicIsAdminWithFilters(row: Row<NewsData>, language: Option<string>, categoryId: Option<Id>, query: Option<string>)
    requires Truthy(language)
    ensures PublicMatch(row, Resolve(language), categoryId, query) <==>
            AdminMatch(row, AdminParams(None, None, categoryId, query, Some(Active), language))
  {
  }

  /** `findOne`: any item by id, whatever its status and flags, with content. */
  function FindOne(rows: seq<Row<NewsData>>, categories: seq<Row<NewsCategoryData>>, id: Id, language: Option<string>): (r: Result<NewsView>)
    ensures r.Err? <==> id !in Ids(rows)
    ensures r.Err? ==> r.error == NotFound(Entity.News)
    ensures r.Ok? ==> r.value.id == id && r.value.content.Some?
                      && r.value == Transform(Find(rows, id).value, Find(categories, Find(rows, id).value.data.categoryId), OrEnglish(language), true)
  {
    match Find(rows, id)
    case None => Err(NotFound(Entity.News))
    case Some(row) => Ok(Transform(row, Find(categories, row.data.categoryId), OrEnglish(language), true))
  }

  /** `findOneByAdmin`: the stored row with its category, untranslated. */
  function FindOneByAdmin(rows: seq<Row<NewsData>>, categories: seq<Row<NewsCategoryData>>, id: Id): (r: Result<(Row<NewsData>, Option<Row<NewsCategoryData>>)>)
    ensures r.Err? <==> id !in Ids(rows)
    ensures r.Err? ==> r.error == NotFound(Entity.News)
    ensures r.Ok? ==> r.value.0 in rows && r.value.0.id == id
                      && r.value.1 == Find(categories, r.value.0.data.categoryId)
  {
    match Find(rows, id)
    case None => Err(NotFound(Entity.News))
    case Some(row) => Ok((row, Find(categories, row.data.categoryId)))
  }
  /** With distinct ids, every entry of the admin list is what the admin
      lookup returns for its id: the same row joined with the same category. */
  lemma AdminListAgreesWithFindOne(rows: seq<Row<NewsData>>, categories: seq<Row<NewsCategoryData>>, params: AdminParams, k: int)
    requires IdsDistinct(rows)
    requires 0 <= k < |FindAllByAdmin(rows, categories, params).data|
    ensures var e := FindAllByAdmin(rows, categories, params).data[k];
            FindOneByAdmin(rows, categories, e.0.id) == Ok(e)
  {
    var e := FindAllByAdmin(rows, categories, params).data[k];
    var m :| 0 <= m < |rows| && rows[m] == e.0;
    FindUnique(rows, m);
  }


  /** The list entry and the detail of an item agree on everything but the content. */
  lemma ListEntryIsDetailWithoutContent(row: Row<NewsData>, category: Option<Row<NewsCategoryData>>, language: string)
    ensures Transform(row, category, language, false) == Transform(row, category, language, true).(content := None)
  {
  }

  /** The body of an update request; `None` is a field left out. */
  datatype UpdateRequest = UpdateRequest(
    showInZh: Option<bool>, showInEn: Option<bool>,
    title: Bilingual<Option<string>>, cover: Option<string>, description: Bilingual<Option<string>>,
    categoryId: Option<Id>, content: Bilingual<Option<string>>, tags: Bilingual<Option<string>>,
    startDateTime: Option<string>, endDateTime: Option<string>, status: Option<Status>)

  /** The checks of `update` after the lookup: the merged flags, then a new
      category must exist and not be soft-deleted. */
  function CheckUpdate(d: NewsData, req: UpdateRequest, categories: seq<Row<NewsCategoryData>>): (r: Option<Error>)
    ensures r.None? <==>
              (OrElse(req.showInZh, d.showInZh) || OrElse(req.showInEn, d.showInEn))
              && (req.categoryId.Some? ==> req.categoryId.value in LiveIds(categories))
    ensures !(OrElse(req.showInZh, d.showInZh) || OrElse(req.showInEn, d.showInEn)) ==>
              r == Some(BadRequest(NoLanguageShown))
    ensures r.Some? ==> r.value.BadRequest?
    ensures (OrElse(req.showInZh, d.showInZh) || OrElse(req.showInEn, d.showInEn))
            && req.categoryId.Some? && req.categoryId.value !in LiveIds(categories) ==>
              r == Some(BadRequest(UnknownCategory))
  {
    var shown := ValidateLanguageSettings(OrElse(req.showInZh, d.showInZh), OrElse(req.showInEn, d.showInEn));
    if shown.Some? then shown
    else if req.categoryId.Some? && req.categoryId.value !in LiveIds(categories) then Some(BadRequest(UnknownCategory))
    else None
  }

  /** The stored item after `update` writes the fields the request names. */
  function Patched(d: NewsData, req: UpdateRequest): (r: NewsData)
    ensures r.showInZh == OrElse(req.showInZh, d.showInZh) && r.showInEn == OrElse(req.showInEn, d.showInEn)
    ensures r.cover == OrElse(req.cover, d.cover) && r.categoryId == OrElse(req.categoryId, d.categoryId)
    ensures r.status == OrElse(req.status, d.status)
    ensures r.startDateTime == OrElse(req.startDateTime, d.startDateTime)
    ensures r.endDateTime == OrElse(req.endDateTime, d.endDateTime)
    ensures r.title == Overwrite(d.title, req.title) && r.description == Overwrite(d.description, req.description)
    ensures r.content == Overwrite(d.content, req.content) && r.tags == Overwrite(d.tags, req.tags)
  {
    NewsData(OrElse(req.showInZh, d.showInZh), OrElse(req.showInEn, d.showInEn),
      Overwrite(d.title, req.title), OrElse(req.cover, d.cover), Overwrite(d.description, req.description),
      OrElse(req.categoryId, d.categoryId), Overwrite(d.content, req.content), Overwrite(d.tags, req.tags),
      OrElse(req.startDateTime, d.startDateTime), OrElse(req.endDateTime, d.endDateTime),
      OrElse(req.status, d.status))
  }

  /** A request naming no field changes nothing; repeating an update changes nothing more. */
  lemma PatchedLaws(d: NewsData, req: UpdateRequest)
    ensures Patched(d, UpdateRequest(None, None, Absent, None, Absent, None, Absent, Absent, None, None, None)) == d
    ensures Patched(Patched(d, req), req) == Patched(d, req)
  {
  }

  /** `update`: the written row is returned with its category included. */
  method Update(t: Table<NewsData>, categories: seq<Row<NewsCategoryData>>, id: Id, req: UpdateRequest) returns (r: Result<(Row<NewsData>, Option<Row<NewsCategoryData>>)>)
    requires t.Valid()
    modifies t
    ensures t.Valid()
    ensures id !in Ids(old(t.rows)) ==> r == Err(NotFound(Entity.News)) && t.rows == old(t.rows)
    ensures id in Ids(old(t.rows)) ==>
              var stored := Find(old(t.rows), id).value;
              if CheckUpdate(stored.data, req, categories).Some?
              then r == Err(CheckUpdate(stored.data, req, categories).value) && t.rows == old(t.rows)
              else r == Ok((stored.(data := Patched(stored.data, req), updatedAt := old(t.clock)),
                            Find(categories, Patched(stored.data, req).categoryId)))
                   && t.rows == WithData(old(t.rows), id, Patched(stored.data, req), old(t.clock))
  {
    var found := Find(t.rows, id);
    if found.None? {
      return Err(NotFound(Entity.News));
    }
    var refused := CheckUpdate(found.value.data, req, categories);
    if refused.Some? {
      return Err(refused.value);
    }
    var patch := (d: NewsData) => Patched(d, req);
    var stamp := t.clock;
    ModifiedIsWithData(t.rows, id, patch, stamp);
    t.Update(id, patch);
    var written := found.value.(data := Patched(found.value.data, req), updatedAt := stamp);
    r := Ok((written, Find(categories, written.data.categoryId)));
  }

  /** `remove` */
  method Remove(t: Table<NewsData>, id: Id) returns (err: Option<Error>)
    requires t.Valid()
    modifies t
    ensures t.Valid()
    ensures id !in Ids(old(t.rows)) ==> err == Some(NotFound(Entity.News)) && t.rows == old(t.rows)
    ensures id in Ids(old(t.rows)) ==> err.None? && t.rows == Without(old(t.rows), id)
  {
    if Find(t.rows, id).None? {
      return Some(NotFound(Entity.News));
    }
    t.Delete(id);
    err := None;
  }

  /** The category a news item files under, as a column key. */
  function CategoryOf(d: NewsData): Id {
    d.categoryId
  }

  /** A news category that any item, of any status, refers to cannot be
      soft-deleted. */
  lemma {:induction false} ReferencedCategoryIsKept(rows: seq<Row<NewsData>>, k: int)
    requires 0 <= k < |rows|
    ensures InUse(Column(rows, CategoryOf), rows[k].data.categoryId).Some?
  {
    assert Column(rows, CategoryOf)[k] == rows[k].data.categoryId;
  }
}

=== FILE: news_category.dfy ===
/** News categories: like case categories, but deletion is soft. A removed
    category keeps its row with `deletedAt` set and is from then on treated as
    nonexistent by every read and write except `forceRemove`. */
module NewsCategory {
  import opened Base
  import opened Locale
  import opened Tables
  import opened Category

  /** A stored news category; `deletedAt` is the instant of the soft delete. */
  datatype NewsCategoryData = NewsCategoryData(names: Bilingual<string>, deletedAt: Option<nat>)

  predicate IsLive(row: Row<NewsCategoryData>) {
    row.data.deletedAt.None?
  }

  /** The ids of the categories not soft-deleted. */
  function LiveIds(rows: seq<Row<NewsCategoryData>>): set<Id> {
    set k | 0 <= k < |rows| && IsLive(rows[k]) :: rows[k].id
  }

  /** `_findOneRaw`: a missing row and a soft-deleted row are both "not found". */
  function FindLive(rows: seq<Row<NewsCategoryData>>, id: Id): (r: Option<Row<NewsCategoryData>>)
    requires IdsDistinct(rows)
    ensures r.Some? ==> r.value in rows && r.value.id == id && IsLive(r.value)
    ensures r.None? <==> id !in LiveIds(rows)
  {
    match Find(rows, id)
    case None => None
    case Some(row) =>
      if IsLive(row) then Some(row)
      else
        assert id !in LiveIds(rows) by {
          forall k | 0 <= k < |rows| && rows[k].id == id ensures !IsLive(rows[k]) {
            FindUnique(rows, k);
          }
        }
        None
  }

  /** `create`: both names must be non-empty; the new category is live. */
  method Create(t: Table<NewsCategoryData>, req: Bilingual<Option<string>>) returns (r: Result<Row<NewsCategoryData>>)
    requires t.Valid()
    modifies t
    ensures t.Valid()
    ensures CheckNames(req).Err? ==> r == Err(CheckNames(req).error) && t.rows == old(t.rows)
    ensures CheckNames(req).Ok? ==>
              r.Ok? && t.rows == old(t.rows) + [r.value]
              && r.value.data == NewsCategoryData(CheckNames(req).value, None)
  {
    var names := CheckNames(req);
    if names.Err? {
      return Err(names.error);
    }
    var row := t.Insert(NewsCategoryData(names.value, None));
    return Ok(row);
  }

  /** `findAllByAdmin`: the live categories, raw, newest first. */
  function ListByAdmin(rows: seq<Row<NewsCategoryData>>): (r: seq<Row<NewsCategoryData>>)
    ensures forall row :: row in r <==> row in rows && IsLive(row)
    ensures Chronological(rows) ==> NewestFirstOrder(r)
  {
    NewestMatching(rows, IsLive)
  }

  /** `findAll`: the live categories projected to the language (English when omitted). */
  function FindAll(rows: seq<Row<NewsCategoryData>>, language: Option<string>): (r: seq<NamedView>)
    ensures |r| == |ListByAdmin(rows)|
    ensures forall k :: 0 <= k < |r| ==>
              r[k] == ProjectName(ListByAdmin(rows)[k].id, ListByAdmin(rows)[k].data.names, OrEnglish(language))
  {
    var l := ListByAdmin(rows);
    seq(|l|, k requires 0 <= k < |l| => ProjectName(l[k].id, l[k].data.names, OrEnglish(language)))
  }

  /** No soft-deleted category is listed. */
  lemma FindAllHidesDeleted(rows: seq<Row<NewsCategoryData>>, language: Option<string>, k: int)
    requires IdsDistinct(rows)
    requires 0 <= k < |rows| && !IsLive(rows[k])
    ensures forall j :: 0 <= j < |FindAll(rows, language)| ==> FindAll(rows, language)[j].id != rows[k].id
  {
    var l := ListByAdmin(rows);
    forall j | 0 <= j < |l| ensures l[j].id != rows[k].id {
      assert l[j] in l;
      var m :| 0 <= m < |rows| && rows[m] == l[j];
      assert IsLive(rows[m]);
    }
  }

  /** `findOne` */
  function FindOne(rows: seq<Row<NewsCategoryData>>, id: Id, language: Option<string>): (r: Result<NamedView>)
    requires IdsDistinct(rows)
    ensures r.Err? <==> id !in LiveIds(rows)
    ensures r.Err? ==> r.error == NotFound(Entity.NewsCategory)
    ensures r.Ok? ==> r.value == ProjectName(id, FindLive(rows, id).value.data.names, OrEnglish(language))
  {
    match FindLive(rows, id)
    case None => Err(NotFound(Entity.NewsCategory))
    case Some(row) => Ok(ProjectName(row.id, row.data.names, OrEnglish(language)))
  }

  /** `findOneByAdmin` */
  function FindOneByAdmin(rows: seq<Row<NewsCategoryData>>, id: Id): (r: Result<Row<NewsCategoryData>>)
    requires IdsDistinct(rows)
    ensures r.Err? <==> id !in LiveIds(rows)
    ensures r.Err? ==> r.error == NotFound(Entity.NewsCategory)
    ensures r.Ok? ==> r.value in rows && r.value.id == id && IsLive(r.value)
  {
    match FindLive(rows, id)
    case None => Err(NotFound(Entity.NewsCategory))
    case Some(row) => Ok(row)
  }

  function Renamed(d: NewsCategoryData, req: Bilingual<Option<string>>): NewsCategoryData {
    d.(names := Overwrite(d.names, req))
  }

  /** `update`: writes the names the request carries on a live category. */
  method Update(t: Table<NewsCategoryData>, id: Id, req: Bilingual<Option<string>>) returns (r: Result<Row<NewsCategoryData>>)
    requires t.Valid()
    modifies t
    ensures t.Valid()
    ensures id !in LiveIds(old(t.rows)) ==> r == Err(NotFound(Entity.NewsCategory)) && t.rows == old(t.rows)
    ensures id in LiveIds(old(t.rows)) ==>
              var stored := FindLive(old(t.rows), id).value;
              && r == Ok(stored.(data := Renamed(stored.data, req), updatedAt := old(t.clock)))
              && t.rows == WithData(old(t.rows), id, Renamed(stored.data, req), old(t.clock))
  {
    var found := FindLive(t.rows, id);
    if found.None? {
      return Err(NotFound(Entity.NewsCategory));
    }
    var patch := (d: NewsCategoryData) => Renamed(d, req);
    var stamp := t.clock;
    ModifiedIsWithData(t.rows, id, patch, stamp);
    t.Update(id, patch);
    r := Ok(found.value.(data := Renamed(found.value.data, req), updatedAt := stamp));
  }

  function SoftDeleted(d: NewsCategoryData, now: nat): NewsCategoryData {
    d.(deletedAt := Some(now))
  }

  /** Marking a row deleted takes exactly its id out of the live ids; every
      row, and so every id, stays in the table. */
  lemma {:induction false} SoftDeleteHidesOnlyIt(rows: seq<Row<NewsCategoryData>>, id: Id, now: nat, stamp: nat)
    requires IdsDistinct(rows) && id in Ids(rows)
    ensures var after := WithData(rows, id, SoftDeleted(Find(rows, id).value.data, now), stamp);
            && Ids(after) == Ids(rows)
            && LiveIds(after) == LiveIds(rows) - {id}
  {
    var after := WithData(rows, id, SoftDeleted(Find(rows, id).value.data, now), stamp);
    forall x ensures x in LiveIds(after) <==> x in LiveIds(rows) && x != id {
      if x in LiveIds(after) {
        var k :| 0 <= k < |after| && IsLive(after[k]) && after[k].id == x;
        assert rows[k].id == x && IsLive(rows[k]);
      }
      if x in LiveIds(rows) && x != id {
        var k :| 0 <= k < |rows| && IsLive(rows[k]) && rows[k].id == x;
        assert after[k].id == x && IsLive(after[k]);
      }
    }
    forall x | x in Ids(rows) ensures x in Ids(after) {
      var k :| 0 <= k < |rows| && rows[k].id == x;
      assert after[k].id == x;
    }
  }

  /** `remove`: a live category no news item refers to is soft-deleted at
      `now`; `refs` is the `categoryId` column of the news table, counted
      whatever each item's status. */
  method Remove(t: Table<NewsCategoryData>, refs: seq<Id>, id: Id, now: nat) returns (err: Option<Error>)
    requires t.Valid()
    modifies t
    ensures t.Valid()
    ensures id !in LiveIds(old(t.rows)) ==> err == Some(NotFound(Entity.NewsCategory)) && t.rows == old(t.rows)
    ensures id in LiveIds(old(t.rows)) && InUse(refs, id).Some? ==> err == InUse(refs, id) && t.rows == old(t.rows)
    ensures id in LiveIds(old(t.rows)) && InUse(refs, id).None? ==>
              && err.None?
              && t.rows == WithData(old(t.rows), id, SoftDeleted(FindLive(old(t.rows), id).value.data, now), old(t.clock))
              && Ids(t.rows) == Ids(old(t.rows))
              && LiveIds(t.rows) == LiveIds(old(t.rows)) - {id}
  {
    var found := FindLive(t.rows, id);
    if found.None? {
      return Some(NotFound(Entity.NewsCategory));
    }
    var inUse := InUse(refs, id);
    if inUse.Some? {
      return inUse;
    }
    var patch := (d: NewsCategoryData) => SoftDeleted(d, now);
    var stamp := t.clock;
    ModifiedIsWithData(t.rows, id, patch, stamp);
    SoftDeleteHidesOnlyIt(t.rows, id, now, stamp);
    t.Update(id, patch);
    err := None;
  }

  /** `forceRemove`: deletes any existing row, live or soft-deleted, with no
      reference check. */
  method ForceRemove(t: Table<NewsCategoryData>, id: Id) returns (err: Option<Error>)
    requires t.Valid()
    modifies t
    ensures t.Valid()
    ensures id !in Ids(old(t.rows)) ==> err == Some(NotFound(Entity.NewsCategory)) && t.rows == old(t.rows)
    ensures id in Ids(old(t.rows)) ==> err.None? && t.rows == Without(old(t.rows), id)
  {
    if Find(t.rows, id).None? {
      return Some(NotFound(Entity.NewsCategory));
    }
    t.Delete(id);
    err := None;
  }
}

=== FILE: paging.dfy ===
/** Offset pagination as the list endpoints compute it: page and limit
    defaults, `skip = (page - 1) * limit`, a separate count of every matching
    row, and `has_next = skip + returned < total`. */
module Paging {
  import opened Base

  const DefaultPage := 1
  const DefaultLimit := 25

  function Min(a: int, b: int): int { if a <= b then a else b }

  /** `params.page && params.page > 0 ? params.page : 1` */
  function PageNumber(page: Option<int>): (r: int)
    ensures r >= 1
    ensures page.Some? && page.value > 0 ==> r == page.value
    ensures !(page.Some? && page.value > 0) ==> r == DefaultPage
  {
    if page.Some? && page.value > 0 then page.value else DefaultPage
  }

  /** `params.limit && params.limit > 0 ? params.limit : 25` */
  function PageLimit(limit: Option<int>): (r: int)
    ensures r >= 1
    ensures limit.Some? && limit.value > 0 ==> r == limit.value
    ensures !(limit.Some? && limit.value > 0) ==> r == DefaultLimit
  {
    if limit.Some? && limit.value > 0 then limit.value else DefaultLimit
  }

  /** `skip = (page - 1) * limit`, written as repeated addition so that the
      proofs about whole pages stay linear; `SkipIsProduct` ties it to the product. */
  function Skip(page: int, limit: int): nat
    requires page >= 1 && limit >= 1
  {
    if page == 1 then 0 else Skip(page - 1, limit) + limit
  }

  lemma {:induction false} SkipIsProduct(page: int, limit: int)
    requires page >= 1 && limit >= 1
    ensures Skip(page, limit) == (page - 1) * limit
  {
    if page > 1 {
      SkipIsProduct(page - 1, limit);
    }
  }

  /** `findMany({ skip, take })` over rows already filtered and ordered. */
  function Window<T>(s: seq<T>, skip: nat, take: nat): (r: seq<T>)
    ensures |r| == if skip >= |s| then 0 else Min(take, |s| - skip)
    ensures forall k :: 0 <= k < |r| ==> r[k] == s[skip + k]
    ensures r == s[Min(skip, |s|)..Min(skip + take, |s|)]
  {
    if skip >= |s| then [] else s[skip..skip + Min(take, |s| - skip)]
  }

  datatype PageInfo = PageInfo(page: int, limit: int, hasNext: bool, total: nat)

  datatype Paged<T> = Paged(data: seq<T>, pagination: PageInfo)

  /** One page of `matching` (the rows satisfying the query's `where`, in the
      query's order), with the pagination block the endpoints return. */
  function Paginate<T>(matching: seq<T>, page: Option<int>, limit: Option<int>): (r: Paged<T>)
    ensures r.pagination.page == PageNumber(page)
    ensures r.pagination.limit == PageLimit(limit)
    ensures r.pagination.total == |matching|
    ensures |r.data| <= PageLimit(limit)
    ensures r.data == Window(matching, Skip(PageNumber(page), PageLimit(limit)), PageLimit(limit))
    ensures r.pagination.hasNext <==>
              Skip(PageNumber(page), PageLimit(limit)) + PageLimit(limit) < |matching|
  {
    var p := PageNumber(page);
    var l := PageLimit(limit);
    var skip := Skip(p, l);
    var data := Window(matching, skip, l);
    Paged(data, PageInfo(p, l, skip + |data| < |matching|, |matching|))
  }

  /** Apply a row projection to the page's data, keeping the pagination block. */
  function MapData<T, U>(pg: Paged<T>, f: T -> U): (r: Paged<U>)
    ensures r.pagination == pg.pagination
    ensures |r.data| == |pg.data|
    ensures forall k :: 0 <= k < |r.data| ==> r.data[k] == f(pg.data[k])
  {
    Paged(seq(|pg.data|, k requires 0 <= k < |pg.data| => f(pg.data[k])), pg.pagination)
  }

  /** The number of pages needed for `total` rows, ceil(total / limit). */
  function PageCount(total: nat, limit: int): nat
    requires limit >= 1
  {
    (total + limit - 1) / limit
  }

  lemma PageCountBounds(total: nat, limit: int)
    requires limit >= 1 && total > 0
    ensures PageCount(total, limit) >= 1
    ensures (PageCount(total, limit) - 1) * limit < total <= PageCount(total, limit) * limit
  {
    var n := PageCount(total, limit);
    var rem := (total + limit - 1) % limit;
    assert total + limit - 1 == n * limit + rem && 0 <= rem < limit;
    assert (n - 1) * limit == n * limit - limit;
  }

  /** With `total` rows and limit `l`, the last page is number ceil(total / l):
      every earlier page is full and says there is a next page; the last page
      holds the remainder (l when l divides total) and says there is none. */
  lemma LastPage<T>(matching: seq<T>, l: int, p: int)
    requires l >= 1 && |matching| > 0
    requires 1 <= p <= PageCount(|matching|, l)
    ensures var r := Paginate(matching, Some(p), Some(l));
            var n := PageCount(|matching|, l);
            && (p < n ==> r.pagination.hasNext && |r.data| == l)
            && (p == n ==> !r.pagination.hasNext && |r.data| == |matching| - (n - 1) * l)
            && (p == n ==> 1 <= |r.data| <= l)
  {
    var n := PageCount(|matching|, l);
    PageCountBounds(|matching|, l);
    SkipIsProduct(p, l);
    SkipIsProduct(n, l);
    SkipIsProduct(p + 1, l);
    if p < n {
      MulMonotone(p, n - 1, l);
    }
  }

  lemma MulMonotone(a: int, b: int, c: int)
    requires a <= b && c >= 0
    ensures a * c <= b * c
  {
    assert b * c - a * c == (b - a) * c;
  }

  /** The data of pages 1..n concatenated. */
  function FirstPages<T>(matching: seq<T>, l: int, n: nat): seq<T>
    requires l >= 1
  {
    if n == 0 then [] else FirstPages(matching, l, n - 1) + Paginate(matching, Some(n), Some(l)).data
  }

  /** Walking pages 1, 2, ..., n returns the first n * l matching rows, each
      once and in order (`Skip(n + 1, l)` is n * l). */
  lemma {:induction false} FirstPagesArePrefix<T>(matching: seq<T>, l: int, n: nat)
    requires l >= 1
    ensures FirstPages(matching, l, n) == matching[..Min(Skip(n + 1, l), |matching|)]
  {
    if n > 0 {
      FirstPagesArePrefix(matching, l, n - 1);
      PageIsSlice(matching, l, n);
      SliceJoin(matching, Min(Skip(n, l), |matching|), Min(Skip(n + 1, l), |matching|));
    }
  }

  /** Page n holds the rows from `Skip(n, l)` up to `Skip(n + 1, l)`. */
  lemma PageIsSlice<T>(matching: seq<T>, l: int, n: int)
    requires l >= 1 && n >= 1
    ensures Skip(n, l) <= Skip(n + 1, l)
    ensures Paginate(matching, Some(n), Some(l)).data ==
              matching[Min(Skip(n, l), |matching|)..Min(Skip(n + 1, l), |matching|)]
  {
    assert Skip(n + 1, l) == Skip(n, l) + l;
    assert PageNumber(Some(n)) == n && PageLimit(Some(l)) == l;
  }

  lemma SliceJoin<T>(s: seq<T>, lo: int, hi: int)
    requires 0 <= lo <= hi <= |s|
    ensures s[..lo] + s[lo..hi] == s[..hi]
  {
  }

  /** So the pages up to ceil(total / l) return every matching row exactly once. */
  lemma AllPagesCoverEverything<T>(matching: seq<T>, l: int)
    requires l >= 1
    ensures FirstPages(matching, l, PageCount(|matching|, l)) == matching
  {
    var n := PageCount(|matching|, l);
    FirstPagesArePrefix(matching, l, n);
    SkipIsProduct(n + 1, l);
    if |matching| > 0 {
      PageCountBounds(|matching|, l);
    }
    assert matching[..Min(Skip(n + 1, l), |matching|)] == matching;
  }
}

=== FILE: privacy_policy.dfy ===
/** The privacy policy: one text per language, kept in the earliest row of
    its table. */
module PrivacyPolicy {
  import opened Base
  import opened Locale
  import opened Tables
  import opened Singleton

  /** `findFirst`: the earliest row projected (English when the language is omitted). */
  function FindFirst(rows: seq<Row<Content>>, language: Option<string>): (r: Result<ContentView>)
    ensures r.Err? <==> rows == []
    ensures r.Err? ==> r.error == NotFound(Entity.PrivacyPolicy)
    ensures r.Ok? ==> r.value == TransformContent(rows[0], OrEnglish(language))
  {
    match Singleton.FindFirst(rows, Entity.PrivacyPolicy)
    case Err(e) => Err(e)
    case Ok(row) => Ok(TransformContent(row, OrEnglish(language)))
  }

  /** `findFirstByAdmin`: the same row, raw; the public read is its projection. */
  function FindFirstByAdmin(rows: seq<Row<Content>>): (r: Result<Row<Content>>)
    ensures r.Err? <==> rows == []
    ensures r.Err? ==> r.error == NotFound(Entity.PrivacyPolicy)
    ensures r.Ok? ==> r.value == rows[0]
    ensures forall language :: r.Ok? ==> FindFirst(rows, language) == Ok(TransformContent(r.value, OrEnglish(language)))
  {
    Singleton.FindFirst(rows, Entity.PrivacyPolicy)
  }

  /** `update`: writes the content halves the request carries into the
      earliest row only. */
  method Update(t: Table<Content>, req: Bilingual<Option<string>>) returns (r: Result<Row<Content>>)
    requires t.Valid()
    modifies t
    ensures t.Valid()
    ensures old(t.rows) == [] ==> r == Err(NotFound(Entity.PrivacyPolicy)) && t.rows == old(t.rows)
    ensures old(t.rows) != [] ==>
              var first := old(t.rows)[0];
              && r == Ok(first.(data := Overwrite(first.data, req), updatedAt := old(t.clock)))
              && t.rows == [r.value] + old(t.rows)[1..]
  {
    r := UpdateFirst(t, Entity.PrivacyPolicy, (d: Content) => Overwrite(d, req));
  }
}

=== FILE: response.dfy ===
/** The response envelope every endpoint's result is wrapped in, and the walk
    that rewrites `createdAt`/`updatedAt` timestamps into display strings on
    the way out. The date library's validity test and formatter are
    parameters: the model does not interpret them. */
module Response {
  import opened Base

  /** A JavaScript value as the handlers return it. `Date` is a `Date`
      object (an opaque instant); an object's fields keep their order. */
  datatype Value =
    | Null
    | Undefined
    | Bool(b: bool)
    | Num(n: int)
    | Str(s: string)
    | Date(instant: int)
    | Arr(items: seq<Value>)
    | Obj(fields: seq<Field>)

  datatype Field = Field(key: string, value: Value)

  /** `typeof value === 'object'` for a non-null value. */
  predicate IsObject(v: Value) {
    v.Date? || v.Arr? || v.Obj?
  }

  predicate IsTimestampKey(key: string) {
    key == "createdAt" || key == "updatedAt"
  }

  /** The timestamp test: a `Date`, or a string the date library accepts. */
  predicate Formattable(v: Value, isValid: string -> bool) {
    v.Date? || (v.Str? && isValid(v.s))
  }

  /** One field of the shallow copy after the loop body has looked at it. */
  function FormatField(f: Field, isValid: string -> bool, format: Value -> string): (r: Field)
    decreases f, 0
    ensures r.key == f.key
  {
    if IsTimestampKey(f.key) && !f.value.Null? && !f.value.Undefined? then
      if Formattable(f.value, isValid) then Field(f.key, Str(format(f.value))) else f
    else if IsObject(f.value) then Field(f.key, FormatDates(f.value, isValid, format))
    else f
  }

  /** `formatDates` */
  function FormatDates(v: Value, isValid: string -> bool, format: Value -> string): (r: Value)
    decreases v, 1
    ensures v.Null? || v.Undefined? ==> r == v
    ensures !IsObject(v) || v.Date? ==> r == v
    ensures v.Arr? ==> r.Arr? && |r.items| == |v.items|
    ensures v.Obj? ==> r.Obj? && |r.fields| == |v.fields|
  {
    match v
    case Arr(items) =>
      Arr(seq(|items|, i requires 0 <= i < |items| => FormatDates(items[i], isValid, format)))
    case Obj(fields) =>
      Obj(seq(|fields|, i requires 0 <= i < |fields| => FormatField(fields[i], isValid, format)))
    case _ => v
  }

  /** Arrays are mapped element by element, in order. */
  lemma ArraysMapElementwise(items: seq<Value>, isValid: string -> bool, format: Value -> string)
    ensures forall i :: 0 <= i < |items| ==>
              FormatDates(Arr(items), isValid, format).items[i] == FormatDates(items[i], isValid, format)
  {
  }

  /** In an object, a timestamp field holding a `Date` or a valid date string
      becomes the formatted string; a timestamp field holding anything else
      (null, a number, an unparsable string, a non-`Date` object) is kept and
      not walked into; other fields holding objects are walked, and the
      rest are kept. Keys keep their order. */
  lemma ObjectFields(fields: seq<Field>, isValid: string -> bool, format: Value -> string, i: int)
    requires 0 <= i < |fields|
    ensures var f := fields[i];
            var g := FormatDates(Obj(fields), isValid, format).fields[i];
            && g.key == f.key
            && (IsTimestampKey(f.key) && Formattable(f.value, isValid) ==> g.value == Str(format(f.value)))
            && (IsTimestampKey(f.key) && !Formattable(f.value, isValid) ==> g.value == f.value)
            && (!IsTimestampKey(f.key) && IsObject(f.value) ==> g.value == FormatDates(f.value, isValid, format))
            && (!IsTimestampKey(f.key) && !IsObject(f.value) ==> g.value == f.value)
  {
  }

  /** The value with every timestamp field blanked, walked the same way as
      `FormatDates`: what the rewrite must leave alone. */
  function Skeleton(v: Value): Value
    decreases v, 1
  {
    match v
    case Arr(items) => Arr(seq(|items|, i requires 0 <= i < |items| => Skeleton(items[i])))
    case Obj(fields) => Obj(seq(|fields|, i requires 0 <= i < |fields| => SkeletonField(fields[i])))
    case _ => v
  }

  function SkeletonField(f: Field): Field
    decreases f, 0
  {
    if IsTimestampKey(f.key) then Field(f.key, Value.Null)
    else if IsObject(f.value) then Field(f.key, Skeleton(f.value))
    else f
  }

  /** Nothing but timestamp fields changes: the keys, the array lengths and
      every other value come out as they went in. */
  lemma {:induction false} OnlyTimestampsChange(v: Value, isValid: string -> bool, format: Value -> string)
    decreases v
    ensures Skeleton(FormatDates(v, isValid, format)) == Skeleton(v)
  {
    match v
    case Arr(items) =>
      var r := FormatDates(v, isValid, format);
      forall i | 0 <= i < |items| ensures Skeleton(r.items[i]) == Skeleton(items[i]) {
        OnlyTimestampsChange(items[i], isValid, format);
      }
      assert Skeleton(r).items == Skeleton(v).items;
    case Obj(fields) =>
      var r := FormatDates(v, isValid, format);
      forall i | 0 <= i < |fields| ensures SkeletonField(r.fields[i]) == SkeletonField(fields[i]) {
        var f := fields[i];
        assert r.fields[i] == FormatField(f, isValid, format);
        if !IsTimestampKey(f.key) && IsObject(f.value) {
          OnlyTimestampsChange(f.value, isValid, format);
        }
      }
      assert Skeleton(r).fields == Skeleton(v).fields;
    case _ =>
  }

  /** After the walk no timestamp field it reaches still holds a `Date` object. */
  predicate NoDateTimestamps(v: Value)
    decreases v, 1
  {
    match v
    case Arr(items) => forall i :: 0 <= i < |items| ==> NoDateTimestamps(items[i])
    case Obj(fields) => forall i :: 0 <= i < |fields| ==> NoDateTimestampField(fields[i])
    case _ => true
  }

  predicate NoDateTimestampField(f: Field)
    decreases f, 0
  {
    if IsTimestampKey(f.key) then !f.value.Date?
    else IsObject(f.value) ==> NoDateTimestamps(f.value)
  }

  lemma {:induction false} DatesAreFormatted(v: Value, isValid: string -> bool, format: Value -> string)
    decreases v
    ensures NoDateTimestamps(FormatDates(v, isValid, format))
  {
    match v
    case Arr(items) =>
      forall i | 0 <= i < |items| ensures NoDateTimestamps(FormatDates(v, isValid, format).items[i]) {
        DatesAreFormatted(items[i], isValid, format);
      }
    case Obj(fields) =>
      forall i | 0 <= i < |fields| ensures NoDateTimestampField(FormatDates(v, isValid, format).fields[i]) {
        var f := fields[i];
        if !IsTimestampKey(f.key) && IsObject(f.value) {
          DatesAreFormatted(f.value, isValid, format);
        }
      }
    case _ =>
  }

  /** `{ success, result, message }` */
  datatype Envelope = Envelope(success: bool, result: Value, message: string)

  const DefaultMessage: string := "操作成功"

  /** `intercept`: the handler's message from its decorator, or the default
      when it has none or an empty one. */
  function Intercept(data: Value, decorated: Option<string>, isValid: string -> bool, format: Value -> string): (r: Envelope)
    ensures r.success
    ensures r.result == FormatDates(data, isValid, format)
    ensures Truthy(decorated) ==> r.message == decorated.value
    ensures !Truthy(decorated) ==> r.message == DefaultMessage
  {
    Envelope(true, FormatDates(data, isValid, format), if Truthy(decorated) then decorated.value else DefaultMessage)
  }
}

=== FILE: search.dfy ===
/** The `query` parameter of the list endpoints: a case-sensitive substring
    search over a fixed set of text columns, applied only to a query with
    some non-whitespace text in it. */
module Search {
  import opened Base
  import opened Text

  /** `params.query && params.query.trim()` */
  predicate Searching(query: Option<string>) {
    query.Some? && query.value != "" && Trim(query.value) != ""
  }

  /** `OR: [{ col: { contains: query } }, ...]` */
  predicate AnyContains(columns: seq<string>, needle: string) {
    exists k :: 0 <= k < |columns| && Contains(columns[k], needle)
  }

  /** The search clause of a list query: none without a query, otherwise some
      column must contain the query as sent (untrimmed). */
  predicate SearchMatch(columns: seq<string>, query: Option<string>) {
    Searching(query) ==> AnyContains(columns, query.value)
  }

  /** A query is applied exactly when it holds a non-whitespace character. */
  lemma SearchingIff(query: Option<string>)
    ensures Searching(query) <==> query.Some? && HasText(query.value)
  {
    if query.Some? {
      TrimNonEmptyIff(query.value);
    }
  }

  /** A blank or whitespace-only query filters nothing; otherwise a row
      matches when the query appears inside one of its columns. */
  lemma SearchMatchCases(columns: seq<string>, query: Option<string>)
    ensures !(query.Some? && HasText(query.value)) ==> SearchMatch(columns, query)
    ensures query.Some? && HasText(query.value) ==>
              (SearchMatch(columns, query) <==> exists k :: 0 <= k < |columns| && Contains(columns[k], query.value))
  {
    SearchingIff(query);
  }

  /** Any column that is the query with text around it is found. */
  lemma ColumnWithQueryMatches(columns: seq<string>, k: int, a: string, b: string, query: Option<string>)
    requires 0 <= k < |columns| && query.Some? && columns[k] == a + query.value + b
    ensures SearchMatch(columns, query)
  {
    ContainsInfix(a, query.value, b);
  }
}

=== FILE: service.dfy ===
/** Product services: bilingual pages with an icon, a logo and a cover,
    filed under a service category, published when their status is Active.
    List entries and the detail page have different shapes. */
module Service {
  import opened Base
  import opened Locale
  import opened Tables
  import opened Paging
  import opened Search
  import opened Category

  /** A stored service. */
  datatype ServiceData = ServiceData(
    showInZh: bool, showInEn: bool, icon: string, logo: string, cover: string,
    title: Bilingual<string>, description: Bilingual<string>, content: Bilingual<string>,
    categoryId: Id, status: Status)

  /** A service category row: its two names. */
  type CategoryRow = Row<Bilingual<string>>

  /** A service in one language. A list entry names its category with
      `categoryName` only; the detail replaces it with the `{id, name}`
      category and adds the content and the status. */
  datatype ServiceView =
    | ListEntry(id: Id, icon: string, logo: string, cover: string, title: string, description: string,
                categoryName: Option<string>, createdAt: nat, updatedAt: nat)
    | Detail(id: Id, icon: string, logo: string, cover: string, title: string, description: string,
             createdAt: nat, updatedAt: nat, content: string, category: Option<NamedView>, status: Status)

  /** `transformByLanguage(data, language, includeContent)` */
  function Transform(row: Row<ServiceData>, category: Option<CategoryRow>, language: string, includeContent: bool): (r: ServiceView)
    ensures r.Detail? <==> includeContent
    ensures r.id == row.id && r.icon == row.data.icon && r.logo == row.data.logo && r.cover == row.data.cover
    ensures r.createdAt == row.createdAt && r.updatedAt == row.updatedAt
    ensures r.title == In(row.data.title, language) && r.description == In(row.data.description, language)
    ensures r.ListEntry? ==> r.categoryName == (if category.None? then None else Some(In(category.value.data, language)))
    ensures r.Detail? ==>
              && r.content == In(row.data.content, language) && r.status == row.data.status
              && r.category == (if category.None? then None else Some(ProjectName(category.value.id, category.value.data, language)))
  {
    var d := row.data;
    if includeContent then
      Detail(row.id, d.icon, d.logo, d.cover, In(d.title, language), In(d.description, language),
        row.createdAt, row.updatedAt, In(d.content, language),
        if category.None? then None else Some(ProjectName(category.value.id, category.value.data, language)),
        d.status)
    else
      ListEntry(row.id, d.icon, d.logo, d.cover, In(d.title, language), In(d.description, language),
        if category.None? then None else Some(In(category.value.data, language)),
        row.createdAt, row.updatedAt)
  }

  /** The list entry and the detail of a service agree on every field they
      share, and the entry's category name is the detail category's name. */
  lemma ListEntryAgreesWithDetail(row: Row<ServiceData>, category: Option<CategoryRow>, language: string)
    ensures var e := Transform(row, category, language, false);
            var d := Transform(row, category, language, true);
            && e.id == d.id && e.icon == d.icon && e.logo == d.logo && e.cover == d.cover
            && e.title == d.title && e.description == d.description
            && e.createdAt == d.createdAt && e.updatedAt == d.updatedAt
            && (e.categoryName.Some? <==> d.category.Some?)
            && (e.categoryName.Some? ==> e.categoryName.value == d.category.value.name)
  {
  }

  /** The body of a create request; `None` is a field left out. */
  datatype CreateRequest = CreateRequest(
    showInZh: Option<bool>, showInEn: Option<bool>, icon: string, logo: string, cover: string,
    title: Bilingual<Option<string>>, description: Bilingual<Option<string>>, content: Bilingual<Option<string>>,
    categoryId: Id, status: Option<Status>)

  /** The service `create` stores, or the first failed check: both flags off
      (Bad Request), then a missing category (Not Found, unlike the other
      content types). */
  function NewService(req: CreateRequest, categories: seq<CategoryRow>): (r: Result<ServiceData>)
    ensures r.Ok? <==> (OrElse(req.showInZh, true) || OrElse(req.showInEn, true)) && req.categoryId in Ids(categories)
    ensures !(OrElse(req.showInZh, true) || OrElse(req.showInEn, true)) ==> r == Err(BadRequest(NoLanguageShown))
    ensures (OrElse(req.showInZh, true) || OrElse(req.showInEn, true)) && req.categoryId !in Ids(categories) ==>
              r == Err(NotFound(Entity.ServiceCategory))
    ensures r.Ok? ==>
              && r.value.showInZh == OrElse(req.showInZh, true) && r.value.showInEn == OrElse(req.showInEn, true)
              && r.value.icon == req.icon && r.value.logo == req.logo && r.value.cover == req.cover
              && r.value.title == OrEmpty(req.title) && r.value.description == OrEmpty(req.description)
              && r.value.content == OrEmpty(req.content)
              && r.value.categoryId == req.categoryId && r.value.status == OrElse(req.status, Draft)
  {
    var showInZh := OrElse(req.showInZh, true);
    var showInEn := OrElse(req.showInEn, true);
    var shown := ValidateLanguageSettings(showInZh, showInEn);
    if shown.Some? then Err(shown.value)
    else if Find(categories, req.categoryId).None? then Err(NotFound(Entity.ServiceCategory))
    else
      Ok(ServiceData(showInZh, showInEn, req.icon, req.logo, req.cover,
        OrEmpty(req.title), OrEmpty(req.description), OrEmpty(req.content),
        req.categoryId, OrElse(req.status, Draft)))
  }

  /** `create`: the written row is returned with its category included. */
  method Create(t: Table<ServiceData>, categories: seq<CategoryRow>, req: CreateRequest) returns (r: Result<(Row<ServiceData>, Option<CategoryRow>)>)
    requires t.Valid()
    modifies t
    ensures t.Valid()
    ensures NewService(req, categories).Err? ==> r == Err(NewService(req, categories).error) && t.rows == old(t.rows)
    ensures NewService(req, categories).Ok? ==>
              r.Ok? && t.rows == old(t.rows) + [r.value.0] && r.value.0.data == NewService(req, categories).value
              && r.value.1.Some? && r.value.1 == Find(categories, r.value.0.data.categoryId)
  {
    var checked := NewService(req, categories);
    if checked.Err? {
      return Err(checked.error);
    }
    var row := t.Insert(checked.value);
    return Ok((row, Find(categories, row.data.categoryId)));
  }

  /** The four columns of the `OR` block of `findAll` and `findAllByAdmin`
      (src/service/service.service.ts:166-171): title and description, both
      languages; not the content. */
  function SearchColumns(d: ServiceData): (r: seq<string>)
    ensures |r| == 4
  {
    [d.title.zh, d.title.en, d.description.zh, d.description.en]
  }

  /** The search never looks at the content: two versions of a service that
      differ only in content match the same queries. */
  lemma SearchIgnoresContent(d: ServiceData, content: Bilingual<string>, query: Option<string>)
    ensures SearchMatch(SearchColumns(d.(content := content)), query) == SearchMatch(SearchColumns(d), query)
  {
  }

  /** The `where` of the public list. */
  predicate PublicMatch(row: Row<ServiceData>, language: string, categoryId: Option<Id>, query: Option<string>) {
    && row.data.status == Active
    && ShownOn(row.data.showInZh, row.data.showInEn, language)
    && (categoryId.Some? ==> row.data.categoryId == categoryId.value)
    && SearchMatch(SearchColumns(row.data), query)
  }

  function PublicRows(rows: seq<Row<ServiceData>>, language: string, categoryId: Option<Id>, query: Option<string>): (r: seq<Row<ServiceData>>)
    ensures forall row :: row in r <==> row in rows && PublicMatch(row, language, categoryId, query)
    ensures Chronological(rows) ==> NewestFirstOrder(r)
  {
    NewestMatching(rows, (row: Row<ServiceData>) => PublicMatch(row, language, categoryId, query))
  }

  /** The query parameters of the public list. */
  datatype ListParams = ListParams(
    page: Option<int>, limit: Option<int>, categoryId: Option<Id>, query: Option<string>, language: Option<string>)

  /** `findAll`: one page of published services as list entries. */
  function FindAll(rows: seq<Row<ServiceData>>, categories: seq<CategoryRow>, params: ListParams): (r: Paged<ServiceView>)
    ensures var language := Resolve(params.language);
            var pg := Paginate(PublicRows(rows, language, params.categoryId, params.query), params.page, params.limit);
            && r.pagination == pg.pagination
            && |r.data| == |pg.data|
            && forall k :: 0 <= k < |r.data| ==>
                 r.data[k] == Transform(pg.data[k], Find(categories, pg.data[k].data.categoryId), language, false)
    ensures forall k :: 0 <= k < |r.data| ==> r.data[k].ListEntry?
  {
    var language := Resolve(params.language);
    var pg := Paginate(PublicRows(rows, language, params.categoryId, params.query), params.page, params.limit);
    MapData(pg, (row: Row<ServiceData>) => Transform(row, Find(categories, row.data.categoryId), language, false))
  }

  /** Every service on a public page is Active, shown on the site of the
      resolved language, in the requested category and matched by the search. */
  lemma FindAllIsPublic(rows: seq<Row<ServiceData>>, categories: seq<CategoryRow>, params: ListParams, k: int)
    requires 0 <= k < |FindAll(rows, categories, params).data|
    ensures var language := Resolve(params.language);
            var view := FindAll(rows, categories, params).data[k];
            exists row :: row in rows && PublicMatch(row, language, params.categoryId, params.query)
                          && view == Transform(row, Find(categories, row.data.categoryId), language, false)
  {
    var language := Resolve(params.language);
    var m := PublicRows(rows, language, params.categoryId, params.query);
    var pg := Paginate(m, params.page, params.limit);
    var row := pg.data[k];
    assert row == m[Skip(PageNumber(params.page), PageLimit(params.limit)) + k];
    assert row in m;
  }

  /** The query parameters of the admin list. */
  datatype AdminParams = AdminParams(
    page: Option<int>, limit: Option<int>, categoryId: Option<Id>, query: Option<string>,
    status: Option<Status>, language: Option<string>)

  predicate AdminMatch(row: Row<ServiceData>, params: AdminParams) {
    && AdminShown(row.data.showInZh, row.data.showInEn, params.language)
    && (params.status.Some? ==> row.data.status == params.status.value)
    && (params.categoryId.Some? ==> row.data.categoryId == params.categoryId.value)
    && SearchMatch(SearchColumns(row.data), params.query)
  }

  function AdminRows(rows: seq<Row<ServiceData>>, params: AdminParams): (r: seq<Row<ServiceData>>)
    ensures forall row :: row in r <==> row in rows && AdminMatch(row, params)
    ensures Chronological(rows) ==> NewestFirstOrder(r)
  {
    NewestMatching(rows, (row: Row<ServiceData>) => AdminMatch(row, params))
  }

  /** An admin list entry: every stored column except the two contents, with
      the category row. */
  datatype AdminEntry = AdminEntry(
    id: Id, showInZh: bool, showInEn: bool, icon: string, logo: string, cover: string,
    title: Bilingual<string>, description: Bilingual<string>, categoryId: Id,
    category: Option<CategoryRow>, status: Status, createdAt: nat, updatedAt: nat)

  /** The `select` of the admin list. */
  function Selected(row: Row<ServiceData>, category: Option<CategoryRow>): (r: AdminEntry)
    ensures r.id == row.id && r.categoryId == row.data.categoryId && r.category == category
    ensures r.title == row.data.title && r.description == row.data.description && r.status == row.data.status
    ensures r.showInZh == row.data.showInZh && r.showInEn == row.data.showInEn
    ensures r.icon == row.data.icon && r.logo == row.data.logo && r.cover == row.data.cover
    ensures r.createdAt == row.createdAt && r.updatedAt == row.updatedAt
  {
    var d := row.data;
    AdminEntry(row.id, d.showInZh, d.showInEn, d.icon, d.logo, d.cover, d.title, d.description,
      d.categoryId, category, d.status, row.createdAt, row.updatedAt)
  }

  /** Everything but the content survives the `select`: two services that
      differ only in content give the same admin entry. */
  lemma SelectedDropsOnlyContent(row: Row<ServiceData>, content: Bilingual<string>, category: Option<CategoryRow>)
    ensures Selected(row.(data := row.data.(content := content)), category) == Selected(row, category)
  {
  }

  /** `findAllByAdmin`: one page of admin entries, newest first. */
  function FindAllByAdmin(rows: seq<Row<ServiceData>>, categories: seq<CategoryRow>, params: AdminParams): (r: Paged<AdminEntry>)
    ensures var pg := Paginate(AdminRows(rows, params), params.page, params.limit);
            && r.pagination == pg.pagination
            && |r.data| == |pg.data|
            && forall k :: 0 <= k < |r.data| ==>
                 r.data[k] == Selected(pg.data[k], Find(categories, pg.data[k].data.categoryId))
                 && pg.data[k] in rows && AdminMatch(pg.data[k], params)
  {
    var m := AdminRows(rows, params);
    var pg := Paginate(m, params.page, params.limit);
    assert forall k :: 0 <= k < |pg.data| ==> pg.data[k] in m;
    MapData(pg, (row: Row<ServiceData>) => Selected(row, Find(categories, row.data.categoryId)))
  }

  /** `findOne`: any service by id, whatever its status and flags, as a detail. */
  function FindOne(rows: seq<Row<ServiceData>>, categories: seq<CategoryRow>, id: Id, language: Option<string>): (r: Result<ServiceView>)
    ensures r.Err? <==> id !in Ids(rows)
    ensures r.Err? ==> r.error == NotFound(Entity.Service)
    ensures r.Ok? ==> r.value.Detail? && r.value.id == id
                      && r.value == Transform(Find(rows, id).value, Find(categories, Find(rows, id).value.data.categoryId), OrEnglish(language), true)
  {
    match Find(rows, id)
    case None => Err(NotFound(Entity.Service))
    case Some(row) => Ok(Transform(row, Find(categories, row.data.categoryId), OrEnglish(language), true))
  }

  /** `findOneByAdmin`: the stored row with its category, untranslated. */
  function FindOneByAdmin(rows: seq<Row<ServiceData>>, categories: seq<CategoryRow>, id: Id): (r: Result<(Row<ServiceData>, Option<CategoryRow>)>)
    ensures r.Err? <==> id !in Ids(rows)
    ensures r.Err? ==> r.error == NotFound(Entity.Service)
    ensures r.Ok? ==> r.value.0 in rows && r.value.0.id == id
                      && r.value.1 == Find(categories, r.value.0.data.categoryId)
  {
    match Find(rows, id)
    case None => Err(NotFound(Entity.Service))
    case Some(row) => Ok((row, Find(categories, row.data.categoryId)))
  }

  /** The body of an update request; `None` is a field left out. */
  datatype UpdateRequest = UpdateRequest(
    showInZh: Option<bool>, showInEn: Option<bool>, icon: Option<string>, logo: Option<string>, cover: Option<string>,
    title: Bilingual<Option<string>>, description: Bilingual<Option<string>>, content: Bilingual<Option<string>>,
    categoryId: Option<Id>, status: Option<Status>)

  /** The checks of `update` after the lookup: the merged flags (Bad Request),
      then a new category must exist (Not Found). */
  function CheckUpdate(d: ServiceData, req: UpdateRequest, categories: seq<CategoryRow>): (r: Option<Error>)
    ensures r.None? <==>
              (OrElse(req.showInZh, d.showInZh) || OrElse(req.showInEn, d.showInEn))
              && (req.categoryId.Some? ==> req.categoryId.value in Ids(categories))
    ensures !(OrElse(req.showInZh, d.showInZh) || OrElse(req.showInEn, d.showInEn)) ==>
              r == Some(BadRequest(NoLanguageShown))
    ensures (OrElse(req.showInZh, d.showInZh) || OrElse(req.showInEn, d.showInEn))
            && req.categoryId.Some? && req.categoryId.value !in Ids(categories) ==>
              r == Some(NotFound(Entity.ServiceCategory))
  {
    var shown := ValidateLanguageSettings(OrElse(req.showInZh, d.showInZh), OrElse(req.showInEn, d.showInEn));
    if shown.Some? then shown
    else if req.categoryId.Some? && Find(categories, req.categoryId.value).None? then Some(NotFound(Entity.ServiceCategory))
    else None
  }

  /** The stored service after `update` writes the fields the request names. */
  function Patched(d: ServiceData, req: UpdateRequest): (r: ServiceData)
    ensures r.showInZh == OrElse(req.showInZh, d.showInZh) && r.showInEn == OrElse(req.showInEn, d.showInEn)
    ensures r.icon == OrElse(req.icon, d.icon) && r.logo == OrElse(req.logo, d.logo) && r.cover == OrElse(req.cover, d.cover)
    ensures r.title == Overwrite(d.title, req.title) && r.description == Overwrite(d.description, req.description)
    ensures r.content == Overwrite(d.content, req.content)
    ensures r.categoryId == OrElse(req.categoryId, d.categoryId) && r.status == OrElse(req.status, d.status)
  {
    ServiceData(OrElse(req.showInZh, d.showInZh), OrElse(req.showInEn, d.showInEn),
      OrElse(req.icon, d.icon), OrElse(req.logo, d.logo), OrElse(req.cover, d.cover),
      Overwrite(d.title, req.title), Overwrite(d.description, req.description), Overwrite(d.content, req.content),
      OrElse(req.categoryId, d.categoryId), OrElse(req.status, d.status))
  }

  /** A request naming no field changes nothing; repeating an update changes nothing more. */
  lemma PatchedLaws(d: ServiceData, req: UpdateRequest)
    ensures Patched(d, UpdateRequest(None, None, None, None, None, Absent, Absent, Absent, None, None)) == d
    ensures Patched(Patched(d, req), req) == Patched(d, req)
  {
  }

  /** `update`: the written row is returned with its category included. */
  method Update(t: Table<ServiceData>, categories: seq<CategoryRow>, id: Id, req: UpdateRequest) returns (r: Result<(Row<ServiceData>, Option<CategoryRow>)>)
    requires t.Valid()
    modifies t
    ensures t.Valid()
    ensures id !in Ids(old(t.rows)) ==> r == Err(NotFound(Entity.Service)) && t.rows == old(t.rows)
    ensures id in Ids(old(t.rows)) ==>
              var stored := Find(old(t.rows), id).value;
              if CheckUpdate(stored.data, req, categories).Some?
              then r == Err(CheckUpdate(stored.data, req, categories).value) && t.rows == old(t.rows)
              else r == Ok((stored.(data := Patched(stored.data, req), updatedAt := old(t.clock)),
                            Find(categories, Patched(stored.data, req).categoryId)))
                   && t.rows == WithData(old(t.rows), id, Patched(stored.data, req), old(t.clock))
  {
    var found := Find(t.rows, id);
    if found.None? {
      return Err(NotFound(Entity.Service));
    }
    var refused := CheckUpdate(found.value.data, req, categories);
    if refused.Some? {
      return Err(refused.value);
    }
    var patch := (d: ServiceData) => Patched(d, req);
    var stamp := t.clock;
    ModifiedIsWithData(t.rows, id, patch, stamp);
    t.Update(id, patch);
    var written := found.value.(data := Patched(found.value.data, req), updatedAt := stamp);
    r := Ok((written, Find(categories, written.data.categoryId)));
  }

  /** `remove` */
  method Remove(t: Table<ServiceData>, id: Id) returns (err: Option<Error>)
    requires t.Valid()
    modifies t
    ensures t.Valid()
    ensures id !in Ids(old(t.rows)) ==> err == Some(NotFound(Entity.Service)) && t.rows == old(t.rows)
    ensures id in Ids(old(t.rows)) ==> err.None? && t.rows == Without(old(t.rows), id)
  {
    if Find(t.rows, id).None? {
      return Some(NotFound(Entity.Service));
    }
    t.Delete(id);
    err := None;
  }

  /** The services filed under a category: the `services` relation of a
      service category, in table order. */
  function InCategory(rows: seq<Row<ServiceData>>, categoryId: Id): (r: seq<Row<ServiceData>>)
    ensures forall row :: row in r <==> row in rows && row.data.categoryId == categoryId
  {
    Where(rows, (row: Row<ServiceData>) => row.data.categoryId == categoryId)
  }
}

=== FILE: service_category.dfy ===
/** Service categories: a bilingual name, looked up together with the
    services filed under it; a category with services cannot be deleted.
    The lists are `Category`'s. */
module ServiceCategory {
  import opened Base
  import opened Locale
  import opened Tables
  import opened Category
  import Service

  /** `create`: the names are stored as given, with no check. */
  method Create(t: Table<Names>, req: Names) returns (row: Row<Names>)
    requires t.Valid()
    modifies t
    ensures t.Valid()
    ensures t.rows == old(t.rows) + [row] && row.data == req && row.id !in Ids(old(t.rows))
  {
    row := t.Insert(req);
  }

  /** `findOne` and `findOneByAdmin`: the raw row, no projection, with the
      services filed under it. */
  function FindOne(rows: seq<Row<Names>>, services: seq<Row<Service.ServiceData>>, id: Id): (r: Result<(Row<Names>, seq<Row<Service.ServiceData>>)>)
    ensures r.Err? <==> id !in Ids(rows)
    ensures r.Err? ==> r.error == NotFound(Entity.ServiceCategory)
    ensures r.Ok? ==> r.value.0 in rows && r.value.0.id == id
    ensures r.Ok? ==> forall s :: s in r.value.1 <==> s in services && s.data.categoryId == id
  {
    match Find(rows, id)
    case None => Err(NotFound(Entity.ServiceCategory))
    case Some(row) => Ok((row, Service.InCategory(services, id)))
  }

  /** `update`: looks the category up as `findOne` does, then writes the
      names the request carries. */
  method Update(t: Table<Names>, id: Id, req: Bilingual<Option<string>>) returns (r: Result<Row<Names>>)
    requires t.Valid()
    modifies t
    ensures t.Valid()
    ensures id !in Ids(old(t.rows)) ==> r == Err(NotFound(Entity.ServiceCategory)) && t.rows == old(t.rows)
    ensures id in Ids(old(t.rows)) ==>
              var stored := Find(old(t.rows), id).value;
              && r == Ok(stored.(data := Overwrite(stored.data, req), updatedAt := old(t.clock)))
              && t.rows == WithData(old(t.rows), id, Overwrite(stored.data, req), old(t.clock))
  {
    r := Rename(t, Entity.ServiceCategory, id, req);
  }

  /** The deletion guard: refused while the category's service list is not empty. */
  function HasServices(services: seq<Row<Service.ServiceData>>, id: Id): (r: Option<Error>)
    ensures r.None? <==> forall k :: 0 <= k < |services| ==> services[k].data.categoryId != id
    ensures r.Some? ==> r.value == BadRequest(CategoryHasServices)
  {
    var filed := Service.InCategory(services, id);
    if |filed| > 0 then
      assert filed[0] in filed;
      Some(BadRequest(CategoryHasServices))
    else
      assert forall k :: 0 <= k < |services| ==> services[k] !in filed;
      None
  }

  /** `remove`: refused while services are filed under the category;
      otherwise the row is deleted. `services` is the service table. */
  method Remove(t: Table<Names>, services: seq<Row<Service.ServiceData>>, id: Id) returns (err: Option<Error>)
    requires t.Valid()
    modifies t
    ensures t.Valid()
    ensures id !in Ids(old(t.rows)) ==> err == Some(NotFound(Entity.ServiceCategory)) && t.rows == old(t.rows)
    ensures id in Ids(old(t.rows)) && HasServices(services, id).Some? ==>
              err == HasServices(services, id) && t.rows == old(t.rows)
    ensures id in Ids(old(t.rows)) && HasServices(services, id).None? ==>
              err.None? && t.rows == Without(old(t.rows), id)
  {
    if Find(t.rows, id).None? {
      return Some(NotFound(Entity.ServiceCategory));
    }
    var guard := HasServices(services, id);
    if guard.Some? {
      return guard;
    }
    t.Delete(id);
    err := None;
  }
}

=== FILE: singleton.dfy ===
/** Singleton tables: company info, "about us" and the privacy policy each
    keep one record, read and patched as the earliest-created row
    (`findFirst({ orderBy: { createdAt: 'asc' } })`). Any later rows are never
    read or written. */
module Singleton {
  import opened Base
  import opened Locale
  import opened Tables

  /** `findFirst` ordered by `createdAt` ascending, or Not Found on an empty table. */
  function FindFirst<D>(rows: seq<Row<D>>, entity: Entity): (r: Result<Row<D>>)
    ensures r.Err? <==> rows == []
    ensures r.Err? ==> r.error == NotFound(entity)
    ensures r.Ok? ==> r.value == rows[0]
  {
    if rows == [] then Err(NotFound(entity)) else Ok(rows[0])
  }

  /** The row `FindFirst` returns is the earliest created one. */
  lemma FirstIsEarliest<D>(rows: seq<Row<D>>, entity: Entity)
    requires Chronological(rows) && rows != []
    ensures forall k :: 0 < k < |rows| ==> FindFirst(rows, entity).value.createdAt < rows[k].createdAt
  {
  }

  /** Writing the first row's id touches the first row only. */
  lemma {:induction false} WithDataFirst<D>(rows: seq<Row<D>>, d: D, stamp: nat)
    requires IdsDistinct(rows) && rows != []
    ensures WithData(rows, rows[0].id, d, stamp) == [rows[0].(data := d, updatedAt := stamp)] + rows[1..]
  {
    var w := WithData(rows, rows[0].id, d, stamp);
    var e := [rows[0].(data := d, updatedAt := stamp)] + rows[1..];
    forall k | 0 <= k < |rows| ensures w[k] == e[k] {
      if k > 0 {
        assert rows[0].id != rows[k].id;
      }
    }
  }

  /** `update` of a singleton: Not Found on an empty table, otherwise the
      patch applied to the earliest row and to no other. */
  method UpdateFirst<D(==,!new)>(t: Table<D>, entity: Entity, patch: D -> D) returns (r: Result<Row<D>>)
    requires t.Valid()
    modifies t
    ensures t.Valid()
    ensures old(t.rows) == [] ==> r == Err(NotFound(entity)) && t.rows == old(t.rows)
    ensures old(t.rows) != [] ==>
              var first := old(t.rows)[0];
              && r == Ok(first.(data := patch(first.data), updatedAt := old(t.clock)))
              && t.rows == [r.value] + old(t.rows)[1..]
  {
    var found := FindFirst(t.rows, entity);
    if found.Err? {
      return Err(found.error);
    }
    var first := found.value;
    var stamp := t.clock;
    assert first.id in Ids(t.rows);
    FindUnique(t.rows, 0);
    ModifiedIsWithData(t.rows, first.id, patch, stamp);
    WithDataFirst(t.rows, patch(first.data), stamp);
    t.Update(first.id, patch);
    r := Ok(first.(data := patch(first.data), updatedAt := stamp));
  }

  /** The record of the two content pages: one text per language. */
  type Content = Bilingual<string>

  /** `{ id, content }` */
  datatype ContentView = ContentView(id: Id, content: string)

  /** `transformByLanguage` of the about and privacy-policy services. */
  function TransformContent(row: Row<Content>, language: string): (r: ContentView)
    ensures r.id == row.id
    ensures IsZh(language) ==> r.content == row.data.zh
    ensures !IsZh(language) ==> r.content == row.data.en
  {
    ContentView(row.id, In(row.data, language))
  }
}

=== FILE: sortable.dfy ===
/** The two hand-ordered tables (banners and customers) share their ordering
    logic: a new row goes after every existing one, lists come back in
    ascending `sortOrder`, and `updateSort` rewrites many `sortOrder` values
    at once, all or nothing. */
module Sortable {
  import opened Base
  import opened Tables
  import opened Sorting

  /** One element of the `orders` array of a sort request. */
  datatype SortItem = SortItem(id: Id, sortOrder: int)

  /** `_max: { sortOrder: true }`: absent on an empty table. */
  function MaxKey(keys: seq<int>): (r: Option<int>)
    ensures r.None? <==> keys == []
    ensures r.Some? ==> r.value in keys && forall k :: k in keys ==> k <= r.value
  {
    if keys == [] then None
    else
      var rest := MaxKey(keys[1..]);
      assert forall k :: k in keys ==> k == keys[0] || k in keys[1..];
      if rest.Some? && rest.value > keys[0] then rest else Some(keys[0])
  }

  /** The `sortOrder` column of a table, in table order. */
  function SortKeys<D>(rows: seq<Row<D>>, key: D -> int): (r: seq<int>)
    ensures |r| == |rows|
    ensures forall k :: 0 <= k < |rows| ==> r[k] == key(rows[k].data)
  {
    seq(|rows|, k requires 0 <= k < |rows| => key(rows[k].data))
  }

  /** `(max || 0) + 1`: a `null` or `0` maximum counts as 0. */
  function NextSortOrder(keys: seq<int>): (r: int)
    ensures forall k :: k in keys ==> k < r
    ensures keys == [] ==> r == 1
    ensures keys != [] ==> r == if MaxKey(keys).value == 0 then 1 else MaxKey(keys).value + 1
  {
    var m := MaxKey(keys);
    if m.None? || m.value == 0 then 1 else m.value + 1
  }

  /** No id is requested twice. */
  predicate Distinct(ids: seq<Id>) {
    forall i, j :: 0 <= i < j < |ids| ==> ids[i] != ids[j]
  }

  /** `orders.map((item) => item.id)` */
  function RequestedIds(orders: seq<SortItem>): (r: seq<Id>)
    ensures |r| == |orders|
    ensures forall k :: 0 <= k < |orders| ==> r[k] == orders[k].id
  {
    seq(|orders|, k requires 0 <= k < |orders| => orders[k].id)
  }

  /** `findMany({ where: { id: { in: ids } } })`: the rows whose id is requested. */
  function Existing<D(==,!new)>(rows: seq<Row<D>>, ids: seq<Id>): (r: seq<Row<D>>)
    ensures forall row :: row in r <==> row in rows && row.id in ids
  {
    Where(rows, (row: Row<D>) => row.id in ids)
  }

  /** `ids.filter((id) => !existingIds.includes(id))`, in request order. */
  function Missing<D>(rows: seq<Row<D>>, ids: seq<Id>): (r: seq<Id>)
    ensures forall id :: id in r <==> id in ids && id !in Ids(rows)
  {
    if ids == [] then []
    else
      var rest := Missing(rows, ids[1..]);
      assert forall id :: id in ids <==> id == ids[0] || id in ids[1..];
      if ids[0] in Ids(rows) then rest else [ids[0]] + rest
  }

  /** The guard of `updateSort`: the number of existing matches must equal the
      number of requested ids, or the request fails listing the missing ones. */
  function CheckSortRequest<D(==,!new)>(entity: Entity, rows: seq<Row<D>>, orders: seq<SortItem>): (r: Option<Error>)
    ensures r.Some? ==> r.value.NotFoundIds? && r.value.entity == entity
    ensures r.Some? ==> r.value.missing == Missing(rows, RequestedIds(orders))
  {
    var ids := RequestedIds(orders);
    if |Existing(rows, ids)| != |ids| then Some(NotFoundIds(entity, Missing(rows, ids))) else None
  }

  /** The count comparison accepts exactly the requests whose ids all exist and
      are pairwise different. A repeated id is refused even though nothing is
      missing, and the error then lists no id. */
  lemma CheckSortRequestIff<D(!new)>(entity: Entity, rows: seq<Row<D>>, orders: seq<SortItem>)
    requires IdsDistinct(rows)
    ensures var ids := RequestedIds(orders);
            CheckSortRequest(entity, rows, orders).None? <==>
              (forall k :: 0 <= k < |ids| ==> ids[k] in Ids(rows)) && Distinct(ids)
    ensures Missing(rows, RequestedIds(orders)) == [] <==>
              forall k :: 0 <= k < |orders| ==> orders[k].id in Ids(rows)
  {
    var ids := RequestedIds(orders);
    var keep := (row: Row<D>) => row.id in ids;
    var s := set k | 0 <= k < |ids| :: ids[k];
    ExistingCount(rows, keep, s);
    DistinctCard(ids);
    SubsetCard(Ids(rows) * s, s);
    AllPresentIff(ids, Ids(rows));
    MissingEmptyIff(rows, orders);
  }

  /** Every id is present exactly when the ids' set meets the present ones in full. */
  lemma AllPresentIff(ids: seq<Id>, present: set<Id>)
    ensures var s := set k | 0 <= k < |ids| :: ids[k];
            (forall k :: 0 <= k < |ids| ==> ids[k] in present) <==> present * s == s
  {
    var s := set k | 0 <= k < |ids| :: ids[k];
    if !(forall k :: 0 <= k < |ids| ==> ids[k] in present) {
      var k :| 0 <= k < |ids| && ids[k] !in present;
      assert ids[k] in s - present * s;
    }
  }

  /** Nothing is listed as missing exactly when every requested id exists. */
  lemma MissingEmptyIff<D>(rows: seq<Row<D>>, orders: seq<SortItem>)
    ensures Missing(rows, RequestedIds(orders)) == [] <==>
              forall k :: 0 <= k < |orders| ==> orders[k].id in Ids(rows)
  {
    var ids := RequestedIds(orders);
    if Missing(rows, ids) == [] {
      forall k | 0 <= k < |orders| ensures orders[k].id in Ids(rows) {
        assert ids[k] in ids;
      }
    } else {
      assert Missing(rows, ids)[0] in Missing(rows, ids);
    }
  }

  /** With distinct row ids, the rows `keep` selects are as many as the ids they carry. */
  lemma {:induction false} ExistingCount<D(!new)>(rows: seq<Row<D>>, keep: Row<D> -> bool, s: set<Id>)
    requires IdsDistinct(rows)
    requires forall row :: keep(row) <==> row.id in s
    ensures |Where(rows, keep)| == |Ids(rows) * s|
  {
    if rows != [] {
      IdsCons(rows);
      TailKeepsOrder(rows);
      ExistingCount(rows[1..], keep, s);
      HeadNotInTail(rows);
      MeetStep(Ids(rows), rows[0].id, Ids(rows[1..]), s);
    } else {
      assert Ids(rows) == {};
    }
  }

  /** Adding one new element to a set adds one to its meet with `s` exactly
      when the element is in `s`. */
  lemma MeetStep(a: set<Id>, x: Id, t: set<Id>, s: set<Id>)
    requires a == {x} + t && x !in t
    ensures x in s ==> |a * s| == |t * s| + 1
    ensures x !in s ==> |a * s| == |t * s|
  {
    if x in s {
      assert a * s == {x} + t * s;
    } else {
      assert a * s == t * s;
    }
  }

  /** A sequence has at least as many elements as it has different ones, and
      exactly as many when no element repeats. */
  lemma {:induction false} DistinctCard(ids: seq<Id>)
    ensures |set k | 0 <= k < |ids| :: ids[k]| <= |ids|
    ensures |set k | 0 <= k < |ids| :: ids[k]| == |ids| <==> Distinct(ids)
  {
    var s := set k | 0 <= k < |ids| :: ids[k];
    if ids != [] {
      var init := ids[..|ids| - 1];
      var last := ids[|ids| - 1];
      DistinctCard(init);
      var s0 := set k | 0 <= k < |init| :: init[k];
      assert s == s0 + {last};
      if last in s0 {
        var m :| 0 <= m < |init| && init[m] == last;
        assert ids[m] == ids[|ids| - 1];
        assert !Distinct(ids);
      } else {
        assert Distinct(ids) <==> Distinct(init);
      }
    } else {
      assert s == {};
    }
  }

  /** A subset is no larger, and equally large only when it is the whole set. */
  lemma SubsetCard(a: set<Id>, b: set<Id>)
    requires a <= b
    ensures |a| <= |b|
    ensures |a| == |b| <==> a == b
  {
    assert b == a + (b - a);
    assert a * (b - a) == {};
    if a != b {
      var x :| x in b - a;
    }
  }

  /** The value the transaction leaves for `id`: that of the last item naming it. */
  function RequestedOrder(orders: seq<SortItem>, id: Id): (r: Option<int>)
    ensures r.Some? <==> exists k :: 0 <= k < |orders| && orders[k].id == id
  {
    if orders == [] then None
    else if orders[|orders| - 1].id == id then Some(orders[|orders| - 1].sortOrder)
    else
      var init := orders[..|orders| - 1];
      assert forall k :: 0 <= k < |init| ==> init[k] == orders[k];
      RequestedOrder(init, id)
  }

  /** With no id repeated, every listed row gets exactly the value listed for it. */
  lemma {:induction false} RequestedOrderOfDistinct(orders: seq<SortItem>, k: int)
    requires 0 <= k < |orders|
    requires Distinct(RequestedIds(orders))
    ensures RequestedOrder(orders, orders[k].id) == Some(orders[k].sortOrder)
  {
    var n := |orders| - 1;
    if k < n {
      var init := orders[..n];
      assert RequestedIds(init) == RequestedIds(orders)[..n];
      assert orders[n].id != orders[k].id by {
        assert RequestedIds(orders)[k] != RequestedIds(orders)[n];
      }
      RequestedOrderOfDistinct(init, k);
    }
  }

  /** The stored data after the sort transaction: the new `sortOrder` for a listed row. */
  function Resorted<D>(d: D, requested: Option<int>, withSort: (D, int) -> D): D {
    if requested.Some? then withSort(d, requested.value) else d
  }

  /** The `$transaction` of `updateSort`: one `update({ data: { sortOrder } })`
      per item, in request order, taken as a single atomic step. The guard has
      already established that every id exists and none repeats. */
  method ApplySortOrders<D(==,!new)>(t: Table<D>, orders: seq<SortItem>, withSort: (D, int) -> D)
    requires t.Valid()
    requires forall k :: 0 <= k < |orders| ==> orders[k].id in Ids(t.rows)
    requires Distinct(RequestedIds(orders))
    modifies t
    ensures t.Valid()
    ensures Ids(t.rows) == Ids(old(t.rows))
    ensures SortedPrefix(old(t.rows), t.rows, orders, withSort)
  {
    ghost var rows0 := t.rows;
    var i := 0;
    assert orders[..0] == [];
    while i < |orders|
      invariant 0 <= i <= |orders|
      invariant t.Valid()
      invariant Ids(t.rows) == Ids(rows0)
      invariant SortedPrefix(rows0, t.rows, orders[..i], withSort)
    {
      var item := orders[i];
      ghost var prev, stamp := t.rows, t.clock;
      var patch := d => withSort(d, item.sortOrder);
      t.Update(item.id, patch);
      SortTurn(rows0, prev, orders, i, patch, stamp, withSort);
      i := i + 1;
    }
    assert orders[..i] == orders;
  }

  /** One turn of the transaction loop keeps its invariant. */
  lemma SortTurn<D>(rows0: seq<Row<D>>, prev: seq<Row<D>>, orders: seq<SortItem>, i: int,
                    patch: D -> D, stamp: nat, withSort: (D, int) -> D)
    requires 0 <= i < |orders| && Distinct(RequestedIds(orders))
    requires SortedPrefix(rows0, prev, orders[..i], withSort)
    requires forall d :: patch(d) == withSort(d, orders[i].sortOrder)
    ensures SortedPrefix(rows0, Modified(prev, orders[i].id, patch, stamp), orders[..i + 1], withSort)
  {
    NotYetRequested(orders, i);
    assert orders[..i + 1] == orders[..i] + [orders[i]];
    SortStep(rows0, prev, orders[..i], orders[i], patch, stamp, withSort);
  }

  /** With no id repeated, an item's id is not among those before it. */
  lemma NotYetRequested(orders: seq<SortItem>, i: int)
    requires 0 <= i < |orders|
    requires Distinct(RequestedIds(orders))
    ensures RequestedOrder(orders[..i], orders[i].id).None?
  {
    forall m | 0 <= m < i ensures orders[..i][m].id != orders[i].id {
      assert RequestedIds(orders)[m] != RequestedIds(orders)[i];
    }
  }

  /** The state of `ApplySortOrders` after the writes for `done`: same rows in
      the same places, the sort values of `done` written, everything else as before. */
  ghost predicate SortedPrefix<D>(rows0: seq<Row<D>>, rows: seq<Row<D>>, done: seq<SortItem>, withSort: (D, int) -> D) {
    && |rows| == |rows0|
    && (forall k :: 0 <= k < |rows| ==> rows[k].id == rows0[k].id && rows[k].createdAt == rows0[k].createdAt)
    && (forall k :: 0 <= k < |rows| ==>
          rows[k].data == Resorted(rows0[k].data, RequestedOrder(done, rows0[k].id), withSort))
    && (forall k :: 0 <= k < |rows| && RequestedOrder(done, rows0[k].id).None? ==> rows[k] == rows0[k])
  }

  /** One write of the transaction extends the written prefix by one item. */
  lemma SortStep<D>(rows0: seq<Row<D>>, prev: seq<Row<D>>, done: seq<SortItem>, item: SortItem,
                    patch: D -> D, stamp: nat, withSort: (D, int) -> D)
    requires SortedPrefix(rows0, prev, done, withSort)
    requires RequestedOrder(done, item.id).None?
    requires forall d :: patch(d) == withSort(d, item.sortOrder)
    ensures SortedPrefix(rows0, Modified(prev, item.id, patch, stamp), done + [item], withSort)
  {
    var next := Modified(prev, item.id, patch, stamp);
    assert (done + [item])[..|done|] == done;
    forall k | 0 <= k < |next|
      ensures next[k].data == Resorted(rows0[k].data, RequestedOrder(done + [item], rows0[k].id), withSort)
      ensures RequestedOrder(done + [item], rows0[k].id).None? ==> next[k] == rows0[k]
    {
      if rows0[k].id == item.id {
        assert prev[k] == rows0[k];
      }
    }
  }

  /** After a successful sort request, each listed row holds exactly the value
      requested for it and every row not listed is unchanged. */
  lemma SortWritesRequested<D>(rows0: seq<Row<D>>, rows: seq<Row<D>>, orders: seq<SortItem>, withSort: (D, int) -> D)
    requires SortedPrefix(rows0, rows, orders, withSort)
    requires Distinct(RequestedIds(orders))
    ensures |rows| == |rows0|
    ensures forall k, m :: 0 <= k < |rows| && 0 <= m < |orders| && rows0[k].id == orders[m].id ==>
              rows[k].data == withSort(rows0[k].data, orders[m].sortOrder)
    ensures forall k :: 0 <= k < |rows| && rows0[k].id !in RequestedIds(orders) ==> rows[k] == rows0[k]
  {
    forall k, m | 0 <= k < |rows| && 0 <= m < |orders| && rows0[k].id == orders[m].id
      ensures rows[k].data == withSort(rows0[k].data, orders[m].sortOrder)
    {
      RequestedOrderOfDistinct(orders, m);
    }
    forall k | 0 <= k < |rows| && rows0[k].id !in RequestedIds(orders) ensures rows[k] == rows0[k] {
    }
  }
}

=== FILE: sorting.dfy ===
/** `orderBy: { sortOrder: 'asc' }`: a stable insertion sort on an integer key.
    Rows with equal keys keep their table order (the store leaves the order of
    ties unspecified; creation order is one of the orders it may return). */
module Sorting {

  predicate SortedBy<T>(s: seq<T>, key: T -> int) {
    forall i, j :: 0 <= i < j < |s| ==> key(s[i]) <= key(s[j])
  }

  /** Insert `x` in front of the first element with a larger key. */
  function InsertByKey<T>(x: T, s: seq<T>, key: T -> int): (r: seq<T>)
    requires SortedBy(s, key)
    ensures SortedBy(r, key)
    ensures multiset(r) == multiset(s) + multiset{x}
    ensures |r| == |s| + 1
    ensures r[0] == x || (s != [] && r[0] == s[0])
  {
    if s == [] then [x]
    else if key(x) <= key(s[0]) then [x] + s
    else
      SortedTail(s, key);
      var tail := InsertByKey(x, s[1..], key);
      InsertBehind(s, x, tail, key);
      [s[0]] + tail
  }

  lemma SortedTail<T>(s: seq<T>, key: T -> int)
    requires s != [] && SortedBy(s, key)
    ensures SortedBy(s[1..], key)
  {
  }

  /** Putting the head in front of the insertion into the tail, when `x` goes
      after the head, gives a sorted sequence with `x` added. */
  lemma InsertBehind<T>(s: seq<T>, x: T, tail: seq<T>, key: T -> int)
    requires s != [] && SortedBy(s, key) && key(s[0]) < key(x)
    requires SortedBy(tail, key) && |tail| == |s|
    requires multiset(tail) == multiset(s[1..]) + multiset{x}
    requires tail[0] == x || (s[1..] != [] && tail[0] == s[1..][0])
    ensures SortedBy([s[0]] + tail, key)
    ensures multiset([s[0]] + tail) == multiset(s) + multiset{x}
  {
    assert s == [s[0]] + s[1..];
    var r := [s[0]] + tail;
    forall i, j | 0 <= i < j < |r| ensures key(r[i]) <= key(r[j]) {
      if i == 0 {
        assert key(s[0]) <= key(tail[0]);
        assert r[j] == tail[j - 1];
      } else {
        assert r[i] == tail[i - 1] && r[j] == tail[j - 1];
      }
    }
  }

  /** The rows in ascending key order: a permutation of the input. */
  function SortByKey<T>(s: seq<T>, key: T -> int): (r: seq<T>)
    ensures SortedBy(r, key)
    ensures multiset(r) == multiset(s)
    ensures |r| == |s|
  {
    if s == [] then []
    else
      assert s == [s[0]] + s[1..];
      InsertByKey(s[0], SortByKey(s[1..], key), key)
  }

  /** Membership is what a permutation keeps. */
  lemma SortKeepsMembers<T>(s: seq<T>, key: T -> int)
    ensures forall x :: x in SortByKey(s, key) <==> x in s
  {
    var r := SortByKey(s, key);
    forall x ensures x in r <==> x in s {
      assert x in r <==> x in multiset(r);
      assert x in s <==> x in multiset(s);
    }
  }
}

=== FILE: tables.dfy ===
/** The persistence layer, abstracted: one in-memory table per model, holding
    rows in creation order. The store assigns each row its id and its
    `createdAt`/`updatedAt` stamps from one increasing clock, so the order of
    `rows` is the `createdAt` order; `orderBy: { createdAt: 'desc' }` is the
    reverse of a filtered table and `findFirst({ orderBy: { createdAt: 'asc' } })`
    is its first row. */
module Tables {
  import opened Base

  datatype Row<D> = Row(id: Id, createdAt: nat, updatedAt: nat, data: D)

  predicate IdsDistinct<D>(rows: seq<Row<D>>) {
    forall i, j :: 0 <= i < j < |rows| ==> rows[i].id != rows[j].id
  }

  /** Strictly increasing `createdAt` along the sequence. */
  predicate Chronological<D>(rows: seq<Row<D>>) {
    forall i, j :: 0 <= i < j < |rows| ==> rows[i].createdAt < rows[j].createdAt
  }

  /** Strictly decreasing `createdAt`: the order of `createdAt: 'desc'`. */
  predicate NewestFirstOrder<D>(rows: seq<Row<D>>) {
    forall i, j :: 0 <= i < j < |rows| ==> rows[i].createdAt > rows[j].createdAt
  }

  function Ids<D>(rows: seq<Row<D>>): set<Id> {
    set k | 0 <= k < |rows| :: rows[k].id
  }

  /** `findUnique({ where: { id } })` */
  function Find<D>(rows: seq<Row<D>>, id: Id): (r: Option<Row<D>>)
    ensures r.Some? ==> r.value in rows && r.value.id == id
    ensures r.None? <==> id !in Ids(rows)
  {
    if rows == [] then None
    else if rows[0].id == id then Some(rows[0])
    else Find(rows[1..], id)
  }

  /** One column of a table, such as the `categoryId` a category deletion
      guard counts, read in table order. */
  function Column<D>(rows: seq<Row<D>>, key: D -> Id): (r: seq<Id>)
    ensures |r| == |rows|
    ensures forall k :: 0 <= k < |rows| ==> r[k] == key(rows[k].data)
  {
    if rows == [] then [] else [key(rows[0].data)] + Column(rows[1..], key)
  }

  /** `findMany({ where })` before ordering: the rows `keep` accepts, in table order. */
  function Where<D(==,!new)>(rows: seq<Row<D>>, keep: Row<D> -> bool): (r: seq<Row<D>>)
    ensures |r| <= |rows|
    ensures forall row :: row in r <==> row in rows && keep(row)
  {
    if rows == [] then []
    else
      assert rows == [rows[0]] + rows[1..];
      if keep(rows[0]) then [rows[0]] + Where(rows[1..], keep) else Where(rows[1..], keep)
  }

  /** Filtering keeps creation order and distinct ids. */
  lemma {:induction false} WhereKeepsOrder<D(!new)>(rows: seq<Row<D>>, keep: Row<D> -> bool)
    ensures Chronological(rows) ==> Chronological(Where(rows, keep))
    ensures IdsDistinct(rows) ==> IdsDistinct(Where(rows, keep))
  {
    if rows != [] {
      WhereKeepsOrder(rows[1..], keep);
      var tail := Where(rows[1..], keep);
      if keep(rows[0]) {
        assert Where(rows, keep) == [rows[0]] + tail;
        ConsKeepsOrder(rows, tail);
      } else {
        assert Where(rows, keep) == tail;
        TailKeepsOrder(rows);
      }
    }
  }

  /** Putting the first row in front of rows drawn from the rest keeps
      creation order and distinct ids. */
  lemma ConsKeepsOrder<D>(rows: seq<Row<D>>, tail: seq<Row<D>>)
    requires rows != []
    requires forall row :: row in tail ==> row in rows[1..]
    ensures Chronological(rows) && Chronological(tail) ==> Chronological([rows[0]] + tail)
    ensures IdsDistinct(rows) && IdsDistinct(tail) ==> IdsDistinct([rows[0]] + tail)
  {
    var r := [rows[0]] + tail;
    forall j | 0 < j < |r|
      ensures Chronological(rows) ==> rows[0].createdAt < r[j].createdAt
      ensures IdsDistinct(rows) ==> rows[0].id != r[j].id
    {
      assert r[j] == tail[j - 1];
      assert r[j] in rows[1..];
      var m :| 0 <= m < |rows[1..]| && rows[1..][m] == r[j];
      assert r[j] == rows[m + 1];
    }
  }

  lemma TailKeepsOrder<D>(rows: seq<Row<D>>)
    requires rows != []
    ensures Chronological(rows) ==> Chronological(rows[1..])
    ensures IdsDistinct(rows) ==> IdsDistinct(rows[1..])
  {
  }

  /** A filter that accepts every row returns the table unchanged. */
  lemma {:induction false} WhereKeepsAll<D(!new)>(rows: seq<Row<D>>, keep: Row<D> -> bool)
    requires forall k :: 0 <= k < |rows| ==> keep(rows[k])
    ensures Where(rows, keep) == rows
  {
    if rows != [] {
      WhereKeepsAll(rows[1..], keep);
    }
  }

  /** `count({ where })` */
  function Count<D(==,!new)>(rows: seq<Row<D>>, keep: Row<D> -> bool): nat {
    |Where(rows, keep)|
  }

  function Reverse<T>(s: seq<T>): (r: seq<T>)
    ensures |r| == |s|
    ensures forall k :: 0 <= k < |s| ==> r[k] == s[|s| - 1 - k]
  {
    if s == [] then [] else Reverse(s[1..]) + [s[0]]
  }

  /** `orderBy: { createdAt: 'desc' }` over rows kept in creation order. */
  function NewestFirst<D>(rows: seq<Row<D>>): (r: seq<Row<D>>)
    ensures |r| == |rows|
    ensures forall k :: 0 <= k < |r| ==> r[k] == rows[|rows| - 1 - k]
    ensures Chronological(rows) ==> NewestFirstOrder(r)
    ensures IdsDistinct(rows) ==> IdsDistinct(r)
    ensures multiset(r) == multiset(rows)
  {
    ReverseKeepsElements(rows);
    Reverse(rows)
  }

  /** `findMany({ where, orderBy: { createdAt: 'desc' } })`, before `skip`/`take`:
      exactly the rows `keep` accepts, newest first, as many as `count({ where })`. */
  function NewestMatching<D(==,!new)>(rows: seq<Row<D>>, keep: Row<D> -> bool): (r: seq<Row<D>>)
    ensures forall row :: row in r <==> row in rows && keep(row)
    ensures |r| == Count(rows, keep)
    ensures Chronological(rows) ==> NewestFirstOrder(r)
    ensures IdsDistinct(rows) ==> IdsDistinct(r)
  {
    var w := Where(rows, keep);
    WhereKeepsOrder(rows, keep);
    var r := NewestFirst(w);
    assert forall row :: row in r <==> row in multiset(r);
    assert forall row :: row in w <==> row in multiset(w);
    r
  }

  lemma {:induction false} ReverseKeepsElements<T>(s: seq<T>)
    ensures multiset(Reverse(s)) == multiset(s)
  {
    if s != [] {
      ReverseKeepsElements(s[1..]);
      assert s == [s[0]] + s[1..];
    }
  }

  /** `update({ where: { id }, data })`: the row with that id has the fields the
      call names rewritten (`patch` maps its old data to the new) and a fresh
      `updatedAt`; every other row is untouched. */
  function Modified<D>(rows: seq<Row<D>>, id: Id, patch: D -> D, stamp: nat): (r: seq<Row<D>>)
    ensures |r| == |rows|
    ensures forall k :: 0 <= k < |rows| ==>
              r[k] == if rows[k].id == id then rows[k].(data := patch(rows[k].data), updatedAt := stamp) else rows[k]
  {
    seq(|rows|, k requires 0 <= k < |rows| =>
      if rows[k].id == id then rows[k].(data := patch(rows[k].data), updatedAt := stamp) else rows[k])
  }

  /** The rows after `update` when the id names one row whose new data is `d`. */
  function WithData<D>(rows: seq<Row<D>>, id: Id, d: D, stamp: nat): (r: seq<Row<D>>)
    ensures |r| == |rows|
    ensures forall k :: 0 <= k < |rows| ==>
              r[k] == if rows[k].id == id then rows[k].(data := d, updatedAt := stamp) else rows[k]
  {
    seq(|rows|, k requires 0 <= k < |rows| =>
      if rows[k].id == id then rows[k].(data := d, updatedAt := stamp) else rows[k])
  }

  /** With distinct ids, `Find` returns the one row carrying the id. */
  lemma FindUnique<D(!new)>(rows: seq<Row<D>>, k: int)
    requires IdsDistinct(rows) && 0 <= k < |rows|
    ensures Find(rows, rows[k].id) == Some(rows[k])
  {
    if k > 0 {
      assert rows[0].id != rows[k].id;
      assert rows[1..][k - 1] == rows[k];
      FindUnique(rows[1..], k - 1);
    }
  }

  /** Patching the row with a given id is writing the patched data of the row
      `Find` returns. */
  lemma ModifiedIsWithData<D(!new)>(rows: seq<Row<D>>, id: Id, patch: D -> D, stamp: nat)
    requires IdsDistinct(rows) && id in Ids(rows)
    ensures Modified(rows, id, patch, stamp) == WithData(rows, id, patch(Find(rows, id).value.data), stamp)
  {
    var k :| 0 <= k < |rows| && rows[k].id == id;
    FindUnique(rows, k);
    forall m | 0 <= m < |rows| && rows[m].id == id ensures rows[m] == rows[k] {
    }
  }

  /** `delete({ where: { id } })` */
  function Without<D(==,!new)>(rows: seq<Row<D>>, id: Id): (r: seq<Row<D>>)
    ensures |r| <= |rows|
    ensures forall row :: row in r <==> row in rows && row.id != id
  {
    if rows == [] then []
    else
      assert rows == [rows[0]] + rows[1..];
      if rows[0].id == id then Without(rows[1..], id) else [rows[0]] + Without(rows[1..], id)
  }

  /** Deleting keeps creation order and distinct ids. */
  lemma WithoutKeepsOrder<D(!new)>(rows: seq<Row<D>>, id: Id)
    ensures Chronological(rows) ==> Chronological(Without(rows, id))
    ensures IdsDistinct(rows) ==> IdsDistinct(Without(rows, id))
  {
    if Chronological(rows) {
      WithoutKeepsChronological(rows, id);
    }
    if IdsDistinct(rows) {
      WithoutKeepsDistinct(rows, id);
    }
  }

  lemma {:induction false} WithoutKeepsChronological<D(!new)>(rows: seq<Row<D>>, id: Id)
    requires Chronological(rows)
    ensures Chronological(Without(rows, id))
  {
    if rows != [] {
      TailKeepsOrder(rows);
      WithoutKeepsChronological(rows[1..], id);
      if rows[0].id != id {
        ConsKeepsOrder(rows, Without(rows[1..], id));
      }
    }
  }

  lemma {:induction false} WithoutKeepsDistinct<D(!new)>(rows: seq<Row<D>>, id: Id)
    requires IdsDistinct(rows)
    ensures IdsDistinct(Without(rows, id))
  {
    if rows != [] {
      TailKeepsOrder(rows);
      WithoutKeepsDistinct(rows[1..], id);
      if rows[0].id != id {
        ConsKeepsOrder(rows, Without(rows[1..], id));
      }
    }
  }

  /** Deleting a missing id changes nothing; deleting a present one, when ids
      are distinct, removes exactly one row. */
  lemma WithoutCount<D(!new)>(rows: seq<Row<D>>, id: Id)
    ensures id !in Ids(rows) ==> Without(rows, id) == rows
    ensures id in Ids(rows) && IdsDistinct(rows) ==> |Without(rows, id)| == |rows| - 1
  {
    if id !in Ids(rows) {
      WithoutMissing(rows, id);
    } else if IdsDistinct(rows) {
      WithoutPresent(rows, id);
    }
  }

  lemma {:induction false} WithoutMissing<D(!new)>(rows: seq<Row<D>>, id: Id)
    requires id !in Ids(rows)
    ensures Without(rows, id) == rows
  {
    if rows != [] {
      IdsCons(rows);
      WithoutMissing(rows[1..], id);
      assert rows == [rows[0]] + rows[1..];
    }
  }

  lemma {:induction false} WithoutPresent<D(!new)>(rows: seq<Row<D>>, id: Id)
    requires id in Ids(rows) && IdsDistinct(rows)
    ensures |Without(rows, id)| == |rows| - 1
  {
    IdsCons(rows);
    if rows[0].id == id {
      forall k | 0 <= k < |rows[1..]| ensures rows[1..][k].id != id {
        assert rows[1..][k] == rows[k + 1];
      }
      WithoutMissing(rows[1..], id);
    } else {
      TailKeepsOrder(rows);
      WithoutPresent(rows[1..], id);
    }
  }

  /** With distinct ids, the first row's id does not occur again. */
  lemma HeadNotInTail<D>(rows: seq<Row<D>>)
    requires rows != [] && IdsDistinct(rows)
    ensures rows[0].id !in Ids(rows[1..])
  {
    forall k | 0 <= k < |rows[1..]| ensures rows[1..][k].id != rows[0].id {
      assert rows[1..][k] == rows[k + 1];
    }
  }

  lemma IdsCons<D>(rows: seq<Row<D>>)
    requires rows != []
    ensures Ids(rows) == {rows[0].id} + Ids(rows[1..])
  {
    assert rows == [rows[0]] + rows[1..];
    forall x | x in Ids(rows) ensures x in {rows[0].id} + Ids(rows[1..]) {
      var k :| 0 <= k < |rows| && rows[k].id == x;
      if k > 0 {
        assert rows[1..][k - 1] == rows[k];
      }
    }
    forall x | x in Ids(rows[1..]) ensures x in Ids(rows) {
      var k :| 0 <= k < |rows[1..]| && rows[1..][k].id == x;
      assert rows[k + 1] == rows[1..][k];
    }
  }

  /** One table. Methods are the store calls the services make; each is a
      single step (a transaction is one call too). */
  class Table<D(==,!new)> {
    var rows: seq<Row<D>>
    var clock: nat

    ghost predicate Valid()
      reads this
    {
      && IdsDistinct(rows)
      && Chronological(rows)
      && forall k :: 0 <= k < |rows| ==> rows[k].id < clock && rows[k].createdAt < clock && rows[k].updatedAt < clock
    }

    constructor ()
      ensures Valid() && rows == []
    {
      rows := [];
      clock := 0;
    }

    /** `create({ data })`: a new row, with a new id, newer than every row. */
    method Insert(d: D) returns (row: Row<D>)
      requires Valid()
      modifies this
      ensures Valid()
      ensures rows == old(rows) + [row]
      ensures row.data == d && row.id !in Ids(old(rows))
      ensures forall other :: other in old(rows) ==> other.createdAt < row.createdAt
    {
      row := Row(clock, clock, clock, d);
      rows := rows + [row];
      clock := clock + 1;
    }

    /** `update({ where: { id }, data })` on an existing row. */
    method Update(id: Id, patch: D -> D)
      requires Valid() && id in Ids(rows)
      modifies this
      ensures Valid()
      ensures rows == Modified(old(rows), id, patch, old(clock))
      ensures Ids(rows) == Ids(old(rows))
    {

      rows := Modified(rows, id, patch, clock);
      clock := clock + 1;
      assert forall k :: 0 <= k < |rows| ==> rows[k].id == old(rows)[k].id;
    }

    /** `delete({ where: { id } })` */
    method Delete(id: Id)
      requires Valid()
      modifies this
      ensures Valid()
      ensures rows == Without(old(rows), id)
    {
      WithoutKeepsOrder(rows, id);
      rows := Without(rows, id);
    }
  }
}

=== FILE: text.dfy ===
/** String operations the query layer relies on: JavaScript's `trim()` and the
    store's `contains` filter, taken here as an exact substring test. */
module Text {

  /** JavaScript WhiteSpace and LineTerminator code points, the set `trim()` strips. */
  predicate IsJsWhitespace(c: char) {
    || c == '\t' || c == '\n' || c == '\U{B}' || c == '\U{C}' || c == '\r' || c == ' '
    || c == '\U{A0}' || c == '\U{1680}' || ('\U{2000}' <= c <= '\U{200A}')
    || c == '\U{2028}' || c == '\U{2029}' || c == '\U{202F}' || c == '\U{205F}'
    || c == '\U{3000}' || c == '\U{FEFF}'
  }

  function TrimStart(s: string): (r: string)
    ensures |r| <= |s| && r == s[|s| - |r|..]
    ensures r == [] || !IsJsWhitespace(r[0])
    ensures forall i :: 0 <= i < |s| - |r| ==> IsJsWhitespace(s[i])
  {
    if s != [] && IsJsWhitespace(s[0]) then TrimStart(s[1..]) else s
  }

  function TrimEnd(s: string): (r: string)
    ensures |r| <= |s| && r == s[..|r|]
    ensures r == [] || !IsJsWhitespace(r[|r| - 1])
    ensures forall i :: |r| <= i < |s| ==> IsJsWhitespace(s[i])
  {
    if s != [] && IsJsWhitespace(s[|s| - 1]) then TrimEnd(s[..|s| - 1]) else s
  }

  /** `s.trim()` */
  function Trim(s: string): string {
    TrimEnd(TrimStart(s))
  }

  /** The string holds a character that `trim()` keeps. */
  predicate HasText(s: string) {
    exists i :: 0 <= i < |s| && !IsJsWhitespace(s[i])
  }

  /** `query.trim()` is truthy exactly when the query holds a non-whitespace
      character: a blank or whitespace-only search is no search. */
  lemma TrimNonEmptyIff(s: string)
    ensures Trim(s) != "" <==> HasText(s)
  {
    var t := TrimStart(s);
    var u := TrimEnd(t);
    if u != "" {
      assert u[0] == t[0] == s[|s| - |t|];
    }
    if HasText(s) {
      var i :| 0 <= i < |s| && !IsJsWhitespace(s[i]);
      assert t[i - (|s| - |t|)] == s[i];
    }
  }

  /** `needle` occurs in `hay` at offset `i`. */
  predicate OccursAt(hay: string, needle: string, i: int) {
    0 <= i && i + |needle| <= |hay| && hay[i..i + |needle|] == needle
  }

  /** `{ contains: needle }`: `needle` occurs somewhere in `hay`. */
  predicate Contains(hay: string, needle: string) {
    exists i | 0 <= i <= |hay| - |needle| :: OccursAt(hay, needle, i)
  }

  /** A string is found inside anything that has it as an infix; in particular
      the empty needle is found everywhere. */
  lemma ContainsInfix(a: string, needle: string, b: string)
    ensures Contains(a + needle + b, needle)
  {
    assert OccursAt(a + needle + b, needle, |a|);
  }

  /** A needle longer than the text is never found. */
  lemma ContainsNeedsRoom(hay: string, needle: string)
    requires Contains(hay, needle)
    ensures |needle| <= |hay|
  {
  }
}
